=== FILE: README.md ===
# Flash-sale admission and order core, modelled in Dafny

This project models the core of a Java flash-sale ("seckill") platform. That core is:
- the admission and contention-control layer that sits in front of a contended product:
  - a fair admission queue;
  - a distributed lock;
  - an idempotency guard;
  - an anti-scalping gate;
  - single-use purchase tokens;
  - a per-key rate limiter;
- the asynchronous seckill pipeline, with its hand-rolled task format and retry queue;
- the message listeners' retry and dead-letter discipline;
- the stock ledger, in its SQL statements and in both product services;
- the purchase flow;
- the order, payment and activity status machines.

Every component is a pure transition over an immutable state:
- The shared key-value store becomes maps, sets and sequences. A Redis list is a sequence whose head is index 0. A sorted set is a sequence sorted by score.
- The database tables become maps from keys to rows.
- An operation returns its reply together with the new state, and sometimes the follow-up calls it makes.

Several things the code reads from outside become parameters:
- the clock and random UUID prefixes;
- the row counts of SQL statements whose text is not part of this model;
- the results of remote calls;
- exception messages.

Java semantics are written out where they matter:
- `null` is `Option.None`.
- 32-bit `int` arithmetic wraps (`Text.Wrap32`).
- Integer division truncates toward zero (`Text.JavaDiv`).
- `%` takes the sign of the dividend (`Text.JavaRem`).
- Money is whole cents.
- Times are epoch milliseconds.

Where a finding below shows the code departing from its evident intent, both behaviours are stated:
- Product views and sales statistics report the 32-bit progress the code computes; the intended progress is a separate function, and the two agree while `used * 100` fits in 32 bits.
- The asynchronous pipeline takes the result-code comparison as a parameter: as written, every task ends failed; as intended, exactly the successful seckills succeed.
- The fair queue's completion exists as written and in a guarded form; the queue's bound is proved for the guarded form.

Files:
- `wrappers.dfy`, `text.dfy`, `api_results.dfy`: `Option`, Java arithmetic and text conversions, the reply type.
- `fair_queue.dfy`, `distributed_lock.dfy`, `idempotency.dfy`, `anti_scalping.dfy`, `capability_token.dfy`, `rate_limit.dfy`: admission control.
- `task_codec.dfy`, `async_processor.dfy`, `message_listener.dfy`: the asynchronous pipeline and the listeners.
- `stock_ledger.dfy`, `product_service.dfy`, `flash_sale_products.dfy`, `paging.dfy`: stock and catalogue.
- `seckill.dfy`, `orders.dfy`, `payments.dfy`, `activities.dfy`, `user_roles.dfy`: the purchase flow, the status machines and the roles.

## Model

| member | source | states |
|---|---|---|
| ApiResults.Success | flash-sale-seckill/src/main/java/com/flashsale/common/result/Result.java:40-46 | a successful reply with code 200, the message "操作成功" and no data |
| ApiResults.SuccessWith | flash-sale-seckill/src/main/java/com/flashsale/common/result/Result.java:51-58 | a successful reply with code 200 and the message "操作成功" that carries the given data |
| ApiResults.Error | flash-sale-seckill/src/main/java/com/flashsale/common/result/Result.java:63-69 | a failed reply with code 500 and the message "操作失败" |
| ApiResults.ErrorMessage | flash-sale-seckill/src/main/java/com/flashsale/common/result/Result.java:74-80 | a failed reply with code 500 and the given message |
| ApiResults.ErrorCode | flash-sale-seckill/src/main/java/com/flashsale/common/result/Result.java:85-91 | a failed reply that carries exactly the given code and message |
| ApiResults.FactoriesAgree | flash-sale-seckill/src/main/java/com/flashsale/common/result/Result.java:63-91 | `error()` is `error(message)` with the default message, `error(message)` is `error(500, message)`, and a plain success equals no error |
| UserRoles.RoleName | flash-sale-common/src/main/java/com/flashsale/common/constants/UserRole.java:32-44 | roles 1 to 4 have their names; null and any other code read as unknown |
| UserRoles.IsAdmin | flash-sale-common/src/main/java/com/flashsale/common/constants/UserRole.java:48-50 | holds exactly for role 4 |
| UserRoles.IsMerchant | flash-sale-common/src/main/java/com/flashsale/common/constants/UserRole.java:55-57 | holds exactly for role 3 |
| UserRoles.IsVip | flash-sale-common/src/main/java/com/flashsale/common/constants/UserRole.java:62-64 | holds exactly for role 2 |
| UserRoles.CanSeckill | flash-sale-common/src/main/java/com/flashsale/common/constants/UserRole.java:69-71 | only ordinary and VIP buyers may take part; false for null, merchants and administrators |
| UserRoles.RolesExclusive | flash-sale-common/src/main/java/com/flashsale/common/constants/UserRole.java:48-64 | at most one of administrator, merchant and VIP holds; administrators and merchants cannot take part, VIP buyers can |
| UserRoles.RoleNameInjective | flash-sale-common/src/main/java/com/flashsale/common/constants/UserRole.java:32-44 | two roles with the same known name are the same role |
| FairQueue.InsertByScore | flash-sale-common/src/main/java/com/flashsale/common/queue/FairRateLimiter.java:78-83 | sorted-set insertion keeps the queue ordered by score, adds exactly the new entry and keeps the others |
| FairQueue.InsertAboveAllAppends | flash-sale-common/src/main/java/com/flashsale/common/queue/FairRateLimiter.java:78-83 | an entry scored above every waiter goes to the end of the queue |
| FairQueue.AppendWhenValid | flash-sale-common/src/main/java/com/flashsale/common/queue/FairRateLimiter.java:78-83 | in a reachable state, a new sequence number is the largest score, so a queued user joins at the back |
| FairQueue.RequestQueueEntry | flash-sale-common/src/main/java/com/flashsale/common/queue/FairRateLimiter.java:38-108 | the counter advances on every call; a user already waiting or processing gets null and nothing else changes; below the limit the user is admitted with an IMMEDIATE token; otherwise the user is queued under the new sequence number with a QUEUED token |
| FairQueue.Rank | flash-sale-common/src/main/java/com/flashsale/common/queue/FairRateLimiter.java:116-129 | the index of the user's entry, present exactly when the user is waiting |
| FairQueue.CountBelowNone | flash-sale-common/src/main/java/com/flashsale/common/queue/FairRateLimiter.java:116-129 | no waiter has a score below the head's score |
| FairQueue.CountBelowIndex | flash-sale-common/src/main/java/com/flashsale/common/queue/FairRateLimiter.java:116-129 | in an ascending queue exactly i entries are ahead of index i |
| FairQueue.PositionWhenValid | flash-sale-common/src/main/java/com/flashsale/common/queue/FairRateLimiter.java:116-129 | the rank by ascending score is the position in the queue |
| FairQueue.CheckQueueStatus | flash-sale-common/src/main/java/com/flashsale/common/queue/FairRateLimiter.java:111-135 | a processing user sees position 0 and may proceed; a waiting user sees a 1-based rank and may not; anyone else is not found at -1 |
| FairQueue.CompleteProcessing | flash-sale-common/src/main/java/com/flashsale/common/queue/FairRateLimiter.java:138-176 | the caller leaves the processing set; when someone waits, the lowest-scored waiter moves into the set and is returned |
| FairQueue.DoubleCompletionOverAdmits | flash-sale-common/src/main/java/com/flashsale/common/queue/FairRateLimiter.java:152-161 | completing twice while users wait lifts the processing set above the limit |
| FairQueue.CompleteProcessingGuarded | flash-sale-common/src/main/java/com/flashsale/common/queue/FairRateLimiter.java:152-161 | promotion happens only when the caller held a slot, so the set size never grows |
| FairQueue.RunKeepsBound | flash-sale-common/src/main/java/com/flashsale/common/queue/FairRateLimiter.java:71-74 | after any series of requests and guarded completions, the set stays within the limit and the state stays reachable |
| FairQueue.PromotionsAscend | flash-sale-common/src/main/java/com/flashsale/common/queue/FairRateLimiter.java:152-161 | waiters are promoted in strictly ascending order of their sequence numbers |
| DistributedLock.TryLock | flash-sale-common/src/main/java/com/flashsale/common/lock/RedisDistributedLockService.java:36-65 | success exactly when some attempt within the wait finds the key free; the key then holds this attempt's value and the thread records it; a timeout or interruption returns false and records nothing |
| DistributedLock.Unlock | flash-sale-common/src/main/java/com/flashsale/common/lock/RedisDistributedLockService.java:67-89 | the key is deleted only when it still holds the caller's recorded value; the caller's record is dropped either way; with no record nothing happens |
| DistributedLock.ReleaseRespectsOwner | flash-sale-common/src/main/java/com/flashsale/common/lock/RedisDistributedLockService.java:26-29 | another thread's release leaves a held lock in place |
| DistributedLock.ExecuteWithLock | flash-sale-common/src/main/java/com/flashsale/common/lock/RedisDistributedLockService.java:92-105 | a failure without a cause exactly when no attempt within the wait obtains the lock, and then the task never runs; a value exactly when the lock is obtained and the task returns; a throw is re-raised wrapped; on both task paths the lock is released |
| DistributedLock.GiveUpExcludesAcquire | flash-sale-common/src/main/java/com/flashsale/common/lock/RedisDistributedLockService.java:36-65 | a polling run that gives up obtains the lock at no attempt |
| Idempotency.CheckAndSet | flash-sale-common/src/main/java/com/flashsale/common/security/IdempotencyService.java:30-44 | true exactly when the prefixed key was absent; the key is present afterwards; a repeat claim changes nothing |
| Idempotency.CheckSeckill | flash-sale-common/src/main/java/com/flashsale/common/security/IdempotencyService.java:53-57 | admitted exactly when the user, product and request id key is unclaimed; admission records the time under that key and changes nothing else; a repeat changes nothing |
| Idempotency.Remove | flash-sale-common/src/main/java/com/flashsale/common/security/IdempotencyService.java:63-67 | deletes exactly the prefixed key and keeps the other claims |
| Idempotency.Exists | flash-sale-common/src/main/java/com/flashsale/common/security/IdempotencyService.java:94-97 | true exactly when the prefixed key is present |
| Idempotency.ClaimLifecycle | flash-sale-common/src/main/java/com/flashsale/common/security/IdempotencyService.java:30-67 | a claimed key refuses later claims, and removing it admits the next one |
| Idempotency.GenerateKey | flash-sale-common/src/main/java/com/flashsale/common/security/IdempotencyService.java:76-87 | user id, then action, then each parameter in order, joined by colons; no parameters give just user id and action |
| Idempotency.KeyRoundTrip | flash-sale-common/src/main/java/com/flashsale/common/security/IdempotencyService.java:76-87 | splitting a generated key on colons gives back the user id, the action and the parameters when none of them holds a colon |
| Idempotency.SeckillKeyDoublyPrefixed | flash-sale-common/src/main/java/com/flashsale/common/security/IdempotencyService.java:53-57 | the flash-sale claim lands under both the general and the flash-sale prefix |
| AntiScalping.CounterKeysDistinct | flash-sale-common/src/main/java/com/flashsale/common/security/AntiScalpingService.java:83-102 | the user, address and device counters never share a key |
| AntiScalping.CheckAndIncrement | flash-sale-common/src/main/java/com/flashsale/common/security/AntiScalpingService.java:107-120 | the counter goes up by one, and the call is allowed exactly when the new count is within the maximum |
| AntiScalping.Credible | flash-sale-common/src/main/java/com/flashsale/common/security/AntiScalpingService.java:125-143 | passes exactly when verified, with any known credit score at least 60, and a known level below 2 needing a known score of at least 80 |
| AntiScalping.CheckRequestFrequency | flash-sale-common/src/main/java/com/flashsale/common/security/AntiScalpingService.java:83-102 | user within 3, then address within 10, then device within 5 when known; the user counter always rises by one, the address counter only when the user passed, the device counter only when a device is known and both earlier counters passed; no other counter changes |
| AntiScalping.FrequencyCapsBurst | flash-sale-common/src/main/java/com/flashsale/common/security/AntiScalpingService.java:83-102 | of any number of requests from one client in a counting window, at most three minus the user's current count pass the frequency stage |
| AntiScalping.CheckBehaviorPattern | flash-sale-common/src/main/java/com/flashsale/common/security/AntiScalpingService.java:148-164 | the action is always logged first, and the check fails exactly when more than ten actions are logged |
| AntiScalping.CheckUserLegitimacy | flash-sale-common/src/main/java/com/flashsale/common/security/AntiScalpingService.java:37-65 | blacklist, frequency, credibility and behaviour in that order; a blacklisted caller changes nothing; otherwise the counters are exactly those the frequency stage leaves, and the caller's action log gains the new action only when blacklist, frequency and credibility all pass, no other log changing |
| AntiScalping.AddToBlacklist | flash-sale-common/src/main/java/com/flashsale/common/security/AntiScalpingService.java:169-188 | only the known parts of the identity are blacklisted, each with the reason |
| AntiScalping.RemoveFromBlacklist | flash-sale-common/src/main/java/com/flashsale/common/security/AntiScalpingService.java:193-207 | only the known parts of the identity are removed |
| AntiScalping.BlacklistTurnsAway | flash-sale-common/src/main/java/com/flashsale/common/security/AntiScalpingService.java:70-78 | after blacklisting any known part of a caller, the caller fails the check without touching any counter |
| AntiScalping.GetUserRiskLevel | flash-sale-common/src/main/java/com/flashsale/common/security/AntiScalpingService.java:212-246 | the sum of the weights of the raised signals (busy user 30, busy address 40, low credit 20, unverified 30, low level 10) capped at 100; zero exactly when no signal is raised |
| AntiScalping.RiskMonotone | flash-sale-common/src/main/java/com/flashsale/common/security/AntiScalpingService.java:212-246 | a client raising every signal another raises is rated at least as risky |
| CapabilityToken.QuotaKeysDistinct | flash-sale-common/src/main/java/com/flashsale/common/security/EnhancedTokenService.java:140-162 | the user quota and the address quota never share a key |
| CapabilityToken.CheckTokenGenerateFrequency | flash-sale-common/src/main/java/com/flashsale/common/security/EnhancedTokenService.java:140-162 | at most 5 per user and 20 per address; the user counter is raised even when the address then refuses |
| CapabilityToken.CalculateTokenValidity | flash-sale-common/src/main/java/com/flashsale/common/security/EnhancedTokenService.java:176-199 | 10 minutes plus the level bonus (10 from level 3, 5 from level 2), the credit bonus (5 from 90, 3 from 80) and 5 when verified; the cap of 30 never cuts |
| CapabilityToken.ValidityMonotone | flash-sale-common/src/main/java/com/flashsale/common/security/EnhancedTokenService.java:176-199 | a higher level or credit score, or verification, never shortens the validity |
| CapabilityToken.SecureToken | flash-sale-common/src/main/java/com/flashsale/common/security/EnhancedTokenService.java:204-221 | 32 hex characters that decode to the first 16 bytes of the digest |
| CapabilityToken.GenerateEnhancedToken | flash-sale-common/src/main/java/com/flashsale/common/security/EnhancedTokenService.java:42-86 | screening, then quota, then challenge; a screening failure changes only the screening state, a later failure also the quota counters, and neither stores a token; a success stores, under the user and product, an unused token that is the hex of the digest of user, product, address and time |
| CapabilityToken.ValidateAndConsumeToken | flash-sale-common/src/main/java/com/flashsale/common/security/EnhancedTokenService.java:96-135 | a missing token, a wrong text, another address or a used token is refused with the record unchanged; otherwise the record is marked used |
| CapabilityToken.IssueThenConsumeOnce | flash-sale-common/src/main/java/com/flashsale/common/security/EnhancedTokenService.java:42-135 | an issued token is accepted once from the issuing address and refused on a second try |
| RateLimit.WindowStart | flash-sale-seckill/src/main/java/com/flashsale/seckill/service/impl/RateLimitServiceImpl.java:28-30 | for a non-negative clock and a positive period, the window start is a multiple of the period at most one period back |
| RateLimit.WindowAligned | flash-sale-seckill/src/main/java/com/flashsale/seckill/service/impl/RateLimitServiceImpl.java:28-30 | subtracting the remainder gives a multiple of the period |
| RateLimit.IsAllowed | flash-sale-seckill/src/main/java/com/flashsale/seckill/service/impl/RateLimitServiceImpl.java:25-60 | any failure lets the call through; the first call of a window creates the record at 1; a full record refuses without counting; otherwise the call is counted |
| RateLimit.RecordAccess | flash-sale-seckill/src/main/java/com/flashsale/seckill/service/impl/RateLimitServiceImpl.java:63-88 | counts the call in its 60-second window with no limit; only that record changes |
| RateLimit.GetRateLimit | flash-sale-seckill/src/main/java/com/flashsale/seckill/service/impl/RateLimitServiceImpl.java:159-166 | limit 100 and period 60 for every key |
| RateLimit.BurstFromRecord | flash-sale-seckill/src/main/java/com/flashsale/seckill/service/impl/RateLimitServiceImpl.java:47-53 | within one window, calls are allowed until the count reaches the limit, and every allowed call is counted |
| RateLimit.BurstFromEmpty | flash-sale-seckill/src/main/java/com/flashsale/seckill/service/impl/RateLimitServiceImpl.java:35-53 | a fresh window allows at most max(limit, 1) calls |
| RateLimit.DefaultRuleCapsBurst | flash-sale-seckill/src/main/java/com/flashsale/seckill/service/impl/RateLimitServiceImpl.java:159-166 | under the default rule a key gets at most 100 calls in a window |
| RateLimit.RecordedAccessCountsAgainstLimit | flash-sale-seckill/src/main/java/com/flashsale/seckill/service/impl/RateLimitServiceImpl.java:63-88 | a recorded access and a 60-second check share one record |
| RateLimit.LongPeriodExpiresEarly | flash-sale-seckill/src/main/java/com/flashsale/seckill/service/impl/RateLimitServiceImpl.java:35-44 | a period whose millisecond count overflows 32 bits gives the record a negative expiry |
| TaskCodec.Serialize | flash-sale-common/src/main/java/com/flashsale/common/mq/SeckillAsyncProcessor.java:411-428 | the ten fields, in order and with the serializer's null defaults, rendered as one braced record |
| TaskCodec.Deserialize | flash-sale-common/src/main/java/com/flashsale/common/mq/SeckillAsyncProcessor.java:433-462 | each field read back by pattern, and no task when a number does not parse |
| TaskCodec.Scan | flash-sale-common/src/main/java/com/flashsale/common/mq/SeckillAsyncProcessor.java:467-472 | the value at the leftmost position where the key pattern matches |
| TaskCodec.ScanRender | flash-sale-common/src/main/java/com/flashsale/common/mq/SeckillAsyncProcessor.java:467-472 | scanning a rendered record agrees with reading its first field of that name |
| TaskCodec.ExtractField | flash-sale-common/src/main/java/com/flashsale/common/mq/SeckillAsyncProcessor.java:411-472 | extracting any field of a serialized task gives back exactly the text written for it |
| TaskCodec.TaskRoundTrip | flash-sale-common/src/main/java/com/flashsale/common/mq/SeckillAsyncProcessor.java:411-462 | deserializing a serialized task recovers it, up to the serializer's defaults, when its texts avoid the pattern's stop characters |
| TaskCodec.NullQuantityIsLost | flash-sale-common/src/main/java/com/flashsale/common/mq/SeckillAsyncProcessor.java:411-462 | a task with a null quantity is written as null and cannot be read back |
| TaskCodec.ProductIdOfQueueKey | flash-sale-common/src/main/java/com/flashsale/common/mq/SeckillAsyncProcessor.java:391-398 | drops the prefix length and parses the rest as a long |
| TaskCodec.QueueKeyRoundTrip | flash-sale-common/src/main/java/com/flashsale/common/mq/SeckillAsyncProcessor.java:391-398 | the product id of a product's queue key is that product |
| TaskCodec.OriginalOfRetry | flash-sale-common/src/main/java/com/flashsale/common/mq/SeckillAsyncProcessor.java:500-517 | the text before the first error marker of a retry entry |
| TaskCodec.RetryRecoversTask | flash-sale-common/src/main/java/com/flashsale/common/mq/SeckillAsyncProcessor.java:477-517 | a task with no error marker in it comes back unchanged from the retry queue |
| TaskCodec.SerializedTaskRetries | flash-sale-common/src/main/java/com/flashsale/common/mq/SeckillAsyncProcessor.java:477-517 | a serialized task whose texts hold no bar survives the retry queue |
| AsyncProcessor.Submit | flash-sale-common/src/main/java/com/flashsale/common/mq/SeckillAsyncProcessor.java:115-176 | a full queue, an invalid request or a known task id gives null and changes nothing; otherwise the task is pushed at the head and marked queued |
| AsyncProcessor.GetTaskResult | flash-sale-common/src/main/java/com/flashsale/common/mq/SeckillAsyncProcessor.java:183-206 | the stored status, with the detail of a finished task; a task with no stored status is reported NOT_FOUND with no result |
| AsyncProcessor.SubmittedIsQueued | flash-sale-common/src/main/java/com/flashsale/common/mq/SeckillAsyncProcessor.java:147-154 | a freshly submitted task reads back as queued and not completed |
| AsyncProcessor.SubmitDeduplicates | flash-sale-common/src/main/java/com/flashsale/common/mq/SeckillAsyncProcessor.java:147-154 | submitting the same task id again is refused and changes nothing |
| AsyncProcessor.PopBatch | flash-sale-common/src/main/java/com/flashsale/common/mq/SeckillAsyncProcessor.java:244-248 | at most 100 tasks taken from the tail, oldest first, stopping at an empty queue; the rest stays in order |
| AsyncProcessor.PushAllReverses | flash-sale-common/src/main/java/com/flashsale/common/mq/SeckillAsyncProcessor.java:147-154 | pushing tasks one by one at the head lays them out in reverse order |
| AsyncProcessor.FifoOrder | flash-sale-common/src/main/java/com/flashsale/common/mq/SeckillAsyncProcessor.java:244-248 | tasks leave the queue in the order they were submitted |
| AsyncProcessor.UpdateTaskStatus | flash-sale-common/src/main/java/com/flashsale/common/mq/SeckillAsyncProcessor.java:370-378 | the status is always written, and the detail only when given |
| AsyncProcessor.ProcessTaskAsWritten | flash-sale-common/src/main/java/com/flashsale/common/mq/SeckillAsyncProcessor.java:276-306 | the task is processed with the integer code compared to the text "200": it ends FAILED, one more task is counted, only its status and detail values change, and no queue changes |
| AsyncProcessor.AsWrittenAlwaysFails | flash-sale-common/src/main/java/com/flashsale/common/mq/SeckillAsyncProcessor.java:288-296 | every processed task ends failed |
| AsyncProcessor.SuccessfulSeckillReportedFailed | flash-sale-common/src/main/java/com/flashsale/common/mq/SeckillAsyncProcessor.java:288-296 | a seckill that returned code 200 is still reported failed |
| AsyncProcessor.ProcessTask | flash-sale-common/src/main/java/com/flashsale/common/mq/SeckillAsyncProcessor.java:276-306 | the task ends successful with the order number exactly when the seckill returned code 200, and failed with the reason otherwise |
| AsyncProcessor.ProcessedIsCompleted | flash-sale-common/src/main/java/com/flashsale/common/mq/SeckillAsyncProcessor.java:601-607 | a processed task reads back as completed, and successful exactly when the seckill succeeded |
| AsyncProcessor.ProcessTasks | flash-sale-common/src/main/java/com/flashsale/common/mq/SeckillAsyncProcessor.java:254-265 | the tasks of a batch that parse are processed in order and the others skipped. Every parsed task ends with its verdict: FAILED as written; as intended, SUCCESS exactly when its seckill succeeded. The exception is a task whose status key is another task's detail key. Values no parsed task writes are kept. As written no task is counted a success and each parsed one a failure; as intended exactly the tasks whose seckill succeeded are counted successes |
| AsyncProcessor.GeneratedIdUnshadowed | flash-sale-common/src/main/java/com/flashsale/common/mq/SeckillAsyncProcessor.java:403-406 | a generated task id ends in eight colon-free characters of a UUID, so no task's detail key is its status key and the batch statuses above hold for it |
| AsyncProcessor.Step | flash-sale-common/src/main/java/com/flashsale/common/mq/SeckillAsyncProcessor.java:276-306 | one task under either comparison: as written its status is FAILED and a failure is counted; as intended its status is SUCCESS, and a success counted, exactly when the seckill succeeded; only its status and detail values change |
| AsyncProcessor.ComparisonsDifferBySuccesses | flash-sale-common/src/main/java/com/flashsale/common/mq/SeckillAsyncProcessor.java:254-296 | the two comparisons process the same tasks and differ only by the tasks whose seckill succeeded, counted failures instead of successes |
| AsyncProcessor.ProcessProductQueue | flash-sale-common/src/main/java/com/flashsale/common/mq/SeckillAsyncProcessor.java:240-271 | one batch of up to 100 leaves the queue tail, oldest first, and no other queue changes. Every parsed task of the batch ends with its verdict, unless another task's detail lands on its status key, and values no parsed task writes are kept. As written the success counter does not move; as intended it rises by the tasks whose seckill succeeded |
| AsyncProcessor.ProcessRetryQueue | flash-sale-common/src/main/java/com/flashsale/common/mq/SeckillAsyncProcessor.java:500-517 | the oldest retry entry is taken; no other queue changes. When the text before its marker parses, that task is processed again: one more task is counted, it ends with its verdict, a success is counted as intended exactly when its seckill succeeds, and no other value changes. Otherwise the values and counters stay as they were |
| MessageListener.GetRetryCount | flash-sale-common/src/main/java/com/flashsale/common/mq/BaseMessageListener.java:140-146 | the header's integer when present, 0 when absent, and a failure for a header of another type |
| MessageListener.HandleProcessFailure | flash-sale-common/src/main/java/com/flashsale/common/mq/BaseMessageListener.java:92-119 | below 3 retries the message is republished with the count raised by one and acknowledged; otherwise it is dead-lettered and acknowledged; a failed republish is rejected without requeueing |
| MessageListener.HandleMessage | flash-sale-common/src/main/java/com/flashsale/common/mq/BaseMessageListener.java:49-81 | success and duplicates are acknowledged; everything else takes the failure path |
| MessageListener.SettledExactlyOnce | flash-sale-common/src/main/java/com/flashsale/common/mq/BaseMessageListener.java:49-119 | each delivery ends in exactly one acknowledgement or rejection, its last effect, and is never requeued |
| MessageListener.FailingDeliveries | flash-sale-common/src/main/java/com/flashsale/common/mq/BaseMessageListener.java:100-118 | the deliveries of a message that keeps failing, through its republished copies |
| MessageListener.RetryLadder | flash-sale-common/src/main/java/com/flashsale/common/mq/BaseMessageListener.java:100-118 | a message that keeps failing is republished until the count reaches 3 and then dead-lettered once |
| MessageListener.FreshMessageDeliveries | flash-sale-common/src/main/java/com/flashsale/common/mq/BaseMessageListener.java:100-118 | a fresh message that keeps failing is delivered four times |
| MessageListener.MessageForLog | flash-sale-common/src/main/java/com/flashsale/common/mq/BaseMessageListener.java:224-235 | "null" for no body, a longer body cut to its first 500 characters followed by "...", a shorter one unchanged |
| MessageListener.LogFormStable | flash-sale-common/src/main/java/com/flashsale/common/mq/BaseMessageListener.java:224-235 | shortening a log line a second time changes nothing |
| StockLedger.DecreaseStock | flash-sale-product/src/main/java/com/flashsale/product/mapper/FlashSaleProductMapper.java:56-59 | one row changes exactly when the row exists and its stock covers the quantity; the quantity moves from stock to used |
| StockLedger.IncreaseStock | flash-sale-product/src/main/java/com/flashsale/product/mapper/FlashSaleProductMapper.java:68-71 | one row changes exactly when its used count covers the quantity; the quantity moves back to stock |
| StockLedger.UpdatesConserveTotal | flash-sale-product/src/main/java/com/flashsale/product/mapper/FlashSaleProductMapper.java:56-71 | both updates keep stock plus used of every row |
| StockLedger.UpdatesKeepSound | flash-sale-product/src/main/java/com/flashsale/product/mapper/FlashSaleProductMapper.java:56-71 | with a non-negative quantity no counter goes negative |
| StockLedger.NegativeQuantityUnderflowsUsed | flash-sale-product/src/main/java/com/flashsale/product/mapper/FlashSaleProductMapper.java:56-59 | a negative quantity passes the guard and drives the used count below zero |
| StockLedger.DecreaseThenIncrease | flash-sale-product/src/main/java/com/flashsale/product/mapper/FlashSaleProductMapper.java:56-71 | a decrease followed by an increase of the same quantity restores the row's counters |
| StockLedger.Sell | flash-sale-product/src/main/java/com/flashsale/product/mapper/FlashSaleProductMapper.java:56-59 | a series of decrements on one row keeps the table's keys |
| StockLedger.SellNeverOversells | flash-sale-product/src/main/java/com/flashsale/product/mapper/FlashSaleProductMapper.java:56-59 | the quantity granted in total never exceeds the starting stock, and the stock pays for exactly what was granted |
| StockLedger.ProductsByActivity | flash-sale-product/src/main/java/com/flashsale/product/mapper/FlashSaleProductMapper.java:44-47 | exactly the enabled rows of the activity, and none unless the activity is enabled |
| StockLedger.UpdatesKeepListing | flash-sale-product/src/main/java/com/flashsale/product/mapper/FlashSaleProductMapper.java:44-71 | selling and restocking never change any activity's listing |
| ProductService.DecreaseStock | flash-sale-product/src/main/java/com/flashsale/product/service/impl/ProductServiceImpl.java:213-244 | unknown products fail; the cached stock, else the database stock, must cover the quantity; only a reported decrement lowers the cache by the quantity |
| ProductService.IncreaseStock | flash-sale-product/src/main/java/com/flashsale/product/service/impl/ProductServiceImpl.java:248-263 | only a reported update raises the cached counter by the quantity |
| ProductService.DecreaseKeepsCacheCoherent | flash-sale-product/src/main/java/com/flashsale/product/service/impl/ProductServiceImpl.java:216-238 | against a guarded database, a cache that tracks the stock keeps tracking it |
| ProductService.StaleCacheRefuses | flash-sale-product/src/main/java/com/flashsale/product/service/impl/ProductServiceImpl.java:216-228 | a cached counter below the quantity refuses whatever the database holds |
| ProductService.ColdRestockLosesStock | flash-sale-product/src/main/java/com/flashsale/product/service/impl/ProductServiceImpl.java:250-256 | restocking an uncached product creates the counter at the quantity alone |
| ProductService.DecreaseThenIncreaseRestoresCounter | flash-sale-product/src/main/java/com/flashsale/product/service/impl/ProductServiceImpl.java:213-263 | a decrease then an increase of the same quantity restores the cached counter |
| ProductService.AddProduct | flash-sale-product/src/main/java/com/flashsale/product/service/impl/ProductServiceImpl.java:44-68 | the draft's fields on sale with nothing sold; a reported insert caches the product and its stock |
| ProductService.AddedProductSellable | flash-sale-product/src/main/java/com/flashsale/product/service/impl/ProductServiceImpl.java:44-68 | a freshly added product can be sold down to its full stock from the cache |
| Paging.PageOffset | flash-sale-seckill/src/main/java/com/flashsale/seckill/service/impl/FlashSaleProductServiceImpl.java:191-208 | (page - 1) * size in 32-bit arithmetic, and no offset when either is null |
| Paging.ConsecutivePagesAdjacent | flash-sale-product/src/main/java/com/flashsale/product/service/impl/ProductServiceImpl.java:153-180 | for ordinary pages, page p + 1 starts right after page p |
| Paging.LargePageWraps | flash-sale-seckill/src/main/java/com/flashsale/seckill/service/impl/FlashSaleActivityServiceImpl.java:175-192 | a large enough page wraps the offset to a negative number |
| FlashSaleProducts.ProductStock | flash-sale-seckill/src/main/java/com/flashsale/seckill/service/impl/FlashSaleProductServiceImpl.java:346-360 | stock minus used, reported no lower than zero; an unknown product is not found |
| FlashSaleProducts.CheckEligibility | flash-sale-seckill/src/main/java/com/flashsale/seckill/service/impl/FlashSaleProductServiceImpl.java:363-412 | purchasable exactly when enabled, stock is left, and any activity the product has exists, is enabled and is open now |
| FlashSaleProducts.ProgressAsWritten | flash-sale-seckill/src/main/java/com/flashsale/seckill/service/impl/FlashSaleProductServiceImpl.java:430-435 | the progress with `used * 100` in 32-bit arithmetic, never above 100 and 0 without stock |
| FlashSaleProducts.ProgressOverflows | flash-sale-seckill/src/main/java/com/flashsale/seckill/service/impl/FlashSaleProductServiceImpl.java:534-539 | beyond about 21.5 million units sold the reported progress is negative |
| FlashSaleProducts.Progress | flash-sale-seckill/src/main/java/com/flashsale/seckill/service/impl/FlashSaleProductServiceImpl.java:430-435 | the intended progress with `used * 100` computed exactly: the whole percentage of stock sold, capped at 100, reaching 100 exactly when sold out |
| FlashSaleProducts.ProgressAgreesWithoutOverflow | flash-sale-seckill/src/main/java/com/flashsale/seckill/service/impl/FlashSaleProductServiceImpl.java:430-435 | within 32 bits the two computations agree |
| FlashSaleProducts.ProgressMonotone | flash-sale-seckill/src/main/java/com/flashsale/seckill/service/impl/FlashSaleProductServiceImpl.java:430-435 | for the intended progress, selling more never lowers it (the 32-bit computation is not monotone past the overflow) |
| FlashSaleProducts.ToView | flash-sale-seckill/src/main/java/com/flashsale/seckill/service/impl/FlashSaleProductServiceImpl.java:447-542 | the row's fields, the unclamped remaining stock, the 32-bit progress (the intended one while `used * 100` fits), the activity's window when there is one, and a purchase flag only for products of an activity |
| FlashSaleProducts.ViewAgreesWithEligibility | flash-sale-seckill/src/main/java/com/flashsale/seckill/service/impl/FlashSaleProductServiceImpl.java:517-519 | for a product of an activity, the view's flag equals the eligibility check |
| FlashSaleProducts.NoActivityViewRefuses | flash-sale-seckill/src/main/java/com/flashsale/seckill/service/impl/FlashSaleProductServiceImpl.java:517-519 | a product without an activity passes the check but its view says it cannot be bought |
| FlashSaleProducts.ProductDetail | flash-sale-seckill/src/main/java/com/flashsale/seckill/service/impl/FlashSaleProductServiceImpl.java:147-160 | the view of a known product, not found otherwise |
| FlashSaleProducts.SalesStatisticsOf | flash-sale-seckill/src/main/java/com/flashsale/seckill/service/impl/FlashSaleProductServiceImpl.java:415-442 | the product's total, sold and remaining stock, the total being sold plus remaining, and the 32-bit progress (the intended one while `used * 100` fits); not found for an unknown id |
| FlashSaleProducts.StatisticsMatchView | flash-sale-seckill/src/main/java/com/flashsale/seckill/service/impl/FlashSaleProductServiceImpl.java:415-442 | the statistics and the view report the same remaining stock and progress |
| FlashSaleProducts.AddProduct | flash-sale-seckill/src/main/java/com/flashsale/seckill/service/impl/FlashSaleProductServiceImpl.java:55-81 | the draft's fields, enabled, with nothing used; other rows unchanged |
| FlashSaleProducts.UpdateProduct | flash-sale-seckill/src/main/java/com/flashsale/seckill/service/impl/FlashSaleProductServiceImpl.java:85-118 | an unknown id is refused; the record handed to the mapper carries the draft's stock and price, the update time, and no window bounds, so the update leaves the stored bounds alone; a reported update drops the product's caches |
| FlashSaleProducts.DecreaseStock | flash-sale-seckill/src/main/java/com/flashsale/seckill/service/impl/FlashSaleProductServiceImpl.java:250-270 | true only when the mapper updated a row, and only then the cached counter drops and the used count is raised |
| FlashSaleProducts.DecreaseShiftsOnlyItsCounter | flash-sale-seckill/src/main/java/com/flashsale/seckill/service/impl/FlashSaleProductServiceImpl.java:252-264 | a reported decrement lowers its product's counter by the quantity and leaves the others alone |
| Seckill.Detail | flash-sale-seckill/src/main/java/com/flashsale/seckill/service/impl/FlashSaleProductServiceImpl.java:147-160 | a null or unknown id is not found; a known one gives its view |
| Seckill.CheckSeckillEligibility | flash-sale-seckill/src/main/java/com/flashsale/seckill/service/impl/SeckillServiceImpl.java:192-236 | unknown product, then not purchasable, then limit reached, each refusing in that order; otherwise eligible |
| Seckill.LimitIgnoresRequestedQuantity | flash-sale-seckill/src/main/java/com/flashsale/seckill/service/impl/SeckillServiceImpl.java:197-228 | a first-time buyer passes whatever the quantity asked |
| Seckill.GenerateToken | flash-sale-seckill/src/main/java/com/flashsale/seckill/service/impl/SeckillServiceImpl.java:169-189 | only an eligible buyer receives the token user_product_time, which is stored under the buyer's key |
| Seckill.DoSeckill | flash-sale-seckill/src/main/java/com/flashsale/seckill/service/impl/SeckillServiceImpl.java:57-133 | a bad token refuses first; then eligibility; then the stock decrement; only a full success places an order, lowers the cached stock counter by the quantity and requests the used-stock increase; a failure changes nothing |
| Seckill.ResultKeyIsNotTokenKey | flash-sale-seckill/src/main/java/com/flashsale/seckill/service/impl/SeckillServiceImpl.java:49-50 | result keys and token keys never collide |
| Seckill.IssuedTokenAccepted | flash-sale-seckill/src/main/java/com/flashsale/seckill/service/impl/SeckillServiceImpl.java:172-182 | the token just issued passes the purchase's token check |
| Seckill.TokenSurvivesPurchase | flash-sale-seckill/src/main/java/com/flashsale/seckill/service/impl/SeckillServiceImpl.java:60-64 | the purchase never consumes the token, so it stays valid after the purchase |
| Seckill.StatusName | flash-sale-seckill/src/main/java/com/flashsale/seckill/service/impl/SeckillServiceImpl.java:151-156 | 1, 2 and 3 read as SUCCESS, FAILED and CANCELLED, anything else as UNKNOWN |
| Seckill.GetSeckillResult | flash-sale-seckill/src/main/java/com/flashsale/seckill/service/impl/SeckillServiceImpl.java:136-166 | the cached result when present; else the order's status name, which is then cached; else not found |
| Seckill.ResultStable | flash-sale-seckill/src/main/java/com/flashsale/seckill/service/impl/SeckillServiceImpl.java:136-166 | asking twice gives the same answer, and the second ask changes nothing |
| Seckill.PurchaseResultSticks | flash-sale-seckill/src/main/java/com/flashsale/seckill/service/impl/SeckillServiceImpl.java:120-127 | a purchase caches SUCCESS for its order while the order is still unpaid |
| Seckill.PaySeckillOrder | flash-sale-seckill/src/main/java/com/flashsale/seckill/service/impl/SeckillServiceImpl.java:275-317 | a missing order, another buyer's order or an order not unpaid is refused; an order without a buyer answers the exception text; an overdue order is timed out; a failed payment message answers "支付失败：发送支付消息失败"; otherwise the payment request is handed on |
| Seckill.PurchasedOrderPayableUntilDeadline | flash-sale-seckill/src/main/java/com/flashsale/seckill/service/impl/SeckillServiceImpl.java:280-300 | a purchased order can be paid by its buyer until its deadline |
| Orders.CreateOrder | flash-sale-order/src/main/java/com/flashsale/order/service/impl/OrderServiceImpl.java:44-83 | an unpaid order at 9.99 each, paying 9.99 times the quantity, under an FS number; a null quantity or failed insert creates nothing |
| Orders.PayOrder | flash-sale-order/src/main/java/com/flashsale/order/service/impl/OrderServiceImpl.java:121-187 | missing order 4002; not unpaid 4004; overdue cancels and answers 4005; otherwise a reported update marks it paid and sends one notice |
| Orders.CreatedOrderPayableUntilDeadline | flash-sale-order/src/main/java/com/flashsale/order/service/impl/OrderServiceImpl.java:44-187 | a created order is paid, with one notice for its full amount, until half an hour after creation, and refused as expired afterwards |
| Orders.CancelOrder | flash-sale-order/src/main/java/com/flashsale/order/service/impl/OrderServiceImpl.java:189-215 | only an unpaid order is cancelled |
| Orders.CompleteOrder | flash-sale-order/src/main/java/com/flashsale/order/service/impl/OrderServiceImpl.java:217-243 | only a paid or shipped order is completed |
| Orders.HandleExpiredOrder | flash-sale-order/src/main/java/com/flashsale/order/service/impl/OrderServiceImpl.java:245-271 | an overdue unpaid order times out; any existing order answers success, changed or not |
| Orders.ApplyStepsAllowed | flash-sale-order/src/main/java/com/flashsale/order/service/impl/OrderServiceImpl.java:121-271 | every operation keeps the orders and moves each status only along an allowed step |
| Orders.FinalStatusesStick | flash-sale-order/src/main/java/com/flashsale/order/service/impl/OrderServiceImpl.java:121-271 | completed, cancelled and timed-out orders never change status, and no order returns to unpaid |
| Orders.OverdueEndsTwoWays | flash-sale-order/src/main/java/com/flashsale/order/service/impl/OrderServiceImpl.java:135-141 | an overdue order paid late ends cancelled, while the sweep ends it timed out |
| Payments.CreatePayment | flash-sale-payment/src/main/java/com/flashsale/payment/service/impl/PaymentServiceImpl.java:48-106 | an order already paid is refused; another existing payment is returned with no insert; otherwise a pending PAY payment for the order is inserted; an insert that raises changes nothing and answers the duplicate-key text or the exception's message |
| Payments.SecondCreateReturnsFirst | flash-sale-payment/src/main/java/com/flashsale/payment/service/impl/PaymentServiceImpl.java:48-66 | after a first create for an order, a second create hands back that payment and inserts nothing |
| Payments.CallbackMessage | flash-sale-payment/src/main/java/com/flashsale/payment/service/impl/PaymentServiceImpl.java:488-495 | each callback status has its own message, and any other reads as unknown |
| Payments.HandleCallback | flash-sale-payment/src/main/java/com/flashsale/payment/service/impl/PaymentServiceImpl.java:110-146 | a paid payment is left alone and answers done; any other takes the callback status and third-party number, with the paying time when paid, unless the follow-up row rewrite puts the earlier status back; only that payment changes |
| Payments.StaleRewriteKeepsPending | flash-sale-payment/src/main/java/com/flashsale/payment/service/impl/PaymentServiceImpl.java:117-138 | if the follow-up rewrite writes the stale row, a paid callback on a pending payment answers paid while it stays pending |
| Payments.ApplyRefund | flash-sale-payment/src/main/java/com/flashsale/payment/service/impl/PaymentServiceImpl.java:253-286 | accepted exactly for a paid payment whose amount covers the refund; the payment is then refunded |
| Payments.CancelPayment | flash-sale-payment/src/main/java/com/flashsale/payment/service/impl/PaymentServiceImpl.java:304-329 | only a pending payment is cancelled, and it ends failed |
| Payments.MethodName | flash-sale-payment/src/main/java/com/flashsale/payment/service/impl/PaymentServiceImpl.java:397-404 | methods 1 to 3 have names; any other code reads as unknown |
| Payments.StatusName | flash-sale-payment/src/main/java/com/flashsale/payment/service/impl/PaymentServiceImpl.java:409-417 | statuses 0 to 3 have names; any other reads as unknown |
| Payments.StatusNamesDistinct | flash-sale-payment/src/main/java/com/flashsale/payment/service/impl/PaymentServiceImpl.java:409-417 | distinct known statuses have distinct names |
| Payments.ApplyKeepsPaid | flash-sale-payment/src/main/java/com/flashsale/payment/service/impl/PaymentServiceImpl.java:110-329 | every operation touches only its own payment, and a paid payment can only stay paid or be refunded |
| Payments.PaidStaysPaid | flash-sale-payment/src/main/java/com/flashsale/payment/service/impl/PaymentServiceImpl.java:117-123 | without a refund of it, a paid payment stays paid through any operations |
| Payments.RefundedRevivedByCallback | flash-sale-payment/src/main/java/com/flashsale/payment/service/impl/PaymentServiceImpl.java:117-138 | when the follow-up rewrite stamps only the times, a paid callback on a refunded payment makes it paid again |
| Activities.NewActivity | flash-sale-seckill/src/main/java/com/flashsale/seckill/service/impl/FlashSaleActivityServiceImpl.java:41-61 | a new activity carries the draft's fields, is not started, and is stamped now |
| Activities.CreateActivity | flash-sale-seckill/src/main/java/com/flashsale/seckill/service/impl/FlashSaleActivityServiceImpl.java:41-61 | a reported insert stores the not-started activity under its new id; otherwise nothing changes |
| Activities.BatchRows | flash-sale-seckill/src/main/java/com/flashsale/seckill/service/impl/FlashSaleActivityServiceImpl.java:65-90 | one not-started row per draft, in order, all stamped alike |
| Activities.BatchCreateReply | flash-sale-seckill/src/main/java/com/flashsale/seckill/service/impl/FlashSaleActivityServiceImpl.java:65-90 | success exactly when the batch insert reports rows |
| Activities.SingleBatchMatchesCreate | flash-sale-seckill/src/main/java/com/flashsale/seckill/service/impl/FlashSaleActivityServiceImpl.java:41-90 | a one-draft batch builds the same row as a single create |
| Activities.StartActivity | flash-sale-seckill/src/main/java/com/flashsale/seckill/service/impl/FlashSaleActivityServiceImpl.java:196-209 | an existing activity becomes running whatever its status was |
| Activities.StopActivity | flash-sale-seckill/src/main/java/com/flashsale/seckill/service/impl/FlashSaleActivityServiceImpl.java:213-226 | an existing activity becomes ended whatever its status was |
| Activities.StopThenStartRestarts | flash-sale-seckill/src/main/java/com/flashsale/seckill/service/impl/FlashSaleActivityServiceImpl.java:196-226 | an ended activity can be started again |
| Activities.CheckCanStart | flash-sale-seckill/src/main/java/com/flashsale/seckill/service/impl/FlashSaleActivityServiceImpl.java:332-350 | unknown activities are not found; the conditions are tried left to right, and a null bound that is reached fails with the exception text; otherwise true exactly when not started and start ≤ now < end |
| Activities.UnreachedBoundIsHarmless | flash-sale-seckill/src/main/java/com/flashsale/seckill/service/impl/FlashSaleActivityServiceImpl.java:341-343 | a running activity, or one whose start lies ahead, is answered false whatever its end bound |
| Activities.StartedActivityIsOpen | flash-sale-seckill/src/main/java/com/flashsale/seckill/service/impl/FlashSaleActivityServiceImpl.java:341-343 | an activity cleared to start and then started is open to its products at that instant, and cannot be started again |
| Activities.StatusName | flash-sale-seckill/src/main/java/com/flashsale/seckill/service/impl/FlashSaleActivityServiceImpl.java:392-399 | 0, 1 and 2 have names; anything else reads as unknown |

## Left out

- Thread pools, scheduled timers, start-up and shutdown, and metrics of the asynchronous processor are executor plumbing. A batch step or a retry step is one function call.
- The placeholder purchase inside the asynchronous processor uses randomness and fake order numbers. Its outcome is a parameter of processing. Its side effects on the shared store are not modelled either: the idempotency claim, the anti-scalping counters and action log, and the stock lock it takes and releases (SeckillAsyncProcessor.java:311-345).
- Real-time waiting, the sleep between lock attempts, and key time-to-live expiry are not modelled. Clock readings are parameters, and expiry never deletes a key.
- One operation reads the clock several times. The model uses a single `now` for all of those readings.
- The SHA-256 digest of token generation is a parameter. Only the hex rendering of its bytes is modelled.
- Message transport and broker configuration are out of scope. The listener's broker calls are effects in a list, and whether the broker accepts a publication is a parameter.
- Mapper statements whose SQL is not part of this model appear only as row counts or looked-up rows, passed as parameters. This covers the seckill module's product mapper, the product, order, payment and activity mappers, and the bought-count query.
- The payment service calls order-lookup and payment-update methods that the payment mapper does not declare. Their results are parameters too.
- Remote calls to the order and product services, and message sends, are outputs or parameters. The order-number lookup of the payment service and the payment message of the order service swallow their failures, so the reply does not depend on them. The payment message of `paySeckillOrder` is rethrown by its producer; whether that send fails is a parameter of `Seckill.PaySeckillOrder`.
- `BigDecimal` amounts are whole cents. Rounding beyond cents is not modelled.
- A null boxed `Integer` that the source would unbox with an exception is modelled where the model takes it as optional: a null order quantity fails the order create, and a null rate limit or period follows the exception path the source takes. The other values below are taken non-null.
- Payments.HandleCallback: the callback status is an `int`. In the source a null status passes the status update and then throws at the comparison with 1 (PaymentServiceImpl.java:126), so the reply is the failure text while the update has been issued; the model does not follow that path. What the follow-up `updateById` writes is the `RowRewrite` parameter, since its SQL is not part of this model; `RefundedRevivedByCallback` holds for the stamps-only reading.
- Payments.CreatePayment: the payment method is an `int`. In the source a null method makes the method-name lookup of the reply (PaymentServiceImpl.java:397) throw after the insert; the model does not follow that path.
- CapabilityToken.ValidateAndConsumeToken: the presented token and address are taken non-null. In the source a null token or address throws when a record is stored (EnhancedTokenService.java:108 and :114), and the exception leaves the method.
- Seckill.DoSeckill: the request quantity is taken non-null. In the source a null quantity reaches the stock decrement and the price multiplication, whose exception the catch turns into "秒杀失败：" followed by its message; the model does not follow that path.
- Seckill.DoSeckill: the order insert is taken to succeed once the stock is decremented. In the source an exception from `orderMapper.insert` (SeckillServiceImpl.java:122) is caught at :129-131 and answered with "秒杀失败：" followed by its message, while the stock decrement already made stays in place; the model does not follow that path.
- FlashSaleProducts.ProductStock: stock minus used is taken as an unbounded difference. In the source it is a 32-bit `int` subtraction (FlashSaleProductServiceImpl.java:354), which wraps when used lies more than 2^31 - 1 below the stock; a negative used is reachable (`StockLedger.NegativeQuantityUnderflowsUsed`). For such a row the source reports 0 where the model reports the difference.
- FlashSaleProducts.ToView: the remaining stock of the view (FlashSaleProductServiceImpl.java:452) and the statistics (:427) are the same unbounded difference. Where the source's subtraction wraps, its remaining stock is negative and the view's purchase flag (:497) is false while the eligibility check's `stock > used` (:371) is true, so `ViewAgreesWithEligibility` and `SalesStatisticsOf` hold for the model's rows only.
- FlashSaleProducts.UpdateProduct: the new field values are not applied to the catalog. `updateById` is a mapper statement whose SQL is not part of this model, so the model states the record handed to it and leaves the stored rows as they were.
- TaskCodec.Deserialize: numbers are read with ASCII digits only. Java's `Long.parseLong` and `Integer.parseInt` accept any decimal digit `Character.digit` knows, such as '٣' or '３'. A task whose number fields carry such digits is read in the source and gives no task in the model. Such a text can be smuggled in through an unescaped request field ahead of the number fields. The same holds for `TaskCodec.ProductIdOfQueueKey`, and for `Text.ParseLong` and `Text.ParseInt` wherever they are used.
- `getOrderByOrderNo`, `getPaymentDetail`, `getPaymentByOrderId`, `getUserPayments`, `handleRefundCallback`, `updateActivity`, the list queries and the cache preloading are not part of the named core.
- Activities.BatchRows: the batch insert's effect on the table belongs to the mapper and is not modelled. The model states the rows handed to it and the reply for its row count.
- AsyncProcessor.ProcessRetryQueue: the retried task is processed at once, where the source resubmits it to the executor.
- Payments.CreatePayment: the reply for an existing unpaid payment uses a success factory of another module. It is built directly as a successful reply with code 200.
- Cache-aside reads and writes of product and payment records are kept only where a contract depends on them, namely the stock counters and their invalidation.
- The user module, controllers, gateway and exception handler are framework glue around the core.

## Findings

| source | as written | input that shows it | evidently intended | confidence | as-written member | corrected member |
|---|---|---|---|---|---|---|
| flash-sale-common/src/main/java/com/flashsale/common/queue/FairRateLimiter.java:152-161 | completion promotes a waiter without checking that the caller held a slot | a user completes twice while others wait: the second completion admits one more waiter and the processing set exceeds the limit | promote only when the caller was processing, so the set stays within `maxConcurrent` | not executed | FairQueue.DoubleCompletionOverAdmits | FairQueue.RunKeepsBound |
| flash-sale-common/src/main/java/com/flashsale/common/mq/SeckillAsyncProcessor.java:288-296 | the `Integer` reply code is compared with the text "200" through `equals`, which is never true | a seckill that returns code 200 with an order number: the task is marked FAILED | compare the code with the integer 200, so a successful seckill ends SUCCESS | not executed | AsyncProcessor.SuccessfulSeckillReportedFailed | AsyncProcessor.ProcessedIsCompleted |
| flash-sale-seckill/src/main/java/com/flashsale/seckill/service/impl/FlashSaleProductServiceImpl.java:430-435 | the progress computes `used * 100` in 32-bit arithmetic | stock 30,000,000 with 21,474,837 used: the product wraps and the progress is negative | the whole percentage of stock sold, within 0 to 100 | not executed | FlashSaleProducts.ProgressOverflows | FlashSaleProducts.ProgressAgreesWithoutOverflow |

=== FILE: activities.dfy ===
/** The flash-sale activity service: activities are created not started (0), an
    operator starts (1) and stops (2) them, and a check says whether one may start now.
    Row counts of the activity mapper, whose statements are not part of this model,
    are inputs; a status update is taken to touch the named activity when it exists. */
module Activities {
  import opened Wrappers
  import opened Text
  import opened ApiResults
  import FlashSaleProducts

  const NOT_STARTED: int := 0
  const RUNNING: int := 1
  const ENDED: int := 2

  const CREATE_FAILED: string := "创建活动失败"
  const BATCH_CREATE_FAILED: string := "批量创建活动失败"
  const ACTIVITY_NOT_FOUND: string := "活动不存在"
  const START_FAILED: string := "启动活动失败"
  const STOP_FAILED: string := "停止活动失败"
  const CHECK_FAILED_PREFIX: string := "检查失败："
  const UNKNOWN: string := "未知"

  /** An activity row; times in epoch milliseconds, the window bounds nullable. */
  datatype Activity = Activity(name: string, startTime: Option<int>, endTime: Option<int>, status: int, createTime: int, updateTime: int)

  /** The fields a caller supplies for a new activity. */
  datatype ActivityDraft = ActivityDraft(name: string, startTime: Option<int>, endTime: Option<int>)

  type ActivityTable = map<int, Activity>

  /** The row built from a draft: not started, created and updated at `now`. */
  function NewActivity(draft: ActivityDraft, now: int): (a: Activity)
    ensures a.status == NOT_STARTED && a.createTime == now && a.updateTime == now
    ensures a.name == draft.name && a.startTime == draft.startTime && a.endTime == draft.endTime
  {
    Activity(draft.name, draft.startTime, draft.endTime, NOT_STARTED, now, now)
  }

  /** `createActivity`: the new row is stored under the id the insert assigns. */
  function CreateActivity(t: ActivityTable, draft: ActivityDraft, newId: int, now: int, insertRows: int)
    : (r: (ApiResult<()>, ActivityTable))
    ensures r.0.Coherent() && (r.0.success <==> insertRows > 0)
    ensures insertRows > 0 ==> newId in r.1 && r.1[newId].status == NOT_STARTED
                               && r.1 == t[newId := Activity(draft.name, draft.startTime, draft.endTime, NOT_STARTED, now, now)]
    ensures insertRows <= 0 ==> r == (ErrorMessage(CREATE_FAILED), t)
  {
    if insertRows > 0 then (Success(), t[newId := NewActivity(draft, now)])
    else (ErrorMessage(CREATE_FAILED), t)
  }

  /** `batchCreateActivities`: the rows handed to the batch insert, one per draft in
      order, all not started and all stamped with the same instant. */
  function BatchRows(drafts: seq<ActivityDraft>, now: int): (rows: seq<Activity>)
    ensures |rows| == |drafts|
    ensures forall i :: 0 <= i < |rows| ==> rows[i].status == NOT_STARTED && rows[i].createTime == now
                                            && rows[i].name == drafts[i].name && rows[i].startTime == drafts[i].startTime
                                            && rows[i].endTime == drafts[i].endTime
  {
    seq(|drafts|, i requires 0 <= i < |drafts| => NewActivity(drafts[i], now))
  }

  /** The reply of `batchCreateActivities` for the row count the batch insert reports. */
  function BatchCreateReply(insertRows: int): (r: ApiResult<()>)
    ensures r.Coherent() && (r.success <==> insertRows > 0)
    ensures !r.success ==> r.message == BATCH_CREATE_FAILED
  {
    if insertRows > 0 then Success() else ErrorMessage(BATCH_CREATE_FAILED)
  }

  /** A single create and a one-element batch build the same row. */
  lemma SingleBatchMatchesCreate(t: ActivityTable, draft: ActivityDraft, newId: int, now: int)
    ensures BatchRows([draft], now) == [CreateActivity(t, draft, newId, now, 1).1[newId]]
  {
  }

  /** Sets the status of an existing activity; the mapper's update of a missing id
      reports no row. */
  function SetStatus(t: ActivityTable, id: int, status: int, rows: int, failure: string)
    : (r: (ApiResult<()>, ActivityTable))
    ensures r.0.Coherent() && (r.0.success <==> id in t && rows > 0)
    ensures r.0.success ==> r.1 == t[id := t[id].(status := status)]
    ensures !r.0.success ==> r == (ErrorMessage(failure), t)
  {
    if id in t && rows > 0 then (Success(), t[id := t[id].(status := status)])
    else (ErrorMessage(failure), t)
  }

  /** `startActivity`: running, whatever the status was before. */
  function StartActivity(t: ActivityTable, id: int, rows: int): (r: (ApiResult<()>, ActivityTable))
    ensures r.0.success <==> id in t && rows > 0
    ensures r.0.success ==> id in r.1 && r.1[id].status == RUNNING && r.1 == t[id := t[id].(status := RUNNING)]
    ensures !r.0.success ==> r.0.message == START_FAILED && r.1 == t
  {
    SetStatus(t, id, RUNNING, rows, START_FAILED)
  }

  /** `stopActivity`: ended, whatever the status was before. */
  function StopActivity(t: ActivityTable, id: int, rows: int): (r: (ApiResult<()>, ActivityTable))
    ensures r.0.success <==> id in t && rows > 0
    ensures r.0.success ==> id in r.1 && r.1[id].status == ENDED && r.1 == t[id := t[id].(status := ENDED)]
    ensures !r.0.success ==> r.0.message == STOP_FAILED && r.1 == t
  {
    SetStatus(t, id, ENDED, rows, STOP_FAILED)
  }

  /** Neither operation checks the prior status: an ended activity can be started again. */
  lemma StopThenStartRestarts(t: ActivityTable, id: int)
    requires id in t
    ensures var stopped := StopActivity(t, id, 1).1;
            StartActivity(stopped, id, 1).1 == t[id := t[id].(status := RUNNING)]
  {
    var stopped := StopActivity(t, id, 1).1;
    assert stopped[id := stopped[id].(status := RUNNING)] == t[id := t[id].(status := RUNNING)];
  }

  /** The start window: not started yet, both bounds present, and start <= now < end. */
  predicate CanStart(a: Activity, now: int) {
    && a.status == NOT_STARTED
    && a.startTime.Some? && a.endTime.Some?
    && a.startTime.value <= now < a.endTime.value
  }

  /** The check reaches a null bound only when every earlier conjunct held: the status is
      not-started and, for the end bound, the start has already been reached. */
  predicate HitsNullBound(a: Activity, now: int) {
    && a.status == NOT_STARTED
    && (a.startTime.None? || (now >= a.startTime.value && a.endTime.None?))
  }

  /** `checkActivityCanStart`. The three conjuncts are evaluated left to right and stop
      at the first false one; a null bound that is reached fails the date comparison
      with an exception whose message, `exceptionText`, the reply carries. */
  function CheckCanStart(t: ActivityTable, id: int, now: int, exceptionText: string): (r: ApiResult<bool>)
    ensures r.Coherent()
    ensures id !in t ==> r == ErrorMessage(ACTIVITY_NOT_FOUND)
    ensures id in t && HitsNullBound(t[id], now) ==> r == ErrorMessage(CHECK_FAILED_PREFIX + exceptionText)
    ensures r.success <==> id in t && !HitsNullBound(t[id], now)
    ensures r.success ==> r.data == Some(CanStart(t[id], now))
  {
    if id !in t then ErrorMessage(ACTIVITY_NOT_FOUND)
    else
      var a := t[id];
      if a.status != NOT_STARTED then SuccessWith(false)
      else if a.startTime.None? then ErrorMessage(CHECK_FAILED_PREFIX + exceptionText)
      else if now < a.startTime.value then SuccessWith(false)
      else if a.endTime.None? then ErrorMessage(CHECK_FAILED_PREFIX + exceptionText)
      else SuccessWith(now < a.endTime.value)
  }

  /** A null bound the evaluation never reaches does no harm: a running activity, or one
      whose start lies ahead, is answered "false" whatever its end bound holds. */
  lemma UnreachedBoundIsHarmless(t: ActivityTable, id: int, now: int, text: string, end: Option<int>)
    requires id in t && (t[id].status != NOT_STARTED || (t[id].startTime.Some? && now < t[id].startTime.value))
    ensures CheckCanStart(t[id := t[id].(endTime := end)], id, now, text) == SuccessWith(false)
  {
  }

  /** The activity as the product service sees it. */
  function AsProductActivity(a: Activity): FlashSaleProducts.Activity {
    FlashSaleProducts.Activity(a.status, a.startTime, a.endTime)
  }

  /** An activity the check clears and the operator then starts is one whose products
      the product service treats as open at that instant. */
  lemma StartedActivityIsOpen(t: ActivityTable, id: int, now: int, text: string)
    requires CheckCanStart(t, id, now, text).data == Some(true)
    ensures var started := StartActivity(t, id, 1).1;
            && AsProductActivity(started[id]).status == FlashSaleProducts.ENABLED
            && FlashSaleProducts.InWindow(now, started[id].startTime, started[id].endTime)
            && CheckCanStart(started, id, now, text) == SuccessWith(false)
  {
  }

  /** `getStatusName`. */
  function StatusName(status: int): (n: string)
    ensures n == UNKNOWN <==> status !in {NOT_STARTED, RUNNING, ENDED}
    ensures status == NOT_STARTED ==> n == "未开始"
    ensures status == RUNNING ==> n == "进行中"
    ensures status == ENDED ==> n == "已结束"
  {
    match status
    case 0 => "未开始"
    case 1 => "进行中"
    case 2 => "已结束"
    case _ => UNKNOWN
  }
}

=== FILE: anti_scalping.dfy ===
/** Screening of flash-sale participants for ticket-scalper behaviour: a blacklist
    per user, address and device, per-minute request counters for each of them,
    a credibility rule over the account's profile, and a log of recent actions. */
module AntiScalping {
  import opened Wrappers
  import opened Text

  const USER_COUNT_PREFIX: string := "anti_scalping:user_count:"
  const IP_COUNT_PREFIX: string := "anti_scalping:ip_count:"
  const DEVICE_COUNT_PREFIX: string := "anti_scalping:device_count:"
  const BEHAVIOR_PREFIX: string := "anti_scalping:behavior:"
  const BLACKLIST_PREFIX: string := "blacklist:"

  const USER_MAX_PER_MINUTE: int := 3
  const IP_MAX_PER_MINUTE: int := 10
  const DEVICE_MAX_PER_MINUTE: int := 5
  const BEHAVIOR_MAX_ACTIONS: int := 10

  /** The slice of the shared store this service touches: blacklist entries with
      their reasons, request counters, and action logs (newest first). */
  datatype Guard = Guard(blacklist: map<string, string>, counters: map<string, int>, behavior: map<string, seq<int>>)

  /** The caller's identity and profile, each part possibly missing. */
  datatype Client = Client(
    userId: Option<int>, ip: Option<string>, device: Option<string>,
    level: Option<int>, credit: Option<int>, verified: Option<bool>)

  function UserBlacklistKey(userId: Option<int>): string {
    BLACKLIST_PREFIX + "user:" + ShowLong(userId)
  }

  function IpBlacklistKey(ip: Option<string>): string {
    BLACKLIST_PREFIX + "ip:" + ShowString(ip)
  }

  function DeviceBlacklistKey(device: Option<string>): string {
    BLACKLIST_PREFIX + "device:" + ShowString(device)
  }

  function UserCountKey(c: Client): string {
    USER_COUNT_PREFIX + ShowLong(c.userId)
  }

  function IpCountKey(c: Client): string {
    IP_COUNT_PREFIX + ShowString(c.ip)
  }

  function DeviceCountKey(c: Client): string {
    DEVICE_COUNT_PREFIX + ShowString(c.device)
  }

  function BehaviorKey(userId: Option<int>): string {
    BEHAVIOR_PREFIX + ShowLong(userId)
  }

  function Actions(g: Guard, userId: Option<int>): seq<int> {
    if BehaviorKey(userId) in g.behavior then g.behavior[BehaviorKey(userId)] else []
  }

  /** The three counter namespaces never share a key. */
  lemma CounterKeysDistinct(c: Client)
    ensures UserCountKey(c) != IpCountKey(c) && UserCountKey(c) != DeviceCountKey(c) && IpCountKey(c) != DeviceCountKey(c)
  {
    assert UserCountKey(c)[14] == 'u' && IpCountKey(c)[14] == 'i' && DeviceCountKey(c)[14] == 'd';
  }

  /** Any of the caller's user, address or device entries is blacklisted; a missing
      part is looked up under the text "null". */
  predicate Blacklisted(g: Guard, c: Client) {
    UserBlacklistKey(c.userId) in g.blacklist || IpBlacklistKey(c.ip) in g.blacklist || DeviceBlacklistKey(c.device) in g.blacklist
  }

  /** Atomic increment; the counter is allowed while the new count is within `max`. */
  function CheckAndIncrement(counters: map<string, int>, key: string, max: int): (r: (bool, map<string, int>))
    ensures r.1 == counters[key := Count(counters, key) + 1]
    ensures r.0 <==> Count(r.1, key) <= max
  {
    var n := Count(counters, key) + 1;
    (n <= max, counters[key := n])
  }

  /** The account profile rule: real-name verification is required, a known credit
      score must be at least 60, and a known level below 2 additionally needs a
      known credit score of at least 80. */
  function Credible(level: Option<int>, credit: Option<int>, verified: Option<bool>): (ok: bool)
    ensures ok <==> verified == Some(true) && (credit.None? || credit.value >= 60)
                    && (level.None? || level.value >= 2 || (credit.Some? && credit.value >= 80))
  {
    if verified != Some(true) then false
    else if credit.Some? && credit.value < 60 then false
    else if level.Some? && level.value < 2 then credit.Some? && credit.value >= 80
    else true
  }

  /** The request-frequency stage: user, then address, then device (when known); the
      first counter over its limit stops the stage, leaving later counters alone. */
  function CheckRequestFrequency(counters: map<string, int>, c: Client): (r: (bool, map<string, int>))
    ensures Count(r.1, UserCountKey(c)) == Count(counters, UserCountKey(c)) + 1
    ensures r.0 <==> Count(counters, UserCountKey(c)) + 1 <= USER_MAX_PER_MINUTE
                     && Count(counters, IpCountKey(c)) + 1 <= IP_MAX_PER_MINUTE
                     && (c.device.None? || Count(counters, DeviceCountKey(c)) + 1 <= DEVICE_MAX_PER_MINUTE)
    ensures Count(r.1, IpCountKey(c)) == Count(counters, IpCountKey(c))
                                         + (if Count(counters, UserCountKey(c)) + 1 <= USER_MAX_PER_MINUTE then 1 else 0)
    ensures Count(r.1, DeviceCountKey(c)) == Count(counters, DeviceCountKey(c))
                                             + (if && Count(counters, UserCountKey(c)) + 1 <= USER_MAX_PER_MINUTE
                                                   && Count(counters, IpCountKey(c)) + 1 <= IP_MAX_PER_MINUTE
                                                   && c.device.Some?
                                                then 1 else 0)
    ensures forall k :: k != UserCountKey(c) && k != IpCountKey(c) && k != DeviceCountKey(c) ==> Count(r.1, k) == Count(counters, k)
  {
    CounterKeysDistinct(c);
    var (userOk, afterUser) := CheckAndIncrement(counters, UserCountKey(c), USER_MAX_PER_MINUTE);
    if !userOk then (false, afterUser)
    else
      var (ipOk, afterIp) := CheckAndIncrement(afterUser, IpCountKey(c), IP_MAX_PER_MINUTE);
      if !ipOk then (false, afterIp)
      else if c.device.Some? then CheckAndIncrement(afterIp, DeviceCountKey(c), DEVICE_MAX_PER_MINUTE)
      else (true, afterIp)
  }

  /** `n` requests of one client in a row through the frequency stage, with the number
      of them that pass. */
  function FrequencyRun(counters: map<string, int>, c: Client, n: nat): (r: (nat, map<string, int>))
    ensures r.0 <= n
    ensures Count(r.1, UserCountKey(c)) == Count(counters, UserCountKey(c)) + n
    decreases n
  {
    if n == 0 then (0, counters)
    else
      var (ok, next) := CheckRequestFrequency(counters, c);
      var rest := FrequencyRun(next, c, n - 1);
      ((if ok then 1 else 0) + rest.0, rest.1)
  }

  /** However many requests a client makes within one counting window, at most three
      pass the frequency stage, fewer as the user's counter already stands higher. */
  lemma {:induction false} FrequencyCapsBurst(counters: map<string, int>, c: Client, n: nat)
    ensures var used := Count(counters, UserCountKey(c));
            FrequencyRun(counters, c, n).0 <= if used < USER_MAX_PER_MINUTE then USER_MAX_PER_MINUTE - used else 0
    decreases n
  {
    if n > 0 {
      var next := CheckRequestFrequency(counters, c).1;
      FrequencyCapsBurst(next, c, n - 1);
    }
  }

  /** Log the action (newest first); more than ten logged actions look like a bot. */
  function CheckBehaviorPattern(g: Guard, userId: Option<int>, now: int): (r: (bool, Guard))
    ensures Actions(r.1, userId) == [now] + Actions(g, userId)
    ensures r.0 <==> |Actions(g, userId)| < BEHAVIOR_MAX_ACTIONS
    ensures r.1.blacklist == g.blacklist && r.1.counters == g.counters
  {
    var log := [now] + Actions(g, userId);
    (|log| <= BEHAVIOR_MAX_ACTIONS, g.(behavior := g.behavior[BehaviorKey(userId) := log]))
  }

  /** The four stages in order, the first failure deciding: blacklist, request
      frequency, credibility, behaviour. A caller passes exactly when not
      blacklisted, every counter stays within its limit, the profile is credible
      and the action log stays within ten. */
  function CheckUserLegitimacy(g: Guard, c: Client, now: int): (r: (bool, Guard))
    ensures r.0 <==> && !Blacklisted(g, c)
                     && CheckRequestFrequency(g.counters, c).0
                     && Credible(c.level, c.credit, c.verified)
                     && |Actions(g, c.userId)| < BEHAVIOR_MAX_ACTIONS
    ensures r.0 ==> Count(r.1.counters, UserCountKey(c)) <= USER_MAX_PER_MINUTE
                    && Count(r.1.counters, IpCountKey(c)) <= IP_MAX_PER_MINUTE
    ensures Blacklisted(g, c) ==> r.1 == g
    ensures !Blacklisted(g, c) ==> Count(r.1.counters, UserCountKey(c)) == Count(g.counters, UserCountKey(c)) + 1
    ensures !Blacklisted(g, c) ==> r.1.counters == CheckRequestFrequency(g.counters, c).1
    ensures r.1.blacklist == g.blacklist
    ensures Actions(r.1, c.userId) != Actions(g, c.userId) <==>
      !Blacklisted(g, c) && CheckRequestFrequency(g.counters, c).0 && Credible(c.level, c.credit, c.verified)
    ensures if !Blacklisted(g, c) && CheckRequestFrequency(g.counters, c).0 && Credible(c.level, c.credit, c.verified)
            then r.1.behavior == g.behavior[BehaviorKey(c.userId) := [now] + Actions(g, c.userId)]
            else r.1.behavior == g.behavior
  {
    if Blacklisted(g, c) then (false, g)
    else
      var (frequent, counters) := CheckRequestFrequency(g.counters, c);
      var counted := g.(counters := counters);
      if !frequent then (false, counted)
      else if !Credible(c.level, c.credit, c.verified) then (false, counted)
      else
        var r := CheckBehaviorPattern(counted, c.userId, now);
        assert Actions(r.1, c.userId) != Actions(g, c.userId) by {
          assert |Actions(r.1, c.userId)| == |Actions(g, c.userId)| + 1;
        }
        r
  }

  /** Blacklist every known part of an identity with the given reason. */
  function AddToBlacklist(g: Guard, userId: Option<int>, ip: Option<string>, device: Option<string>, reason: string): (r: Guard)
    ensures userId.Some? ==> Lookup(r.blacklist, UserBlacklistKey(userId)) == Some(reason)
    ensures ip.Some? ==> Lookup(r.blacklist, IpBlacklistKey(ip)) == Some(reason)
    ensures device.Some? ==> Lookup(r.blacklist, DeviceBlacklistKey(device)) == Some(reason)
    ensures forall k :: k !in Listed(userId, ip, device) ==> Lookup(r.blacklist, k) == Lookup(g.blacklist, k)
    ensures r.counters == g.counters && r.behavior == g.behavior
  {
    var b := g.blacklist;
    var b := if userId.Some? then b[UserBlacklistKey(userId) := reason] else b;
    var b := if ip.Some? then b[IpBlacklistKey(ip) := reason] else b;
    var b := if device.Some? then b[DeviceBlacklistKey(device) := reason] else b;
    g.(blacklist := b)
  }

  /** Remove the blacklist entries of every known part of an identity. */
  function RemoveFromBlacklist(g: Guard, userId: Option<int>, ip: Option<string>, device: Option<string>): (r: Guard)
    ensures forall k :: k in Listed(userId, ip, device) ==> k !in r.blacklist
    ensures forall k :: k !in Listed(userId, ip, device) ==> Lookup(r.blacklist, k) == Lookup(g.blacklist, k)
    ensures r.counters == g.counters && r.behavior == g.behavior
  {
    g.(blacklist := g.blacklist - Listed(userId, ip, device))
  }

  /** The blacklist keys of the known parts of an identity. */
  function Listed(userId: Option<int>, ip: Option<string>, device: Option<string>): set<string> {
    (if userId.Some? then {UserBlacklistKey(userId)} else {})
    + (if ip.Some? then {IpBlacklistKey(ip)} else {})
    + (if device.Some? then {DeviceBlacklistKey(device)} else {})
  }

  /** Blacklisting any known part of a caller's identity turns the caller away with
      no counter touched; removing the same entries undoes the addition exactly
      when none of them was listed before. */
  lemma BlacklistTurnsAway(g: Guard, c: Client, reason: string, now: int)
    requires c.userId.Some? || c.ip.Some? || c.device.Some?
    ensures var listed := AddToBlacklist(g, c.userId, c.ip, c.device, reason);
            var (ok, after) := CheckUserLegitimacy(listed, c, now);
            !ok && after == listed
    ensures Listed(c.userId, c.ip, c.device) !! g.blacklist.Keys ==>
              RemoveFromBlacklist(AddToBlacklist(g, c.userId, c.ip, c.device, reason), c.userId, c.ip, c.device) == g
  {
    var listed := AddToBlacklist(g, c.userId, c.ip, c.device, reason);
    assert Blacklisted(listed, c);
    if Listed(c.userId, c.ip, c.device) !! g.blacklist.Keys {
      var back := RemoveFromBlacklist(listed, c.userId, c.ip, c.device);
      assert back.blacklist == g.blacklist by {
        forall k
          ensures k in back.blacklist <==> k in g.blacklist
        {
          assert Lookup(back.blacklist, k) == Lookup(g.blacklist, k) || k in Listed(c.userId, c.ip, c.device);
        }
      }
    }
  }

  function Read(counters: map<string, int>, key: string): Option<int> {
    if key in counters then Some(counters[key]) else None
  }

  /** The five signals the risk score weighs. */
  datatype RiskFactor = BusyUser | BusyAddress | LowCredit | Unverified | LowLevel

  const ALL_FACTORS: seq<RiskFactor> := [BusyUser, BusyAddress, LowCredit, Unverified, LowLevel]

  function Weight(f: RiskFactor): nat {
    match f
    case BusyUser => 30
    case BusyAddress => 40
    case LowCredit => 20
    case Unverified => 30
    case LowLevel => 10
  }

  /** Whether a signal is raised: more than 2 requests counted for the user, more than 8
      for the address, a known credit score below 70, verification not affirmed, a known
      level below 2. */
  predicate Present(g: Guard, c: Client, f: RiskFactor) {
    match f
    case BusyUser => Read(g.counters, UserCountKey(c)).Some? && Read(g.counters, UserCountKey(c)).value > 2
    case BusyAddress => Read(g.counters, IpCountKey(c)).Some? && Read(g.counters, IpCountKey(c)).value > 8
    case LowCredit => c.credit.Some? && c.credit.value < 70
    case Unverified => c.verified != Some(true)
    case LowLevel => c.level.Some? && c.level.value < 2
  }

  /** The weights of the raised signals among `fs`, added up. */
  function Score(g: Guard, c: Client, fs: seq<RiskFactor>): nat {
    if |fs| == 0 then 0 else (if Present(g, c, fs[0]) then Weight(fs[0]) else 0) + Score(g, c, fs[1..])
  }

  /** Risk score out of 100: 30 for a busy user counter, 40 for a busy address
      counter, 20 for a known credit score below 70, 30 without verification and 10
      for a known level below 2, capped at 100. */
  function GetUserRiskLevel(g: Guard, c: Client): (risk: int)
    ensures 0 <= risk <= 100
    ensures risk == 0 <==> (Read(g.counters, UserCountKey(c)).None? || Read(g.counters, UserCountKey(c)).value <= 2)
                           && (Read(g.counters, IpCountKey(c)).None? || Read(g.counters, IpCountKey(c)).value <= 8)
                           && (c.credit.None? || c.credit.value >= 70)
                           && c.verified == Some(true)
                           && (c.level.None? || c.level.value >= 2)
    ensures c.verified != Some(true) ==> risk >= 30
    ensures risk == 100 ==> c.verified != Some(true) || Read(g.counters, IpCountKey(c)).Some?
    ensures risk == if Score(g, c, ALL_FACTORS) < 100 then Score(g, c, ALL_FACTORS) else 100
  {
    var userCount := Read(g.counters, UserCountKey(c));
    var ipCount := Read(g.counters, IpCountKey(c));
    var risk := 0;
    var risk := if userCount.Some? && userCount.value > 2 then risk + 30 else risk;
    var risk := if ipCount.Some? && ipCount.value > 8 then risk + 40 else risk;
    var risk := if c.credit.Some? && c.credit.value < 70 then risk + 20 else risk;
    var risk := if c.verified != Some(true) then risk + 30 else risk;
    var risk := if c.level.Some? && c.level.value < 2 then risk + 10 else risk;
    ScoreOfAllFactors(g, c);
    if risk < 100 then risk else 100
  }

  /** The score over all five signals, term by term. */
  lemma ScoreOfAllFactors(g: Guard, c: Client)
    ensures Score(g, c, ALL_FACTORS)
            == (if Present(g, c, BusyUser) then 30 else 0) + (if Present(g, c, BusyAddress) then 40 else 0)
               + (if Present(g, c, LowCredit) then 20 else 0) + (if Present(g, c, Unverified) then 30 else 0)
               + (if Present(g, c, LowLevel) then 10 else 0)
  {
    var s5: seq<RiskFactor> := [LowLevel];
    var s4 := [Unverified] + s5;
    var s3 := [LowCredit] + s4;
    var s2 := [BusyAddress] + s3;
    assert ALL_FACTORS == [BusyUser] + s2;
    assert ([BusyUser] + s2)[1..] == s2 && s2[1..] == s3 && s3[1..] == s4 && s4[1..] == s5 && s5[1..] == [];
    assert Score(g, c, s5) == (if Present(g, c, LowLevel) then 10 else 0);
    assert Score(g, c, s4) == (if Present(g, c, Unverified) then 30 else 0) + Score(g, c, s5);
    assert Score(g, c, s3) == (if Present(g, c, LowCredit) then 20 else 0) + Score(g, c, s4);
    assert Score(g, c, s2) == (if Present(g, c, BusyAddress) then 40 else 0) + Score(g, c, s3);
  }

  /** More weight among `fs` for a client raising every signal another raises. */
  lemma {:induction false} ScoreMonotone(g1: Guard, c1: Client, g2: Guard, c2: Client, fs: seq<RiskFactor>)
    requires forall f :: Present(g1, c1, f) ==> Present(g2, c2, f)
    ensures Score(g1, c1, fs) <= Score(g2, c2, fs)
  {
    if |fs| > 0 {
      ScoreMonotone(g1, c1, g2, c2, fs[1..]);
    }
  }

  /** A client that raises every signal another raises is rated at least as risky. */
  lemma RiskMonotone(g1: Guard, c1: Client, g2: Guard, c2: Client)
    requires forall f :: Present(g1, c1, f) ==> Present(g2, c2, f)
    ensures GetUserRiskLevel(g1, c1) <= GetUserRiskLevel(g2, c2)
  {
    ScoreMonotone(g1, c1, g2, c2, ALL_FACTORS);
  }
}

=== FILE: api_results.dfy ===
/** The uniform response envelope every service operation returns: a success flag,
    a numeric status code, a human-readable message and an optional payload. */
module ApiResults {
  import opened Wrappers

  const OK_CODE: int := 200
  const ERROR_CODE: int := 500
  /** The default messages of `success()` and `error()`. */
  const SUCCESS_MESSAGE: string := "操作成功"
  const FAILURE_MESSAGE: string := "操作失败"

  /** Codes and messages of the shared result-code table that the services quote. */
  const PRODUCT_STOCK_NOT_ENOUGH_CODE: int := 2002
  const PRODUCT_STOCK_NOT_ENOUGH_MESSAGE: string := "Product stock not enough"
  const SECKILL_REPEATED_CODE: int := 3003
  const SECKILL_REPEATED_MESSAGE: string := "You have already participated in this flash sale"
  const ORDER_NOT_EXIST_CODE: int := 4002
  const ORDER_STATUS_ERROR_CODE: int := 4004
  const ORDER_EXPIRED_CODE: int := 4005

  datatype ApiResult<T> = ApiResult(success: bool, code: int, message: string, data: Option<T>) {
    /** The flag and the code tell the same story. */
    predicate Coherent() {
      success <==> code == OK_CODE
    }
  }

  function Success<T>(): (r: ApiResult<T>)
    ensures r.Coherent() && r.success && r.data.None?
    ensures r.code == OK_CODE && r.message == SUCCESS_MESSAGE
  {
    ApiResult(true, OK_CODE, SUCCESS_MESSAGE, None)
  }

  function SuccessWith<T>(d: T): (r: ApiResult<T>)
    ensures r.Coherent() && r.success && r.data == Some(d)
    ensures r.code == OK_CODE && r.message == SUCCESS_MESSAGE
  {
    ApiResult(true, OK_CODE, SUCCESS_MESSAGE, Some(d))
  }

  function Error<T>(): (r: ApiResult<T>)
    ensures r.Coherent() && !r.success && r.data.None?
    ensures r.code == ERROR_CODE && r.message == FAILURE_MESSAGE
    ensures r.message != Success<T>().message
  {
    ApiResult(false, ERROR_CODE, FAILURE_MESSAGE, None)
  }

  function ErrorMessage<T>(m: string): (r: ApiResult<T>)
    ensures r.Coherent() && !r.success && r.data.None? && r.message == m
    ensures r.code == ERROR_CODE
  {
    ApiResult(false, ERROR_CODE, m, None)
  }

  /** An error with the caller's code: coherent unless the caller passes 200. */
  function ErrorCode<T>(c: int, m: string): (r: ApiResult<T>)
    ensures !r.success && r.data.None? && r.message == m && r.code == c
    ensures r.Coherent() <==> c != OK_CODE
  {
    ApiResult(false, c, m, None)
  }

  /** The factories agree with one another: `error()` is `error(message)` with the default
      message, `error(message)` is `error(500, message)`, and a payload-free success is
      never equal to any error. */
  lemma FactoriesAgree<T>(m: string)
    ensures Error<T>() == ErrorMessage<T>(FAILURE_MESSAGE)
    ensures ErrorMessage<T>(m) == ErrorCode<T>(ERROR_CODE, m)
    ensures Success<T>() != ErrorMessage<T>(m) && Success<T>() != ErrorCode<T>(OK_CODE, m)
    ensures forall d: T :: SuccessWith(d).data != Success<T>().data
  {
  }
}

=== FILE: async_processor.dfy ===
/** The asynchronous seckill pipeline: requests are pushed onto a per-product list,
    drained from the other end in batches, and every task's progress is published
    under a result key that callers poll. */
module AsyncProcessor {
  import opened Wrappers
  import opened Text
  import opened ApiResults
  import opened TaskCodec
  import AntiScalping

  const RESULT_PREFIX: string := "seckill:async:result:"
  const FAILED_QUEUE_PREFIX: string := "seckill:async:failed:"
  const BATCH_SIZE: nat := 100
  const MAX_QUEUE_SIZE: nat := 10000

  const QUEUED: string := "QUEUED"
  const PROCESSING: string := "PROCESSING"
  const SUCCESS: string := "SUCCESS"
  const FAILED: string := "FAILED"
  const NOT_FOUND: string := "NOT_FOUND"

  const START_DETAIL: string := "开始处理秒杀请求"
  const CRASH_PREFIX: string := "系统异常: "

  /** The processor's view of the shared store: plain string values (statuses, details,
      progress notes), lists (the queues), the blacklist, and its three counters. */
  datatype ProcessorState = ProcessorState(
    values: map<string, string>,
    lists: map<string, seq<string>>,
    blacklist: map<string, string>,
    processed: int,
    succeeded: int,
    failed: int)

  function ResultKey(taskId: string): string {
    RESULT_PREFIX + taskId
  }

  function DetailKey(taskId: string): string {
    ResultKey(taskId) + ":detail"
  }

  function ProgressKey(taskId: string): string {
    ResultKey(taskId) + ":progress"
  }

  function RetryQueueKey(): string {
    FAILED_QUEUE_PREFIX + "retry"
  }

  function ListAt(st: ProcessorState, key: string): seq<string> {
    if key in st.lists then st.lists[key] else []
  }

  /** `generateTaskId`: user, product, time and the first eight characters of a random UUID. */
  function TaskId(userId: Option<int>, productId: Option<int>, now: int, uuidPrefix: string): string {
    ShowLong(userId) + ":" + ShowLong(productId) + ":" + IntToString(now) + ":" + uuidPrefix
  }

  function QueueKeyOf(q: SeckillRequest): string {
    SECKILL_QUEUE_PREFIX + ShowLong(q.productId)
  }

  /** `preValidateRequest`: user and product present, and the address (when given) not blacklisted. */
  predicate PreValid(st: ProcessorState, q: SeckillRequest) {
    q.userId.Some? && q.productId.Some?
    && (q.userIp.Some? ==> AntiScalping.IpBlacklistKey(q.userIp) !in st.blacklist)
  }

  // ---------------------------------------------------------------- submission

  /** `submitSeckillRequest`: refuse when the product's queue is full or the request
      fails pre-validation; otherwise, atomically, refuse a task id whose result key
      exists, or push the serialized task at the head and mark it QUEUED. */
  function Submit(st: ProcessorState, q: SeckillRequest, now: int, uuidPrefix: string): (r: (Option<string>, ProcessorState))
    ensures r.0.Some? <==> (|ListAt(st, QueueKeyOf(q))| < MAX_QUEUE_SIZE && PreValid(st, q)
                            && ResultKey(TaskId(q.userId, q.productId, now, uuidPrefix)) !in st.values)
    ensures r.0.None? ==> r.1 == st
    ensures r.0.Some? ==> r.0.value == TaskId(q.userId, q.productId, now, uuidPrefix)
    ensures r.0.Some? ==> ListAt(r.1, QueueKeyOf(q)) == [Serialize(TaskWrapper(r.0.value, q, now))] + ListAt(st, QueueKeyOf(q))
    ensures r.0.Some? ==> r.1.values == st.values[ResultKey(r.0.value) := QUEUED]
    ensures forall k :: k in st.lists && k != QueueKeyOf(q) ==> k in r.1.lists && r.1.lists[k] == st.lists[k]
    ensures r.1.blacklist == st.blacklist && r.1.processed == st.processed
  {
    var id := TaskId(q.userId, q.productId, now, uuidPrefix);
    var queueKey := QueueKeyOf(q);
    if |ListAt(st, queueKey)| >= MAX_QUEUE_SIZE then (None, st)
    else if !PreValid(st, q) then (None, st)
    else if ResultKey(id) in st.values then (None, st)
    else
      var task := Serialize(TaskWrapper(id, q, now));
      (Some(id), st.(lists := st.lists[queueKey := [task] + ListAt(st, queueKey)],
                     values := st.values[ResultKey(id) := QUEUED]))
  }

  // ---------------------------------------------------------------- polling

  datatype AsyncTaskResult = AsyncTaskResult(taskId: string, status: string, result: Option<string>, error: Option<string>) {
    predicate IsCompleted() {
      status == SUCCESS || status == FAILED
    }

    predicate IsSuccess() {
      status == SUCCESS
    }
  }

  /** `getTaskResult`: the stored status, with the detail for a finished task and the
      progress note for a running one. */
  function GetTaskResult(st: ProcessorState, taskId: string): (r: AsyncTaskResult)
    ensures r.taskId == taskId && r.error.None?
    ensures ResultKey(taskId) !in st.values ==> r.status == NOT_FOUND && r.result.None?
    ensures ResultKey(taskId) in st.values ==> r.status == st.values[ResultKey(taskId)]
    ensures r.IsCompleted() && ResultKey(taskId) in st.values ==> r.result == Lookup(st.values, DetailKey(taskId))
    ensures r.status == PROCESSING ==> r.result == Lookup(st.values, ProgressKey(taskId))
    ensures !r.IsCompleted() && r.status != PROCESSING ==> r.result.None?
  {
    var key := ResultKey(taskId);
    if key !in st.values then AsyncTaskResult(taskId, NOT_FOUND, None, None)
    else
      var status := st.values[key];
      if status == SUCCESS || status == FAILED then AsyncTaskResult(taskId, status, Lookup(st.values, DetailKey(taskId)), None)
      else if status == PROCESSING then AsyncTaskResult(taskId, status, Lookup(st.values, ProgressKey(taskId)), None)
      else AsyncTaskResult(taskId, status, None, None)
  }

  /** A freshly submitted task reads back as queued and not completed. */
  lemma SubmittedIsQueued(st: ProcessorState, q: SeckillRequest, now: int, uuidPrefix: string)
    requires Submit(st, q, now, uuidPrefix).0.Some?
    ensures var r := Submit(st, q, now, uuidPrefix);
            var res := GetTaskResult(r.1, r.0.value);
            res.status == QUEUED && !res.IsCompleted() && res.result.None?
  {
  }

  /** A task id is accepted at most once: submitting the same request again at the same
      instant with the same random prefix is refused. */
  lemma SubmitDeduplicates(st: ProcessorState, q: SeckillRequest, now: int, uuidPrefix: string)
    requires Submit(st, q, now, uuidPrefix).0.Some?
    ensures var r := Submit(st, q, now, uuidPrefix);
            Submit(r.1, q, now, uuidPrefix).0.None?
  {
  }

  // ---------------------------------------------------------------- draining

  /** `rightPop` repeated up to `BATCH_SIZE` times, stopping at an empty list: the oldest
      entries first. */
  method PopBatch(queue: seq<string>) returns (tasks: seq<string>, remaining: seq<string>)
    ensures |tasks| == if |queue| < BATCH_SIZE then |queue| else BATCH_SIZE
    ensures remaining == queue[..|queue| - |tasks|]
    ensures tasks == Batch(queue)
  {
    tasks := [];
    remaining := queue;
    while |tasks| < BATCH_SIZE && |remaining| > 0
      invariant |tasks| <= BATCH_SIZE && |tasks| <= |queue|
      invariant remaining == queue[..|queue| - |tasks|]
      invariant forall k :: 0 <= k < |tasks| ==> tasks[k] == queue[|queue| - 1 - k]
      decreases |remaining|
    {
      tasks := tasks + [remaining[|remaining| - 1]];
      remaining := remaining[..|remaining| - 1];
    }
    PoppedIsBatch(queue, tasks);
  }

  function Reverse<T>(xs: seq<T>): (r: seq<T>)
    ensures |r| == |xs|
  {
    if |xs| == 0 then [] else Reverse(xs[1..]) + [xs[0]]
  }

  /** Pushing each element at the head, in order. */
  function PushAll(queue: seq<string>, xs: seq<string>): seq<string>
    decreases |xs|
  {
    if |xs| == 0 then queue else PushAll([xs[0]] + queue, xs[1..])
  }

  lemma {:induction false} PushAllReverses(queue: seq<string>, xs: seq<string>)
    ensures PushAll(queue, xs) == Reverse(xs) + queue
    decreases |xs|
  {
    if |xs| > 0 {
      PushAllReverses([xs[0]] + queue, xs[1..]);
      assert Reverse(xs[1..]) + ([xs[0]] + queue) == (Reverse(xs[1..]) + [xs[0]]) + queue;
    }
  }

  lemma {:induction false} ReverseIndex<T>(xs: seq<T>, k: nat)
    requires k < |xs|
    ensures Reverse(xs)[|xs| - 1 - k] == xs[k]
    decreases |xs|
  {
    if k > 0 {
      ReverseIndex(xs[1..], k - 1);
      assert Reverse(xs) == Reverse(xs[1..]) + [xs[0]];
    }
  }

  /** First in, first out: after pushing `xs` in submission order onto a queue, the
      k-th entry taken from the tail is the k-th submitted. */
  lemma FifoOrder(queue: seq<string>, xs: seq<string>, k: nat)
    requires k < |xs|
    ensures var q := PushAll(queue, xs);
            |q| == |xs| + |queue| && q[|q| - 1 - (k + |queue|)] == xs[k]
  {
    PushAllReverses(queue, xs);
    ReverseIndex(xs, k);
  }

  // ---------------------------------------------------------------- processing one task

  /** What the complete seckill step yields: a result, or an exception with its message. */
  datatype SeckillOutcome = Completed(result: ApiResult<string>) | Crashed(message: Option<string>)

  /** A boxed Java value, enough to model `Object.equals` between an `Integer` and a `String`. */
  datatype Boxed = BoxedInt(i: int) | BoxedString(s: string)

  /** `Object.equals` on boxed values: equal only when of the same class and value. */
  predicate BoxedEquals(a: Boxed, b: Boxed) {
    a == b
  }

  /** `updateTaskStatus`: the status always, the detail only when non-null. */
  function UpdateTaskStatus(values: map<string, string>, taskId: string, status: string, detail: Option<string>): (r: map<string, string>)
    ensures ResultKey(taskId) in r && r[ResultKey(taskId)] == status
    ensures detail.Some? ==> DetailKey(taskId) in r && r[DetailKey(taskId)] == detail.value
    ensures forall k :: k in values && k != ResultKey(taskId) && k != DetailKey(taskId) ==> k in r && r[k] == values[k]
    ensures detail.None? ==> r == values[ResultKey(taskId) := status]
  {
    var v := values[ResultKey(taskId) := status];
    if detail.Some? then v[DetailKey(taskId) := detail.value] else v
  }

  /** `processTask` as written: the code comparison `getCode().equals("200")` puts an
      `Integer` against a `String`, so the success branch is never taken. */
  function ProcessTaskAsWritten(st: ProcessorState, taskId: string, outcome: SeckillOutcome): (r: ProcessorState)
    ensures r.processed == st.processed + 1
    ensures r.lists == st.lists && r.blacklist == st.blacklist
    ensures ResultKey(taskId) in r.values && r.values[ResultKey(taskId)] == FAILED && DetailKey(taskId) in r.values
    ensures forall k :: k in st.values && k != ResultKey(taskId) && k != DetailKey(taskId) ==> k in r.values && r.values[k] == st.values[k]
  {
    var started := UpdateTaskStatus(st.values, taskId, PROCESSING, Some(START_DETAIL));
    match outcome
    case Completed(res) =>
      if BoxedEquals(BoxedInt(res.code), BoxedString("200")) then
        st.(values := UpdateTaskStatus(started, taskId, SUCCESS, res.data),
            succeeded := st.succeeded + 1, processed := st.processed + 1)
      else
        st.(values := UpdateTaskStatus(started, taskId, FAILED, Some(res.message)),
            failed := st.failed + 1, processed := st.processed + 1)
    case Crashed(m) =>
      st.(values := UpdateTaskStatus(started, taskId, FAILED, Some(CRASH_PREFIX + ShowString(m))),
          failed := st.failed + 1, processed := st.processed + 1)
  }

  /** Every task ends FAILED under the code as written, a successful seckill included;
      the caller sees the success message as the failure reason. */
  lemma AsWrittenAlwaysFails(st: ProcessorState, taskId: string, outcome: SeckillOutcome)
    ensures var r := ProcessTaskAsWritten(st, taskId, outcome);
            r.values[ResultKey(taskId)] == FAILED && r.succeeded == st.succeeded
  {
    match outcome
    case Completed(res) =>
      assert !BoxedEquals(BoxedInt(res.code), BoxedString("200"));
    case Crashed(_) =>
  }

  lemma SuccessfulSeckillReportedFailed(st: ProcessorState, taskId: string, orderNo: string)
    ensures var r := ProcessTaskAsWritten(st, taskId, Completed(SuccessWith(orderNo)));
            GetTaskResult(r, taskId) == AsyncTaskResult(taskId, FAILED, Some("操作成功"), None)
  {
    var r := ProcessTaskAsWritten(st, taskId, Completed(SuccessWith(orderNo)));
    assert !BoxedEquals(BoxedInt(200), BoxedString("200"));
    assert DetailKey(taskId) != ResultKey(taskId) by {
      assert |DetailKey(taskId)| != |ResultKey(taskId)|;
    }
  }

  /** `processTask` with the evident intent: the integer code compared with 200. */
  function ProcessTask(st: ProcessorState, taskId: string, outcome: SeckillOutcome): (r: ProcessorState)
    ensures r.processed == st.processed + 1
    ensures r.processed == r.succeeded + r.failed <== st.processed == st.succeeded + st.failed
    ensures ResultKey(taskId) in r.values
    ensures r.values[ResultKey(taskId)] == SUCCESS <==> outcome.Completed? && outcome.result.code == OK_CODE
    ensures r.values[ResultKey(taskId)] == SUCCESS || r.values[ResultKey(taskId)] == FAILED
    ensures r.lists == st.lists && r.blacklist == st.blacklist
    ensures DetailKey(taskId) in r.values
    ensures forall k :: k in st.values && k != ResultKey(taskId) && k != DetailKey(taskId) ==> k in r.values && r.values[k] == st.values[k]
  {
    var started := UpdateTaskStatus(st.values, taskId, PROCESSING, Some(START_DETAIL));
    match outcome
    case Completed(res) =>
      if res.code == OK_CODE then
        st.(values := UpdateTaskStatus(started, taskId, SUCCESS, res.data),
            succeeded := st.succeeded + 1, processed := st.processed + 1)
      else
        st.(values := UpdateTaskStatus(started, taskId, FAILED, Some(res.message)),
            failed := st.failed + 1, processed := st.processed + 1)
    case Crashed(m) =>
      st.(values := UpdateTaskStatus(started, taskId, FAILED, Some(CRASH_PREFIX + ShowString(m))),
          failed := st.failed + 1, processed := st.processed + 1)
  }

  lemma ResultKeysDiffer(taskId: string)
    ensures DetailKey(taskId) != ResultKey(taskId)
  {
    assert |DetailKey(taskId)| != |ResultKey(taskId)|;
  }

  /** Once processed, a task reads back as completed, successful exactly when the
      seckill returned code 200, with the order number or the failure reason as detail. */
  lemma ProcessedIsCompleted(st: ProcessorState, taskId: string, outcome: SeckillOutcome)
    ensures var res := GetTaskResult(ProcessTask(st, taskId, outcome), taskId);
            res.IsCompleted() && (res.IsSuccess() <==> outcome.Completed? && outcome.result.code == OK_CODE)
    ensures outcome.Completed? && outcome.result.code != OK_CODE ==>
              GetTaskResult(ProcessTask(st, taskId, outcome), taskId).result == Some(outcome.result.message)
    ensures outcome.Completed? && outcome.result.code == OK_CODE && outcome.result.data.Some? ==>
              GetTaskResult(ProcessTask(st, taskId, outcome), taskId).result == outcome.result.data
  {
    ResultKeysDiffer(taskId);
  }

  /** How `processTask` compares the seckill's result code: as written (an `Integer`
      against the text "200") or as intended (against the number 200). */
  datatype CodeComparison = AsWritten | Intended

  /** The status a processed task ends with: SUCCESS only when the code is compared as
      intended and the seckill succeeded, FAILED otherwise. */
  function Verdict(outcome: SeckillOutcome, cmp: CodeComparison): string {
    if cmp.Intended? && Succeeds(outcome) then SUCCESS else FAILED
  }

  /** One task processed under the chosen comparison: its status and detail are written,
      and no other value changes. */
  function Step(st: ProcessorState, taskId: string, outcome: SeckillOutcome, cmp: CodeComparison): (r: ProcessorState)
    ensures r.processed == st.processed + 1
    ensures r.lists == st.lists && r.blacklist == st.blacklist
    ensures ResultKey(taskId) in r.values && r.values[ResultKey(taskId)] == Verdict(outcome, cmp)
    ensures cmp.AsWritten? ==> r.values[ResultKey(taskId)] == FAILED
    ensures cmp.Intended? ==> (r.values[ResultKey(taskId)] == SUCCESS <==> Succeeds(outcome))
    ensures DetailKey(taskId) in r.values
    ensures forall k :: k in st.values && k != ResultKey(taskId) && k != DetailKey(taskId) ==> k in r.values && r.values[k] == st.values[k]
    ensures cmp.AsWritten? ==> r.succeeded == st.succeeded && r.failed == st.failed + 1
    ensures cmp.Intended? ==> r.succeeded == st.succeeded + (if Succeeds(outcome) then 1 else 0)
                              && r.failed == st.failed + (if Succeeds(outcome) then 0 else 1)
  {
    match cmp
    case AsWritten => AsWrittenAlwaysFails(st, taskId, outcome); ProcessTaskAsWritten(st, taskId, outcome)
    case Intended => ProcessTask(st, taskId, outcome)
  }

  /** The seckill of a task succeeded: it completed with code 200. */
  predicate Succeeds(outcome: SeckillOutcome) {
    outcome.Completed? && outcome.result.code == OK_CODE
  }

  /** How many of the parsed tasks have a successful seckill. */
  function CountSucceeding(ws: seq<TaskWrapper>, outcome: string -> SeckillOutcome): (n: nat)
    ensures n <= |ws|
  {
    if |ws| == 0 then 0
    else (if Succeeds(outcome(ws[0].taskId)) then 1 else 0) + CountSucceeding(ws[1..], outcome)
  }

  /** Processing the deserializable tasks of a batch in order; tasks that do not parse
      are dropped. As written no task of the batch is counted a success; as intended
      exactly those whose seckill succeeded are. Every parsed task ends with its verdict
      unless another task's detail lands on its status key, and values no parsed task
      writes are kept. */
  function ProcessTasks(st: ProcessorState, tasks: seq<string>, outcome: string -> SeckillOutcome, cmp: CodeComparison)
    : (r: ProcessorState)
    ensures r.processed == st.processed + |Parsed(tasks)|
    ensures st.processed == st.succeeded + st.failed ==> r.processed == r.succeeded + r.failed
    ensures r.lists == st.lists && r.blacklist == st.blacklist
    ensures cmp.AsWritten? ==> r.succeeded == st.succeeded && r.failed == st.failed + |Parsed(tasks)|
    ensures cmp.Intended? ==> r.succeeded == st.succeeded + CountSucceeding(Parsed(tasks), outcome)
                              && r.failed == st.failed + |Parsed(tasks)| - CountSucceeding(Parsed(tasks), outcome)
    ensures forall w :: w in Parsed(tasks) && Unshadowed(Parsed(tasks), w.taskId) ==>
              ResultKey(w.taskId) in r.values && r.values[ResultKey(w.taskId)] == Verdict(outcome(w.taskId), cmp)
    ensures forall k :: k in st.values && KeptBy(Parsed(tasks), k) ==> k in r.values && r.values[k] == st.values[k]
  {
    ProcessParsed(st, Parsed(tasks), outcome, cmp)
  }

  /** The parsed tasks processed one after another. A task that does not parse has no
      effect on the state, so processing the parsed ones is processing the batch. */
  function ProcessParsed(st: ProcessorState, ws: seq<TaskWrapper>, outcome: string -> SeckillOutcome, cmp: CodeComparison)
    : (r: ProcessorState)
    ensures r.processed == st.processed + |ws|
    ensures st.processed == st.succeeded + st.failed ==> r.processed == r.succeeded + r.failed
    ensures r.lists == st.lists && r.blacklist == st.blacklist
    ensures cmp.AsWritten? ==> r.succeeded == st.succeeded && r.failed == st.failed + |ws|
    ensures cmp.Intended? ==> r.succeeded == st.succeeded + CountSucceeding(ws, outcome)
                              && r.failed == st.failed + |ws| - CountSucceeding(ws, outcome)
    ensures forall w :: w in ws && Unshadowed(ws, w.taskId) ==>
              ResultKey(w.taskId) in r.values && r.values[ResultKey(w.taskId)] == Verdict(outcome(w.taskId), cmp)
    ensures forall k :: k in st.values && KeptBy(ws, k) ==> k in r.values && r.values[k] == st.values[k]
    decreases |ws|
  {
    if |ws| == 0 then st
    else
      var next := Step(st, ws[0].taskId, outcome(ws[0].taskId), cmp);
      var r := ProcessParsed(next, ws[1..], outcome, cmp);
      ParsedCons(st.values, next.values, r.values, ws, outcome, cmp);
      r
  }

  /** What one more task adds to the values left by processing the rest: `next` holds
      the values after the first task, `after` those after all of them. */
  lemma ParsedCons(before: map<string, string>, next: map<string, string>, after: map<string, string>,
                   ws: seq<TaskWrapper>, outcome: string -> SeckillOutcome, cmp: CodeComparison)
    requires |ws| > 0
    requires ResultKey(ws[0].taskId) in next && next[ResultKey(ws[0].taskId)] == Verdict(outcome(ws[0].taskId), cmp)
    requires forall k :: k in before && k != ResultKey(ws[0].taskId) && k != DetailKey(ws[0].taskId) ==> k in next && next[k] == before[k]
    requires forall w :: w in ws[1..] && Unshadowed(ws[1..], w.taskId) ==>
               ResultKey(w.taskId) in after && after[ResultKey(w.taskId)] == Verdict(outcome(w.taskId), cmp)
    requires forall k :: k in next && KeptBy(ws[1..], k) ==> k in after && after[k] == next[k]
    ensures forall w :: w in ws && Unshadowed(ws, w.taskId) ==>
              ResultKey(w.taskId) in after && after[ResultKey(w.taskId)] == Verdict(outcome(w.taskId), cmp)
    ensures forall k :: k in before && KeptBy(ws, k) ==> k in after && after[k] == before[k]
  {
    KeptCons(before, next, after, ws);
    StatusCons(next, after, ws, outcome, cmp);
  }

  /** No task of `ws` writes its detail under the status key of `taskId`. Task ids are
      free text, so an id ending in ":detail" could overwrite another task's status. */
  predicate Unshadowed(ws: seq<TaskWrapper>, taskId: string) {
    forall v :: v in ws ==> DetailKey(v.taskId) != ResultKey(taskId)
  }

  /** Processing the tasks `ws` writes neither the status nor the detail under `k`. */
  predicate KeptBy(ws: seq<TaskWrapper>, k: string) {
    forall v :: v in ws ==> k != ResultKey(v.taskId) && k != DetailKey(v.taskId)
  }

  /** The ids the processor generates end in eight characters of a UUID, which hold no
      colon, so no task's detail key is the status key of a generated id. */
  lemma GeneratedIdUnshadowed(ws: seq<TaskWrapper>, userId: Option<int>, productId: Option<int>, now: int, uuidPrefix: string)
    requires |uuidPrefix| == 8 && forall i :: 0 <= i < |uuidPrefix| ==> uuidPrefix[i] != ':'
    ensures Unshadowed(ws, TaskId(userId, productId, now, uuidPrefix))
  {
    var id := TaskId(userId, productId, now, uuidPrefix);
    var key := ResultKey(id);
    assert key == (RESULT_PREFIX + (ShowLong(userId) + ":" + ShowLong(productId) + ":" + IntToString(now) + ":")) + uuidPrefix;
    assert key[|key| - 7] == uuidPrefix[1];
    forall v | v in ws
      ensures DetailKey(v.taskId) != key
    {
      var d := DetailKey(v.taskId);
      assert d == ResultKey(v.taskId) + ":detail";
      assert d[|d| - 7] == ':';
    }
  }

  lemma ResultKeyInjective(a: string, b: string)
    requires ResultKey(a) == ResultKey(b)
    ensures a == b
  {
    assert a == ResultKey(a)[|RESULT_PREFIX|..];
    assert b == ResultKey(b)[|RESULT_PREFIX|..];
  }

  /** Values neither the first task nor the rest write are those before the first. */
  lemma KeptCons(before: map<string, string>, next: map<string, string>, after: map<string, string>,
                 ws: seq<TaskWrapper>)
    requires |ws| > 0
    requires forall k :: k in before && k != ResultKey(ws[0].taskId) && k != DetailKey(ws[0].taskId) ==> k in next && next[k] == before[k]
    requires forall k :: k in next && KeptBy(ws[1..], k) ==> k in after && after[k] == next[k]
    ensures forall k :: k in before && KeptBy(ws, k) ==> k in after && after[k] == before[k]
  {
    forall k | k in before && KeptBy(ws, k)
      ensures k in after && after[k] == before[k]
    {
      assert ws[0] in ws;
      KeptTail(ws, k);
    }
  }

  /** The statuses after one more task, from those after the rest: the first task keeps
      the status it was given unless a later task with the same id sets the same one. */
  lemma StatusCons(next: map<string, string>, after: map<string, string>, ws: seq<TaskWrapper>,
                   outcome: string -> SeckillOutcome, cmp: CodeComparison)
    requires |ws| > 0
    requires ResultKey(ws[0].taskId) in next && next[ResultKey(ws[0].taskId)] == Verdict(outcome(ws[0].taskId), cmp)
    requires forall w :: w in ws[1..] && Unshadowed(ws[1..], w.taskId) ==>
               ResultKey(w.taskId) in after && after[ResultKey(w.taskId)] == Verdict(outcome(w.taskId), cmp)
    requires forall k :: k in next && KeptBy(ws[1..], k) ==> k in after && after[k] == next[k]
    ensures forall w :: w in ws && Unshadowed(ws, w.taskId) ==>
              ResultKey(w.taskId) in after && after[ResultKey(w.taskId)] == Verdict(outcome(w.taskId), cmp)
  {
    forall w | w in ws && Unshadowed(ws, w.taskId)
      ensures ResultKey(w.taskId) in after && after[ResultKey(w.taskId)] == Verdict(outcome(w.taskId), cmp)
    {
      UnshadowedTail(ws, w.taskId);
      if w !in ws[1..] {
        FirstOrTail(ws, w);
        FirstKeepsStatus(next, after, ws[0], ws[1..], outcome, cmp);
      }
    }
  }

  lemma KeptTail(ws: seq<TaskWrapper>, k: string)
    requires |ws| > 0 && KeptBy(ws, k)
    ensures KeptBy(ws[1..], k)
  {
    forall v | v in ws[1..]
      ensures k != ResultKey(v.taskId) && k != DetailKey(v.taskId)
    {
      assert v in ws;
    }
  }

  lemma UnshadowedTail(ws: seq<TaskWrapper>, taskId: string)
    requires |ws| > 0 && Unshadowed(ws, taskId)
    ensures Unshadowed(ws[1..], taskId)
  {
    forall v | v in ws[1..]
      ensures DetailKey(v.taskId) != ResultKey(taskId)
    {
      assert v in ws;
    }
  }

  lemma FirstOrTail(ws: seq<TaskWrapper>, w: TaskWrapper)
    requires w in ws && w !in ws[1..]
    ensures w == ws[0]
  {
    assert ws == [ws[0]] + ws[1..];
  }

  /** The first task's status survives the rest: either a later task carries the same id,
      and so the same verdict, or no later task writes that key. */
  lemma FirstKeepsStatus(next: map<string, string>, after: map<string, string>, w0: TaskWrapper, rest: seq<TaskWrapper>,
                         outcome: string -> SeckillOutcome, cmp: CodeComparison)
    requires ResultKey(w0.taskId) in next && next[ResultKey(w0.taskId)] == Verdict(outcome(w0.taskId), cmp)
    requires Unshadowed(rest, w0.taskId)
    requires forall w :: w in rest && Unshadowed(rest, w.taskId) ==>
               ResultKey(w.taskId) in after && after[ResultKey(w.taskId)] == Verdict(outcome(w.taskId), cmp)
    requires forall k :: k in next && KeptBy(rest, k) ==> k in after && after[k] == next[k]
    ensures ResultKey(w0.taskId) in after && after[ResultKey(w0.taskId)] == Verdict(outcome(w0.taskId), cmp)
  {
    var id := w0.taskId;
    if v :| v in rest && v.taskId == id {
      assert Unshadowed(rest, v.taskId);
    } else {
      forall v | v in rest
        ensures ResultKey(id) != ResultKey(v.taskId) && ResultKey(id) != DetailKey(v.taskId)
      {
        if ResultKey(id) == ResultKey(v.taskId) {
          ResultKeyInjective(id, v.taskId);
        }
      }
      assert KeptBy(rest, ResultKey(id));
    }
  }

  /** The two comparisons process the same tasks of a batch; they differ only in the
      successes counted, by exactly the tasks whose seckill succeeded. */
  lemma ComparisonsDifferBySuccesses(st: ProcessorState, tasks: seq<string>, outcome: string -> SeckillOutcome)
    ensures var written, intended := ProcessTasks(st, tasks, outcome, AsWritten), ProcessTasks(st, tasks, outcome, Intended);
            && written.processed == intended.processed && written.lists == intended.lists
            && intended.succeeded - written.succeeded == CountSucceeding(Parsed(tasks), outcome)
            && written.failed - intended.failed == CountSucceeding(Parsed(tasks), outcome)
  {
    var written, intended := ProcessTasks(st, tasks, outcome, AsWritten), ProcessTasks(st, tasks, outcome, Intended);
    assert written.processed == st.processed + |Parsed(tasks)| == intended.processed;
  }

  /** The tasks of a batch that deserialize. */
  function Parsed(tasks: seq<string>): seq<TaskWrapper>
    decreases |tasks|
  {
    if |tasks| == 0 then []
    else match Deserialize(tasks[0])
      case Some(w) => [w] + Parsed(tasks[1..])
      case None => Parsed(tasks[1..])
  }

  /** The batch one drain takes: up to `BATCH_SIZE` entries from the tail, oldest first. */
  function Batch(q: seq<string>): seq<string> {
    var n := if |q| < BATCH_SIZE then |q| else BATCH_SIZE;
    Reverse(q[|q| - n..])
  }

  /** The entries popped from the tail, in popping order, are the batch. */
  lemma PoppedIsBatch(q: seq<string>, tasks: seq<string>)
    requires |tasks| == if |q| < BATCH_SIZE then |q| else BATCH_SIZE
    requires forall k :: 0 <= k < |tasks| ==> tasks[k] == q[|q| - 1 - k]
    ensures tasks == Batch(q)
  {
    var n := |tasks|;
    assert Batch(q) == Reverse(q[|q| - n..]);
    forall k | 0 <= k < n
      ensures tasks[k] == Reverse(q[|q| - n..])[k]
    {
      ReverseIndex(q[|q| - n..], n - 1 - k);
    }
  }

  /** The state with the queue at `queueKey` replaced by what remains of it. */
  function Drained(st: ProcessorState, queueKey: string, remaining: seq<string>): (r: ProcessorState)
    ensures r.processed == st.processed && r.succeeded == st.succeeded && r.failed == st.failed
    ensures r.values == st.values && r.blacklist == st.blacklist
    ensures ListAt(r, queueKey) == remaining
    ensures forall k :: k != queueKey ==> ListAt(r, k) == ListAt(st, k)
  {
    st.(lists := st.lists[queueKey := remaining])
  }

  /** A state whose lists are those of the drained one sees the same queues. */
  lemma SameListsAsDrained(st: ProcessorState, queueKey: string, remaining: seq<string>, r: ProcessorState)
    requires r.lists == Drained(st, queueKey, remaining).lists
    ensures ListAt(r, queueKey) == remaining
    ensures forall k :: k != queueKey ==> ListAt(r, k) == ListAt(st, k)
  {
    var drained := Drained(st, queueKey, remaining);
    assert forall k :: ListAt(r, k) == ListAt(drained, k);
  }

  /** `processProductQueue`: drain one batch from the tail of the product's queue and process it. */
  method ProcessProductQueue(st: ProcessorState, queueKey: string, outcome: string -> SeckillOutcome, cmp: CodeComparison)
    returns (st': ProcessorState)
    ensures var q := ListAt(st, queueKey);
            var n := if |q| < BATCH_SIZE then |q| else BATCH_SIZE;
            ListAt(st', queueKey) == q[..|q| - n] && st'.processed == st.processed + |Parsed(Batch(q))|
    ensures cmp.Intended? ==> st'.succeeded == st.succeeded + CountSucceeding(Parsed(Batch(ListAt(st, queueKey))), outcome)
    ensures forall k :: k != queueKey ==> ListAt(st', k) == ListAt(st, k)
    ensures st.processed == st.succeeded + st.failed ==> st'.processed == st'.succeeded + st'.failed
    ensures cmp.AsWritten? ==> st'.succeeded == st.succeeded && st'.failed - st.failed == st'.processed - st.processed
    ensures var ws := Parsed(Batch(ListAt(st, queueKey)));
            forall w :: w in ws && Unshadowed(ws, w.taskId) ==>
              ResultKey(w.taskId) in st'.values && st'.values[ResultKey(w.taskId)] == Verdict(outcome(w.taskId), cmp)
    ensures var ws := Parsed(Batch(ListAt(st, queueKey)));
            forall k :: k in st.values && KeptBy(ws, k) ==> k in st'.values && st'.values[k] == st.values[k]
  {
    var q := ListAt(st, queueKey);
    var tasks, remaining := PopBatch(q);
    st' := ProcessTasks(Drained(st, queueKey, remaining), tasks, outcome, cmp);
    BatchDrained(st, queueKey, remaining, outcome, cmp);
  }

  /** What processing the batch does to the state with the batch's queue drained. */
  lemma BatchDrained(st: ProcessorState, queueKey: string, remaining: seq<string>, outcome: string -> SeckillOutcome,
                     cmp: CodeComparison)
    requires var q := ListAt(st, queueKey);
             remaining == q[..|q| - (if |q| < BATCH_SIZE then |q| else BATCH_SIZE)]
    ensures var q := ListAt(st, queueKey);
            var r := ProcessTasks(Drained(st, queueKey, remaining), Batch(q), outcome, cmp);
            && ListAt(r, queueKey) == remaining && r.processed == st.processed + |Parsed(Batch(q))|
            && (cmp.Intended? ==> r.succeeded == st.succeeded + CountSucceeding(Parsed(Batch(q)), outcome))
            && (forall k :: k != queueKey ==> ListAt(r, k) == ListAt(st, k))
            && (st.processed == st.succeeded + st.failed ==> r.processed == r.succeeded + r.failed)
            && (cmp.AsWritten? ==> r.succeeded == st.succeeded && r.failed - st.failed == r.processed - st.processed)
            && (forall w :: w in Parsed(Batch(q)) && Unshadowed(Parsed(Batch(q)), w.taskId) ==>
                  ResultKey(w.taskId) in r.values && r.values[ResultKey(w.taskId)] == Verdict(outcome(w.taskId), cmp))
            && (forall k :: k in st.values && KeptBy(Parsed(Batch(q)), k) ==> k in r.values && r.values[k] == st.values[k])
  {
    var drained := Drained(st, queueKey, remaining);
    var r := ProcessTasks(drained, Batch(ListAt(st, queueKey)), outcome, cmp);
    SameListsAsDrained(st, queueKey, remaining, r);
  }

  // ---------------------------------------------------------------- retries

  /** `processRetryQueue`: take the oldest retry entry, recover the task before the error
      mark and process it again if it deserializes. */
  function ProcessRetryQueue(st: ProcessorState, outcome: string -> SeckillOutcome, cmp: CodeComparison): (r: ProcessorState)
    ensures |ListAt(st, RetryQueueKey())| == 0 ==> r == st
    ensures |ListAt(st, RetryQueueKey())| > 0 ==>
              ListAt(r, RetryQueueKey()) == ListAt(st, RetryQueueKey())[..|ListAt(st, RetryQueueKey())| - 1]
    ensures var q := ListAt(st, RetryQueueKey());
            r.processed - st.processed == if |q| > 0 && Retried(q[|q| - 1]).Some? then 1 else 0
    ensures cmp.AsWritten? ==> r.succeeded == st.succeeded
    ensures forall k :: k != RetryQueueKey() ==> ListAt(r, k) == ListAt(st, k)
    ensures var q := ListAt(st, RetryQueueKey());
            |q| == 0 || Retried(q[|q| - 1]).None? ==>
              r.values == st.values && r.succeeded == st.succeeded && r.failed == st.failed
    ensures var q := ListAt(st, RetryQueueKey());
            |q| > 0 && Retried(q[|q| - 1]).Some? ==>
              var id := Retried(q[|q| - 1]).value.taskId;
              && ResultKey(id) in r.values && r.values[ResultKey(id)] == Verdict(outcome(id), cmp)
              && (cmp.Intended? ==> r.succeeded == st.succeeded + (if Succeeds(outcome(id)) then 1 else 0))
              && (forall k :: k in st.values && k != ResultKey(id) && k != DetailKey(id) ==> k in r.values && r.values[k] == st.values[k])
  {
    var q := ListAt(st, RetryQueueKey());
    if |q| == 0 then st
    else
      var popped := st.(lists := st.lists[RetryQueueKey() := q[..|q| - 1]]);
      match Retried(q[|q| - 1])
      case None => popped
      case Some(w) => Step(popped, w.taskId, outcome(w.taskId), cmp)
  }

  /** The task a retry entry carries, when the entry has the error mark and the text
      before it deserializes. */
  function Retried(entry: string): Option<TaskWrapper> {
    match OriginalOfRetry(entry)
    case None => None
    case Some(task) => Deserialize(task)
  }
}

=== FILE: capability_token.dfy ===
/** Single-use purchase tokens bound to a user, a product and a network address.
    Issuing one passes the scalper screening, an hourly issuing quota and a
    challenge; the token is the first 32 hex characters of a SHA-256 digest.
    Consuming one checks the token text, the address and that it is unused.

    The digest is a parameter (any function yielding 32 bytes); the expiry of keys
    is recorded as the time-to-live each write asks for, not enforced. */
module CapabilityToken {
  import opened Wrappers
  import opened Text
  import AntiScalping

  const TOKEN_PREFIX: string := "enhanced:token:"
  const TOKEN_USAGE_PREFIX: string := "token:usage:"
  const TOKEN_GENERATE_COUNT_PREFIX: string := "token:generate:count:"
  const SECRET_SUFFIX: string := ":SECKILL_SECRET"

  const USER_TOKENS_PER_HOUR: int := 5
  const IP_TOKENS_PER_HOUR: int := 20
  const CONSUMED_TTL_MINUTES: int := 5

  datatype TokenInfo = TokenInfo(
    token: string, userId: Option<int>, productId: Option<int>,
    ip: Option<string>, device: Option<string>, createTime: int, used: bool)

  /** Stored token records, the time-to-live last requested for each, the issuing
      counters, the usage records, and the screening state shared with the scalper
      checks. */
  datatype TokenStore = TokenStore(
    tokens: map<string, TokenInfo>, ttlMinutes: map<string, int>,
    counters: map<string, int>, usage: map<string, string>, guard: AntiScalping.Guard)

  function TokenKey(userId: Option<int>, productId: Option<int>): string {
    TOKEN_PREFIX + ShowLong(userId) + ":" + ShowLong(productId)
  }

  function UsageKey(userId: Option<int>, productId: Option<int>): string {
    TOKEN_USAGE_PREFIX + ShowLong(userId) + ":" + ShowLong(productId)
  }

  function UserQuotaKey(userId: Option<int>): string {
    TOKEN_GENERATE_COUNT_PREFIX + "user:" + ShowLong(userId)
  }

  function IpQuotaKey(ip: Option<string>): string {
    TOKEN_GENERATE_COUNT_PREFIX + "ip:" + ShowString(ip)
  }

  lemma QuotaKeysDistinct(userId: Option<int>, ip: Option<string>)
    ensures UserQuotaKey(userId) != IpQuotaKey(ip)
  {
    assert UserQuotaKey(userId)[21] == 'u' && IpQuotaKey(ip)[21] == 'i';
  }

  /** The hourly issuing quota: at most five tokens per user and twenty per address;
      the address counter is not touched once the user is over quota. */
  function CheckTokenGenerateFrequency(counters: map<string, int>, userId: Option<int>, ip: Option<string>): (r: (bool, map<string, int>))
    ensures r.0 <==> Count(counters, UserQuotaKey(userId)) + 1 <= USER_TOKENS_PER_HOUR
                     && Count(counters, IpQuotaKey(ip)) + 1 <= IP_TOKENS_PER_HOUR
    ensures Count(r.1, UserQuotaKey(userId)) == Count(counters, UserQuotaKey(userId)) + 1
    ensures Count(r.1, IpQuotaKey(ip)) == Count(counters, IpQuotaKey(ip)) + (if Count(counters, UserQuotaKey(userId)) + 1 <= USER_TOKENS_PER_HOUR then 1 else 0)
    ensures forall k :: k != UserQuotaKey(userId) && k != IpQuotaKey(ip) ==> Count(r.1, k) == Count(counters, k)
  {
    QuotaKeysDistinct(userId, ip);
    var userCount := Count(counters, UserQuotaKey(userId)) + 1;
    var afterUser := counters[UserQuotaKey(userId) := userCount];
    if userCount > USER_TOKENS_PER_HOUR then (false, afterUser)
    else
      var ipCount := Count(afterUser, IpQuotaKey(ip)) + 1;
      (ipCount <= IP_TOKENS_PER_HOUR, afterUser[IpQuotaKey(ip) := ipCount])
  }

  /** The challenge stands in for a captcha: any answer of four or more characters. */
  predicate ValidateChallengeAnswer(answer: Option<string>) {
    answer.Some? && |answer.value| >= 4
  }

  /** The bonus minutes of each signal: 10 from level 3 or 5 from level 2, 5 from credit
      90 or 3 from credit 80, 5 when verified. */
  function LevelBonus(level: Option<int>): nat {
    if level.Some? && level.value >= 3 then 10 else if level.Some? && level.value >= 2 then 5 else 0
  }

  function CreditBonus(credit: Option<int>): nat {
    if credit.Some? && credit.value >= 90 then 5 else if credit.Some? && credit.value >= 80 then 3 else 0
  }

  function VerifiedBonus(verified: Option<bool>): nat {
    if verified == Some(true) then 5 else 0
  }

  /** Minutes a fresh token lives: 10 plus the three bonuses, capped at 30. The bonuses
      add up to at most 20, so the cap never takes effect. */
  function CalculateTokenValidity(level: Option<int>, credit: Option<int>, verified: Option<bool>): (minutes: int)
    ensures minutes == 10 + LevelBonus(level) + CreditBonus(credit) + VerifiedBonus(verified)
    ensures 10 <= minutes <= 30
    ensures minutes == 10 <==> (level.None? || level.value < 2) && (credit.None? || credit.value < 80) && verified != Some(true)
    ensures level.Some? && level.value >= 3 && credit.Some? && credit.value >= 90 && verified == Some(true) <==> minutes == 30
  {
    var v := 10;
    var v := if level.Some? && level.value >= 3 then v + 10 else if level.Some? && level.value >= 2 then v + 5 else v;
    var v := if credit.Some? && credit.value >= 90 then v + 5 else if credit.Some? && credit.value >= 80 then v + 3 else v;
    var v := if verified == Some(true) then v + 5 else v;
    if v < 30 then v else 30
  }

  /** Raising the level, the credit score or verifying never shortens a token's life. */
  lemma ValidityMonotone(l1: int, l2: int, c1: int, c2: int, v1: bool, v2: bool)
    requires l1 <= l2 && c1 <= c2 && (v1 ==> v2)
    ensures CalculateTokenValidity(Some(l1), Some(c1), Some(v1)) <= CalculateTokenValidity(Some(l2), Some(c2), Some(v2))
  {
  }

  /** The text the digest is taken over. */
  function DigestInput(userId: Option<int>, productId: Option<int>, ip: Option<string>, timestamp: int): string {
    ShowLong(userId) + ":" + ShowLong(productId) + ":" + ShowString(ip) + ":" + IntToString(timestamp) + SECRET_SUFFIX
  }

  /** The token text: the digest in two-digit lower-case hex, cut to 32 characters,
      which is exactly the hex of the digest's first 16 bytes. */
  function SecureToken(hash: seq<byte>): (token: string)
    requires |hash| == 32
    ensures |token| == 32 && forall i :: 0 <= i < 32 ==> IsHexDigit(token[i])
    ensures HexDecode(token) == hash[..16]
  {
    var token := HexEncode(hash)[..32];
    HexEncodePrefix(hash, 16);
    HexRoundTrip(hash[..16]);
    token
  }

  /** Issue a token for `productId`: the scalper screening, then the issuing quota,
      then the challenge, each failure yielding no token; a token is stored unused
      under the user and product, replacing any earlier one, to live for the
      computed validity. */
  function GenerateEnhancedToken(st: TokenStore, client: AntiScalping.Client, productId: Option<int>,
                                 challenge: Option<string>, now: int, digest: string -> seq<byte>): (r: (Option<string>, TokenStore))
    requires forall s :: |digest(s)| == 32
    ensures r.0.Some? <==> && AntiScalping.CheckUserLegitimacy(st.guard, client, now).0
                           && CheckTokenGenerateFrequency(st.counters, client.userId, client.ip).0
                           && ValidateChallengeAnswer(challenge)
    ensures r.0.Some? ==> |r.0.value| == 32
    ensures r.0.Some? ==> r.1.tokens == st.tokens[TokenKey(client.userId, productId) :=
              TokenInfo(r.0.value, client.userId, productId, client.ip, client.device, now, false)]
    ensures r.0.Some? ==> r.1.ttlMinutes == st.ttlMinutes[TokenKey(client.userId, productId) := CalculateTokenValidity(client.level, client.credit, client.verified)]
    ensures r.0.None? ==> r.1.tokens == st.tokens && r.1.ttlMinutes == st.ttlMinutes && r.1.usage == st.usage
    ensures r.0.Some? ==> r.0.value == SecureToken(digest(DigestInput(client.userId, productId, client.ip, now)))
    ensures var (legit, guard) := AntiScalping.CheckUserLegitimacy(st.guard, client, now);
            && r.1.guard == guard
            && (!legit ==> r.1 == st.(guard := guard))
            && (legit ==> r.1.counters == CheckTokenGenerateFrequency(st.counters, client.userId, client.ip).1)
  {
    var (legit, guard) := AntiScalping.CheckUserLegitimacy(st.guard, client, now);
    var screened := st.(guard := guard);
    if !legit then (None, screened)
    else
      var (withinQuota, counters) := CheckTokenGenerateFrequency(st.counters, client.userId, client.ip);
      var counted := screened.(counters := counters);
      if !withinQuota then (None, counted)
      else if !ValidateChallengeAnswer(challenge) then (None, counted)
      else
        var validity := CalculateTokenValidity(client.level, client.credit, client.verified);
        var token := SecureToken(digest(DigestInput(client.userId, productId, client.ip, now)));
        var key := TokenKey(client.userId, productId);
        var info := TokenInfo(token, client.userId, productId, client.ip, client.device, now, false);
        (Some(token), counted.(tokens := st.tokens[key := info], ttlMinutes := st.ttlMinutes[key := validity]))
  }

  /** Consume a token: it must be stored, match the presented text, have been issued
      to the presenting address and be unused. Success marks it used (to live five
      more minutes) and records the usage; failure changes nothing. */
  function ValidateAndConsumeToken(st: TokenStore, userId: Option<int>, productId: Option<int>, token: string, ip: string): (r: (bool, TokenStore))
    ensures var key := TokenKey(userId, productId);
            r.0 <==> key in st.tokens && st.tokens[key].token == token && st.tokens[key].ip == Some(ip) && !st.tokens[key].used
    ensures !r.0 ==> r.1 == st
    ensures r.0 ==> r.1.tokens == st.tokens[TokenKey(userId, productId) := st.tokens[TokenKey(userId, productId)].(used := true)]
    ensures r.0 ==> r.1.usage == st.usage[UsageKey(userId, productId) := token]
    ensures r.0 ==> r.1.ttlMinutes == st.ttlMinutes[TokenKey(userId, productId) := CONSUMED_TTL_MINUTES]
  {
    var key := TokenKey(userId, productId);
    if key !in st.tokens then (false, st)
    else
      var info := st.tokens[key];
      if token != info.token then (false, st)
      else if Some(ip) != info.ip then (false, st)
      else if info.used then (false, st)
      else
        (true, st.(tokens := st.tokens[key := info.(used := true)],
                   ttlMinutes := st.ttlMinutes[key := CONSUMED_TTL_MINUTES],
                   usage := st.usage[UsageKey(userId, productId) := token]))
  }

  /** A token issued to a caller with a known address is accepted once from that
      address, and every later presentation is refused. */
  lemma IssueThenConsumeOnce(st: TokenStore, client: AntiScalping.Client, productId: Option<int>,
                             challenge: Option<string>, now: int, digest: string -> seq<byte>, again: string, ip2: string)
    requires forall s :: |digest(s)| == 32
    requires client.ip.Some?
    requires GenerateEnhancedToken(st, client, productId, challenge, now, digest).0.Some?
    ensures var (token, issued) := GenerateEnhancedToken(st, client, productId, challenge, now, digest);
            var (first, consumed) := ValidateAndConsumeToken(issued, client.userId, productId, token.value, client.ip.value);
            first && !ValidateAndConsumeToken(consumed, client.userId, productId, again, ip2).0
  {
  }
}

=== FILE: distributed_lock.dfy ===
/** The distributed mutual-exclusion lock kept in the shared key-value store.
    A lock is the key `seckill:lock:<name>` holding a value unique to one
    acquisition attempt; each thread remembers the values of the locks it holds,
    and release deletes the key only while it still holds the remembered value.

    Other clients act on the store while a thread polls and while it runs its
    critical section; their actions are given as patches (`Some(v)` writes `v`,
    `None` deletes). Lease expiry is one such action. */
module DistributedLock {
  import opened Wrappers

  const LOCK_PREFIX: string := "seckill:lock:"
  const POLL_INTERVAL_MILLIS: int := 50

  type Store = map<string, string>
  type Patch = map<string, Option<string>>

  datatype LockState = LockState(store: Store, holders: map<int, map<string, string>>)

  function FullKey(lockKey: string): string {
    LOCK_PREFIX + lockKey
  }

  /** The store after other clients' writes and deletions. */
  function ApplyPatch(store: Store, patch: Patch): (r: Store)
    ensures forall k :: k !in patch ==> (k in r <==> k in store) && (k in store ==> r[k] == store[k])
    ensures forall k :: k in patch ==> (k in r <==> patch[k].Some?) && (k in r ==> r[k] == patch[k].value)
  {
    var kept := map k | k in store && k !in patch :: store[k];
    var written := map k | k in patch && patch[k].Some? :: patch[k].value;
    kept + written
  }

  /** What a thread observes at one turn of the polling loop: the elapsed time the
      loop condition reads, what other clients changed since the previous turn,
      and whether the pause after a failed attempt is interrupted. */
  datatype Poll = Poll(elapsed: int, others: Patch, interrupted: bool)

  /** The store as seen at attempt `n - 1`, after the first `n` patches. */
  function StoreAfter(store: Store, polls: seq<Poll>, n: nat): Store
    requires n <= |polls|
  {
    if n == 0 then store else ApplyPatch(StoreAfter(store, polls, n - 1), polls[n - 1].others)
  }

  /** Attempt `j` ran in time, found the lock taken, and paused without interruption. */
  ghost predicate FailedTurn(store: Store, full: string, waitMillis: int, polls: seq<Poll>, j: nat)
    requires j < |polls|
  {
    polls[j].elapsed < waitMillis && full in StoreAfter(store, polls, j + 1) && !polls[j].interrupted
  }

  /** Attempts before `k` failed and attempt `k` ran in time and found the key free. */
  ghost predicate AcquiredAt(store: Store, full: string, waitMillis: int, polls: seq<Poll>, k: int) {
    && 0 <= k < |polls|
    && (forall j :: 0 <= j < k ==> FailedTurn(store, full, waitMillis, polls, j))
    && polls[k].elapsed < waitMillis
    && full !in StoreAfter(store, polls, k + 1)
  }

  /** Attempts before `k` failed and the loop stopped at turn `k`: no more turns, the
      time was up, or the attempt failed and its pause was interrupted. */
  ghost predicate GaveUpAt(store: Store, full: string, waitMillis: int, polls: seq<Poll>, k: int) {
    && 0 <= k <= |polls|
    && (forall j :: 0 <= j < k ==> FailedTurn(store, full, waitMillis, polls, j))
    && (k == |polls| || polls[k].elapsed >= waitMillis
        || (full in StoreAfter(store, polls, k + 1) && polls[k].interrupted))
  }

  /** Some attempt within the wait obtains the lock. */
  ghost predicate Obtainable(store: Store, full: string, waitMillis: int, polls: seq<Poll>) {
    exists k :: AcquiredAt(store, full, waitMillis, polls, k)
  }

  /** A polling run that gives up at turn `k` obtains the lock at no attempt. */
  lemma GiveUpExcludesAcquire(store: Store, full: string, waitMillis: int, polls: seq<Poll>, k: int, j: int)
    requires GaveUpAt(store, full, waitMillis, polls, k)
    ensures !AcquiredAt(store, full, waitMillis, polls, j)
  {
    if 0 <= k < j < |polls| {
      assert !FailedTurn(store, full, waitMillis, polls, k);
    } else if 0 <= j < k {
      assert FailedTurn(store, full, waitMillis, polls, j);
    }
  }

  function HeldBy(st: LockState, thread: int): map<string, string> {
    if thread in st.holders then st.holders[thread] else map[]
  }

  /** Poll for the lock until `waitMillis` has elapsed: the first attempt that finds
      the key free writes this attempt's `value` and records it for the thread; an
      interrupted pause or running out of time gives up. */
  method TryLock(st: LockState, thread: int, lockKey: string, value: string, waitMillis: int, polls: seq<Poll>)
    returns (acquired: bool, st': LockState)
    ensures acquired ==> exists k :: AcquiredAt(st.store, FullKey(lockKey), waitMillis, polls, k)
                                     && st'.store == StoreAfter(st.store, polls, k + 1)[FullKey(lockKey) := value]
    ensures acquired ==> st'.holders == st.holders[thread := HeldBy(st, thread)[FullKey(lockKey) := value]]
    ensures !acquired ==> exists k :: GaveUpAt(st.store, FullKey(lockKey), waitMillis, polls, k)
    ensures !acquired ==> st'.holders == st.holders
  {
    var full := FullKey(lockKey);
    var store := st.store;
    var i := 0;
    while i < |polls| && polls[i].elapsed < waitMillis
      invariant 0 <= i <= |polls|
      invariant store == StoreAfter(st.store, polls, i)
      invariant forall j :: 0 <= j < i ==> FailedTurn(st.store, full, waitMillis, polls, j)
      decreases |polls| - i
    {
      store := ApplyPatch(store, polls[i].others);
      if full !in store {
        var held := HeldBy(st, thread)[full := value];
        assert AcquiredAt(st.store, full, waitMillis, polls, i);
        return true, LockState(store[full := value], st.holders[thread := held]);
      }
      if polls[i].interrupted {
        assert GaveUpAt(st.store, full, waitMillis, polls, i);
        return false, LockState(store, st.holders);
      }
      assert FailedTurn(st.store, full, waitMillis, polls, i);
      i := i + 1;
    }
    assert GaveUpAt(st.store, full, waitMillis, polls, i);
    return false, LockState(store, st.holders);
  }

  /** Release: when the thread remembers a value for the lock, the key is deleted
      only if it still holds that value, and the thread forgets the lock either way. */
  function Unlock(st: LockState, thread: int, lockKey: string): (r: LockState)
    ensures FullKey(lockKey) !in HeldBy(r, thread)
    ensures FullKey(lockKey) !in HeldBy(st, thread) ==> r == st
    ensures forall k :: k != FullKey(lockKey) ==> (k in r.store <==> k in st.store) && (k in r.store ==> r.store[k] == st.store[k])
    ensures FullKey(lockKey) in r.store ==> FullKey(lockKey) in st.store && r.store[FullKey(lockKey)] == st.store[FullKey(lockKey)]
    ensures FullKey(lockKey) in st.store && FullKey(lockKey) !in r.store <==>
      FullKey(lockKey) in HeldBy(st, thread) && FullKey(lockKey) in st.store
      && st.store[FullKey(lockKey)] == HeldBy(st, thread)[FullKey(lockKey)]
    ensures forall t :: t != thread ==> HeldBy(r, t) == HeldBy(st, t)
  {
    var full := FullKey(lockKey);
    var held := HeldBy(st, thread);
    if full !in held then st
    else
      var store := if full in st.store && st.store[full] == held[full] then st.store - {full} else st.store;
      LockState(store, st.holders[thread := held - {full}])
  }

  /** Another thread's release never disturbs a lock it does not hold: when the
      remembered values differ, the holder's key survives. */
  lemma ReleaseRespectsOwner(st: LockState, owner: int, other: int, lockKey: string)
    requires owner != other
    requires FullKey(lockKey) in st.store && FullKey(lockKey) in HeldBy(st, owner)
    requires st.store[FullKey(lockKey)] == HeldBy(st, owner)[FullKey(lockKey)]
    requires FullKey(lockKey) in HeldBy(st, other) ==> HeldBy(st, other)[FullKey(lockKey)] != HeldBy(st, owner)[FullKey(lockKey)]
    ensures var r := Unlock(st, other, lockKey);
            FullKey(lockKey) in r.store && r.store[FullKey(lockKey)] == st.store[FullKey(lockKey)]
            && HeldBy(r, owner) == HeldBy(st, owner)
  {
  }

  /** The critical section: it returns a value or raises an exception. */
  datatype TaskOutcome<T> = Returned(value: T) | Raised(message: string)

  /** What the caller sees: a value, or a runtime exception with its message and the
      message of the exception it wraps, if any. */
  datatype Guarded<T> = Value(value: T) | Failure(message: string, cause: Option<string>)

  const TASK_FAILED_MESSAGE: string := "执行业务逻辑失败"
  const LOCK_FAILED_PREFIX: string := "获取分布式锁失败: "

  /** Run a task under the lock: without the lock it fails with the lock name; with
      it, the task's value is returned or its exception wrapped, and on both paths the
      lock is released after the task (and anything `during` it) has run. */
  method ExecuteWithLock<T>(st: LockState, thread: int, lockKey: string, value: string, waitMillis: int,
                            polls: seq<Poll>, task: TaskOutcome<T>, during: Patch)
    returns (result: Guarded<T>, st': LockState)
    ensures result.Failure? && result.cause.None? <==> !Obtainable(st.store, FullKey(lockKey), waitMillis, polls)
    ensures result.Value? <==> Obtainable(st.store, FullKey(lockKey), waitMillis, polls) && task.Returned?
    ensures result.Failure? && result.cause.None? ==> result.message == LOCK_FAILED_PREFIX + lockKey && st'.holders == st.holders
    ensures result.Value? ==> task == Returned(result.value)
    ensures result.Failure? && result.cause.Some? ==> task == Raised(result.cause.value) && result.message == TASK_FAILED_MESSAGE
    ensures task.Raised? && result.Failure? ==> result.cause.Some? || result.message == LOCK_FAILED_PREFIX + lockKey
    ensures result.Value? || result.cause.Some? ==> FullKey(lockKey) !in HeldBy(st', thread)
    ensures (result.Value? || result.cause.Some?) && FullKey(lockKey) !in during ==> FullKey(lockKey) !in st'.store
  {
    var acquired, locked := TryLock(st, thread, lockKey, value, waitMillis, polls);
    if !acquired {
      ghost var k :| GaveUpAt(st.store, FullKey(lockKey), waitMillis, polls, k);
      forall j
        ensures !AcquiredAt(st.store, FullKey(lockKey), waitMillis, polls, j)
      {
        GiveUpExcludesAcquire(st.store, FullKey(lockKey), waitMillis, polls, k, j);
      }
      result := Failure(LOCK_FAILED_PREFIX + lockKey, None);
      st' := locked;
      return;
    }
    result := match task
      case Returned(v) => Value(v)
      case Raised(m) => Failure(TASK_FAILED_MESSAGE, Some(m));
    st' := Unlock(locked.(store := ApplyPatch(locked.store, during)), thread, lockKey);
  }
}

=== FILE: fair_queue.dfy ===
/** The fair admission queue placed in front of a contended resource (one flash-sale
    product). Every request draws a sequence number from a per-resource counter;
    up to `maxConcurrent` users are admitted straight into the processing set and
    the rest wait in a sorted set scored by their sequence numbers, so that the
    earliest waiter is admitted when a processing user completes.

    One `ResourceQueue` value holds the four per-resource keys: the counter, the
    processing set, the waiting sorted set and the per-user sequence records. The
    sorted set is a sequence of entries kept in ascending score order. */
module FairQueue {
  import opened Wrappers
  import opened Text

  const IMMEDIATE_PREFIX: string := "IMMEDIATE:"
  const QUEUED_PREFIX: string := "QUEUED:"

  datatype Entry = Entry(user: int, score: int)

  datatype ResourceQueue = ResourceQueue(
    counter: int,               // the sequence counter; absent reads as 0
    processing: set<int>,       // users currently admitted
    queue: seq<Entry>,          // waiting users, ascending by score
    sequenceOf: map<int, int>)  // the sequence number recorded for each user

  function Empty(): ResourceQueue {
    ResourceQueue(0, {}, [], map[])
  }

  predicate Waiting(q: seq<Entry>, user: int) {
    exists i :: 0 <= i < |q| && q[i].user == user
  }

  /** Reachable states: scores strictly ascend along the queue, so no two waiters
      share a score, no score runs ahead of the counter, no user waits twice and
      nobody both waits and is admitted. */
  ghost predicate Valid(st: ResourceQueue) {
    && (forall i, j :: 0 <= i < j < |st.queue| ==> st.queue[i].score < st.queue[j].score)
    && (forall i :: 0 <= i < |st.queue| ==> st.queue[i].score <= st.counter)
    && (forall i, j :: 0 <= i < j < |st.queue| ==> st.queue[i].user != st.queue[j].user)
    && (forall i :: 0 <= i < |st.queue| ==> st.queue[i].user !in st.processing)
  }

  /** Sorted-set insertion: the new entry goes before the first entry with a larger
      score. Redis breaks score ties by member name; valid states have no ties. */
  function InsertByScore(q: seq<Entry>, e: Entry): (r: seq<Entry>)
    ensures |r| == |q| + 1
    ensures forall x :: x in r <==> x in q || x == e
  {
    if |q| == 0 then [e]
    else if e.score < q[0].score then [e] + q
    else [q[0]] + InsertByScore(q[1..], e)
  }

  lemma {:induction false} InsertAboveAllAppends(q: seq<Entry>, e: Entry)
    requires forall i :: 0 <= i < |q| ==> q[i].score < e.score
    ensures InsertByScore(q, e) == q + [e]
  {
    if |q| > 0 {
      InsertAboveAllAppends(q[1..], e);
      assert [q[0]] + (q[1..] + [e]) == q + [e];
    }
  }

  lemma AppendWhenValid(st: ResourceQueue, e: Entry)
    requires e.score == st.counter + 1
    ensures Valid(st) ==> InsertByScore(st.queue, e) == st.queue + [e]
  {
    if Valid(st) {
      InsertAboveAllAppends(st.queue, e);
    }
  }

  /** The reply token: user, sequence number and clock reading joined by colons. */
  function QueueToken(user: int, sequence: int, now: int): string {
    IntToString(user) + ":" + IntToString(sequence) + ":" + IntToString(now)
  }

  /** Ask to enter the queue. The counter advances on every call, including calls
      that are turned away; a user already admitted or waiting is turned away
      (`None`); otherwise the user is admitted at once while fewer than
      `maxConcurrent` users hold the resource, and queued at the back otherwise. */
  function RequestQueueEntry(st: ResourceQueue, user: int, maxConcurrent: int, now: int): (r: (Option<string>, ResourceQueue))
    ensures r.1.counter == st.counter + 1
    ensures r.0.None? <==> user in st.processing || Waiting(st.queue, user)
    ensures r.0.None? ==> r.1 == st.(counter := st.counter + 1)
    ensures r.0.Some? && |st.processing| < maxConcurrent ==>
      && r.0.value == IMMEDIATE_PREFIX + QueueToken(user, r.1.counter, now)
      && r.1.processing == st.processing + {user} && r.1.queue == st.queue
      && r.1.sequenceOf == st.sequenceOf[user := r.1.counter]
    ensures r.0.Some? && |st.processing| >= maxConcurrent ==>
      && r.0.value == QUEUED_PREFIX + QueueToken(user, r.1.counter, now)
      && r.1.processing == st.processing
      && r.1.sequenceOf == st.sequenceOf[user := r.1.counter]
    ensures Valid(st) && r.0.Some? && |st.processing| >= maxConcurrent ==> r.1.queue == st.queue + [Entry(user, r.1.counter)]
    ensures |st.processing| <= maxConcurrent ==> |r.1.processing| <= maxConcurrent
    ensures Valid(st) ==> Valid(r.1)
  {
    var sequence := st.counter + 1;
    var counted := st.(counter := sequence);
    if user in st.processing || Waiting(st.queue, user) then
      (None, counted)
    else if |st.processing| < maxConcurrent then
      (Some(IMMEDIATE_PREFIX + QueueToken(user, sequence, now)),
       counted.(processing := st.processing + {user}, sequenceOf := st.sequenceOf[user := sequence]))
    else
      var q := InsertByScore(st.queue, Entry(user, sequence));
      AppendWhenValid(st, Entry(user, sequence));
      (Some(QUEUED_PREFIX + QueueToken(user, sequence, now)),
       counted.(queue := q, sequenceOf := st.sequenceOf[user := sequence]))
  }

  datatype QueueState = Processing | Queued | NotFound

  datatype QueueStatus = QueueStatus(state: QueueState, position: int, sequence: int) {
    /** Only an admitted user may go ahead. */
    predicate CanProceed() {
      state == Processing
    }
  }

  /** Index of the user's entry in the queue. */
  function Rank(q: seq<Entry>, user: int): (r: Option<nat>)
    ensures r.Some? <==> Waiting(q, user)
    ensures r.Some? ==> r.value < |q| && q[r.value].user == user
    ensures r.Some? ==> forall i :: 0 <= i < r.value ==> q[i].user != user
  {
    if |q| == 0 then None
    else if q[0].user == user then Some(0)
    else
      var tail := Rank(q[1..], user);
      assert forall i :: 1 <= i < |q| ==> q[i] == q[1..][i - 1];
      if tail.None? then None else Some(tail.value + 1)
  }

  /** How many waiting entries have a score below `s`. */
  function CountBelow(q: seq<Entry>, s: int): nat {
    if |q| == 0 then 0 else (if q[0].score < s then 1 else 0) + CountBelow(q[1..], s)
  }

  lemma {:induction false} CountBelowNone(q: seq<Entry>, s: int)
    requires forall i :: 0 <= i < |q| ==> s <= q[i].score
    ensures CountBelow(q, s) == 0
  {
    if |q| > 0 {
      CountBelowNone(q[1..], s);
    }
  }

  /** In an ascending queue, exactly `i` entries are ahead of the entry at index `i`. */
  lemma {:induction false} CountBelowIndex(q: seq<Entry>, i: nat)
    requires i < |q|
    requires forall a, b :: 0 <= a < b < |q| ==> q[a].score < q[b].score
    ensures CountBelow(q, q[i].score) == i
  {
    if i == 0 {
      CountBelowNone(q[1..], q[0].score);
    } else {
      CountBelowIndex(q[1..], i - 1);
    }
  }

  lemma PositionWhenValid(st: ResourceQueue, k: nat)
    requires k < |st.queue|
    ensures Valid(st) ==> CountBelow(st.queue, st.queue[k].score) == k
  {
    if Valid(st) {
      CountBelowIndex(st.queue, k);
    }
  }

  /** Where a user stands: admitted users see position 0 and their recorded sequence
      (0 when none is recorded); a waiting user sees a 1-based position equal to one
      more than the number of waiters with a smaller sequence, and their own
      sequence; anyone else is not found. */
  function CheckQueueStatus(st: ResourceQueue, user: int): (s: QueueStatus)
    ensures s.CanProceed() <==> user in st.processing
    ensures s.state == Processing ==> s.position == 0 && s.sequence == (if user in st.sequenceOf then st.sequenceOf[user] else 0)
    ensures s.state == NotFound <==> user !in st.processing && !Waiting(st.queue, user)
    ensures s.state == NotFound ==> s.position == -1 && s.sequence == 0
    ensures s.state == Queued ==> exists i :: 0 <= i < |st.queue| && st.queue[i] == Entry(user, s.sequence)
    ensures Valid(st) && s.state == Queued ==> s.position == CountBelow(st.queue, s.sequence) + 1
  {
    if user in st.processing then
      QueueStatus(Processing, 0, if user in st.sequenceOf then st.sequenceOf[user] else 0)
    else
      match Rank(st.queue, user)
      case Some(k) =>
        PositionWhenValid(st, k);
        QueueStatus(Queued, k + 1, st.queue[k].score)
      case None => QueueStatus(NotFound, -1, 0)
  }

  /** Completion as written: the caller leaves the processing set and loses their
      sequence record, and then, whether or not the caller was admitted, the waiter
      with the smallest score is moved into the processing set and returned. */
  function CompleteProcessing(st: ResourceQueue, user: int): (r: (Option<int>, ResourceQueue))
    ensures r.0.Some? <==> |st.queue| > 0
    ensures r.0.Some? ==> r.0.value == st.queue[0].user && r.1.queue == st.queue[1..]
    ensures Valid(st) && r.0.Some? ==> forall i :: 0 < i < |st.queue| ==> st.queue[0].score < st.queue[i].score
    ensures r.0.Some? ==> r.1.processing == st.processing - {user} + {r.0.value}
    ensures r.0.None? ==> r.1.processing == st.processing - {user} && r.1.queue == st.queue
    ensures r.1.sequenceOf == st.sequenceOf - {user} && r.1.counter == st.counter
    ensures user in st.processing ==> |r.1.processing| <= |st.processing|
    ensures Valid(st) ==> Valid(r.1)
  {
    var released := st.(processing := st.processing - {user}, sequenceOf := st.sequenceOf - {user});
    if |st.queue| > 0 then
      var next := st.queue[0].user;
      (Some(next), released.(queue := st.queue[1..], processing := released.processing + {next}))
    else
      (None, released)
  }

  /** A second completion by the same user, with someone still waiting, admits one
      user more than the resource allows: the resource holds one user, the second
      completion of user 1 still promotes user 3. */
  lemma DoubleCompletionOverAdmits()
    ensures var st := ResourceQueue(3, {2}, [Entry(3, 3)], map[2 := 2, 3 := 3]);
            var after := CompleteProcessing(st, 1).1;
            Valid(st) && |st.processing| <= 1 && 1 !in st.processing && |after.processing| == 2
  {
    var st := ResourceQueue(3, {2}, [Entry(3, 3)], map[2 := 2, 3 := 3]);
    var after := CompleteProcessing(st, 1).1;
    assert after.processing == {2, 3};
  }

  /** Completion that frees a slot only when the caller held one: the waiter with
      the smallest score is promoted only in that case. */
  function CompleteProcessingGuarded(st: ResourceQueue, user: int): (r: (Option<int>, ResourceQueue))
    ensures r.0.Some? <==> user in st.processing && |st.queue| > 0
    ensures r.0.Some? ==> r.0.value == st.queue[0].user && r.1.queue == st.queue[1..]
    ensures r.0.Some? ==> r.1.processing == st.processing - {user} + {r.0.value}
    ensures r.0.None? ==> r.1.processing == st.processing - {user} && r.1.queue == st.queue
    ensures |r.1.processing| <= |st.processing|
    ensures Valid(st) ==> Valid(r.1)
  {
    if user in st.processing then CompleteProcessing(st, user)
    else (None, st.(sequenceOf := st.sequenceOf - {user}))
  }

  datatype Op = Request(user: int, now: int) | Complete(user: int)

  /** Runs a series of requests against one resource with a fixed concurrency limit,
      completing with the guarded rule; returns the final state and the scores of
      the waiters promoted along the way, in order. */
  function Run(st: ResourceQueue, maxConcurrent: int, ops: seq<Op>): (ResourceQueue, seq<int>)
    decreases |ops|
  {
    if |ops| == 0 then (st, [])
    else
      match ops[0]
      case Request(u, now) => Run(RequestQueueEntry(st, u, maxConcurrent, now).1, maxConcurrent, ops[1..])
      case Complete(u) =>
        var (promoted, next) := CompleteProcessingGuarded(st, u);
        var (final, later) := Run(next, maxConcurrent, ops[1..]);
        (final, (if promoted.Some? then [st.queue[0].score] else []) + later)
  }

  /** The admission bound and the reachable-state invariant hold after any series
      of requests and guarded completions. */
  lemma {:induction false} RunKeepsBound(st: ResourceQueue, maxConcurrent: int, ops: seq<Op>)
    requires Valid(st) && |st.processing| <= maxConcurrent
    ensures Valid(Run(st, maxConcurrent, ops).0)
    ensures |Run(st, maxConcurrent, ops).0.processing| <= maxConcurrent
    decreases |ops|
  {
    if |ops| > 0 {
      match ops[0]
      case Request(u, now) =>
        RunKeepsBound(RequestQueueEntry(st, u, maxConcurrent, now).1, maxConcurrent, ops[1..]);
      case Complete(u) =>
        RunKeepsBound(CompleteProcessingGuarded(st, u).1, maxConcurrent, ops[1..]);
    }
  }

  /** Every score in `p` lies above `floor`, and the scores strictly ascend. */
  predicate AscendingAbove(p: seq<int>, floor: int) {
    (forall i :: 0 <= i < |p| ==> floor < p[i]) && (forall i, j :: 0 <= i < j < |p| ==> p[i] < p[j])
  }

  /** Putting a score above `floor` in front of a run that ascends above it keeps the run ascending. */
  lemma ConsAscending(s: int, later: seq<int>, floor: int)
    requires floor < s && AscendingAbove(later, s)
    ensures AscendingAbove([s] + later, floor)
  {
    var p := [s] + later;
    forall i, j | 0 <= i < j < |p|
      ensures p[i] < p[j]
    {
      assert p[j] == later[j - 1];
      if i > 0 {
        assert p[i] == later[i - 1];
      }
    }
  }

  /** A request only ever appends the newest sequence number, which lies above any floor
      the waiters already clear. */
  lemma RequestKeepsFloor(st: ResourceQueue, u: int, maxConcurrent: int, now: int, floor: int)
    requires Valid(st) && floor <= st.counter
    requires forall i :: 0 <= i < |st.queue| ==> floor < st.queue[i].score
    ensures var next := RequestQueueEntry(st, u, maxConcurrent, now).1;
            Valid(next) && floor <= next.counter && forall i :: 0 <= i < |next.queue| ==> floor < next.queue[i].score
  {
    var next := RequestQueueEntry(st, u, maxConcurrent, now).1;
    if !(u in st.processing || Waiting(st.queue, u)) && |st.processing| >= maxConcurrent {
      assert next.queue == st.queue + [Entry(u, next.counter)];
    }
  }

  /** First come, first served: waiters are promoted in strictly ascending order of
      the sequence numbers they drew, and each above any score already promoted. */
  lemma {:induction false} PromotionsAscend(st: ResourceQueue, maxConcurrent: int, ops: seq<Op>, floor: int)
    requires Valid(st) && floor <= st.counter
    requires forall i :: 0 <= i < |st.queue| ==> floor < st.queue[i].score
    ensures AscendingAbove(Run(st, maxConcurrent, ops).1, floor)
    decreases |ops|
  {
    if |ops| > 0 {
      match ops[0]
      case Request(u, now) =>
        var next := RequestQueueEntry(st, u, maxConcurrent, now).1;
        RequestKeepsFloor(st, u, maxConcurrent, now, floor);
        PromotionsAscend(next, maxConcurrent, ops[1..], floor);
        assert Run(st, maxConcurrent, ops) == Run(next, maxConcurrent, ops[1..]);
      case Complete(u) =>
        var (promoted, next) := CompleteProcessingGuarded(st, u);
        var later := Run(next, maxConcurrent, ops[1..]).1;
        if promoted.Some? {
          var s := st.queue[0].score;
          PromotionsAscend(next, maxConcurrent, ops[1..], s);
          assert Run(st, maxConcurrent, ops).1 == [s] + later;
          ConsAscending(s, later, floor);
        } else {
          PromotionsAscend(next, maxConcurrent, ops[1..], floor);
          assert Run(st, maxConcurrent, ops).1 == later;
        }
    }
  }
}

=== FILE: flash_sale_products.dfy ===
/** The seckill module's view of flash-sale products: each product belongs to an
    activity with its own status and time window, and the service derives from a
    row its remaining stock, its sale progress and whether it can be bought now.
    The database behind the service's mapper is a snapshot read here; the updates
    it is asked to make are reported by their affected-row counts. */
module FlashSaleProducts {
  import opened Wrappers
  import opened Text
  import opened ApiResults

  const PRODUCT_NOT_FOUND: string := "商品不存在"
  const ADD_FAILED: string := "添加商品失败"
  const UPDATE_FAILED: string := "更新商品失败"
  const ENABLED_NAME: string := "启用"
  const DISABLED_NAME: string := "禁用"
  const ENABLED: int := 1
  const FULL_PROGRESS: int := 100

  /** A flash-sale product row; amounts in cents, times in epoch milliseconds. */
  datatype FlashSaleProduct = FlashSaleProduct(
    activityId: Option<int>, productId: Option<int>, price: int,
    stock: int, used: int, limit: Option<int>, status: int,
    startTime: Option<int>, endTime: Option<int>, createTime: int, updateTime: int)

  datatype Activity = Activity(status: int, startTime: Option<int>, endTime: Option<int>)

  /** The rows and activities the service reads, and the stock counters it caches. */
  datatype Catalog = Catalog(
    products: map<int, FlashSaleProduct>, activities: map<int, Activity>,
    stockCache: map<int, int>, productCache: set<int>)

  /** `now` lies in the window: not before a known start and before a known end. */
  predicate InWindow(now: int, start: Option<int>, end: Option<int>) {
    (start.None? || start.value <= now) && (end.None? || now < end.value)
  }

  /** The activity of a row, when it has one that exists. */
  function ActivityOf(cat: Catalog, p: FlashSaleProduct): Option<Activity> {
    if p.activityId.Some? && p.activityId.value in cat.activities then Some(cat.activities[p.activityId.value]) else None
  }

  /** Enabled, with stock left, and, for a product of an activity, that activity exists,
      is enabled and is open at `now`. */
  predicate Purchasable(cat: Catalog, p: FlashSaleProduct, now: int) {
    && p.status == ENABLED && p.stock > p.used
    && (p.activityId.Some? ==> ActivityOf(cat, p).Some? && ActivityOf(cat, p).value.status == ENABLED
                               && InWindow(now, ActivityOf(cat, p).value.startTime, ActivityOf(cat, p).value.endTime))
  }

  /** `getProductStock`: what is left to sell, never reported below zero. */
  function ProductStock(cat: Catalog, id: int): (r: ApiResult<int>)
    ensures r.Coherent()
    ensures id !in cat.products <==> r == ErrorMessage(PRODUCT_NOT_FOUND)
    ensures id in cat.products ==> r.success && r.data.Some? && r.data.value >= 0
    ensures id in cat.products && cat.products[id].stock >= cat.products[id].used ==>
              r.data == Some(cat.products[id].stock - cat.products[id].used)
    ensures id in cat.products && cat.products[id].stock < cat.products[id].used ==> r.data == Some(0)
  {
    if id !in cat.products then ErrorMessage(PRODUCT_NOT_FOUND)
    else
      var remaining := cat.products[id].stock - cat.products[id].used;
      SuccessWith(if remaining > 0 then remaining else 0)
  }

  /** `checkProductSeckillEligibility`: the flag is switched off step by step, first by
      the row, then by the activity's status, start and end. */
  function CheckEligibility(cat: Catalog, id: int, now: int): (r: ApiResult<bool>)
    ensures r.Coherent()
    ensures id !in cat.products <==> r == ErrorMessage(PRODUCT_NOT_FOUND)
    ensures id in cat.products ==> r == SuccessWith(Purchasable(cat, cat.products[id], now))
  {
    if id !in cat.products then ErrorMessage(PRODUCT_NOT_FOUND)
    else
      var p := cat.products[id];
      var can := p.status == ENABLED && p.stock > p.used;
      if can && p.activityId.Some? then
        if p.activityId.value in cat.activities then
          var a := cat.activities[p.activityId.value];
          var can1 := can && a.status == ENABLED;
          var can2 := if can1 && a.startTime.Some? then !(now < a.startTime.value) else can1;
          var can3 := if can2 && a.endTime.Some? then now < a.endTime.value else can2;
          SuccessWith(can3)
        else SuccessWith(false)
      else SuccessWith(can)
  }

  /** The sale progress as the service computes it: `used * 100 / stock` in 32-bit
      arithmetic, capped at 100, and 0 for a row without stock. */
  function ProgressAsWritten(stock: int, used: int): (r: int)
    ensures r <= FULL_PROGRESS
    ensures stock <= 0 ==> r == 0
  {
    if stock > 0 then
      var p := JavaDiv(Wrap32(used * 100), stock);
      if p < FULL_PROGRESS then p else FULL_PROGRESS
    else 0
  }

  /** Past about 21.5 million units sold, `used * 100` wraps around and the reported
      progress turns negative. */
  lemma ProgressOverflows()
    ensures ProgressAsWritten(30_000_000, 21_474_837) < 0
  {
    assert Wrap32(21_474_837 * 100) == 2_147_483_700 - TWO_32;
  }

  /** The sale progress with the product computed exactly: the whole percentage of the
      stock used, capped at 100. */
  function Progress(stock: int, used: int): (r: int)
    ensures stock <= 0 ==> r == 0
    ensures 0 <= used && 0 < stock ==> 0 <= r <= FULL_PROGRESS
    ensures 0 <= used && 0 < stock && r < FULL_PROGRESS ==> r * stock <= used * 100 < (r + 1) * stock
    ensures 0 <= used && 0 < stock ==> (r == FULL_PROGRESS <==> used >= stock)
  {
    if stock > 0 then
      var p := JavaDiv(used * 100, stock);
      if used >= 0 then PercentBounds(stock, used); (if p < FULL_PROGRESS then p else FULL_PROGRESS)
      else if p < FULL_PROGRESS then p else FULL_PROGRESS
    else 0
  }

  /** The quotient `used * 100 / stock` brackets the exact ratio and reaches 100 exactly
      when everything is used. */
  lemma PercentBounds(stock: int, used: int)
    requires 0 <= used && 0 < stock
    ensures var p := (used * 100) / stock;
            && 0 <= p && p * stock <= used * 100 < (p + 1) * stock
            && (p >= FULL_PROGRESS <==> used >= stock)
  {
    var n := used * 100;
    var p := n / stock;
    QuotientBrackets(n, stock);
    if used >= stock {
      MulMono(stock, used, FULL_PROGRESS);
      if p < FULL_PROGRESS {
        MulMono(p + 1, FULL_PROGRESS, stock);
        assert false;
      }
    } else {
      MulMono(used + 1, stock, FULL_PROGRESS);
      if p >= FULL_PROGRESS {
        MulMono(FULL_PROGRESS, p, stock);
        assert false;
      }
    }
  }

  /** Euclidean quotient of a non-negative number by a positive one. */
  lemma QuotientBrackets(n: int, d: int)
    requires 0 <= n && 0 < d
    ensures 0 <= n / d && (n / d) * d <= n < (n / d + 1) * d
  {
    var q := n / d;
    var m := n % d;
    assert n == q * d + m && 0 <= m < d;
    assert (q + 1) * d == q * d + d;
    if q < 0 {
      MulMono(q + 1, 0, d);
      assert false;
    }
  }

  lemma MulMono(a: int, b: int, c: int)
    requires a <= b && 0 <= c
    ensures a * c <= b * c
  {
    assert b * c - a * c == (b - a) * c;
  }

  lemma DivMono(a: int, b: int, d: int)
    requires 0 <= a <= b && 0 < d
    ensures a / d <= b / d
  {
    QuotientBrackets(a, d);
    QuotientBrackets(b, d);
    if a / d > b / d {
      MulMono(b / d + 1, a / d, d);
      assert false;
    }
  }

  /** Within the 32-bit range the two computations agree. */
  lemma ProgressAgreesWithoutOverflow(stock: int, used: int)
    requires 0 <= used && used * 100 <= INT_MAX
    ensures ProgressAsWritten(stock, used) == Progress(stock, used)
  {
  }

  /** Selling more never lowers the progress. */
  lemma ProgressMonotone(stock: int, used1: int, used2: int)
    requires 0 <= used1 <= used2
    ensures Progress(stock, used1) <= Progress(stock, used2)
  {
    if stock > 0 {
      MulMono(used1, used2, 100);
      DivMono(used1 * 100, used2 * 100, stock);
    }
  }

  /** What the service returns for a row. */
  datatype ProductView = ProductView(
    id: int, activityId: Option<int>, productId: Option<int>, price: int,
    stock: int, used: int, limit: Option<int>, status: int,
    startTime: Option<int>, endTime: Option<int>,
    remainingStock: int, statusName: string, canSeckill: bool, progress: int)

  /** `convertToVO`: the row's fields, its unclamped remaining stock, its status name,
      its progress, the activity's window when the activity exists, and the purchase
      flag, which needs an existing, enabled, open activity. */
  function ToView(cat: Catalog, id: int, p: FlashSaleProduct, now: int): (v: ProductView)
    ensures v.id == id && v.stock == p.stock && v.used == p.used && v.price == p.price && v.limit == p.limit
    ensures v.remainingStock == p.stock - p.used
    ensures v.statusName == if p.status == ENABLED then ENABLED_NAME else DISABLED_NAME
    ensures v.progress == ProgressAsWritten(p.stock, p.used)
    ensures 0 <= p.used && p.used * 100 <= INT_MAX ==> v.progress == Progress(p.stock, p.used)
    ensures ActivityOf(cat, p).Some? ==> v.startTime == ActivityOf(cat, p).value.startTime && v.endTime == ActivityOf(cat, p).value.endTime
    ensures ActivityOf(cat, p).None? ==> v.startTime == p.startTime && v.endTime == p.endTime
    ensures v.canSeckill <==> p.activityId.Some? && Purchasable(cat, p, now)
  {
    var remaining := p.stock - p.used;
    var base := ProductView(id, p.activityId, p.productId, p.price, p.stock, p.used, p.limit, p.status,
                            p.startTime, p.endTime, remaining,
                            if p.status == ENABLED then ENABLED_NAME else DISABLED_NAME, false,
                            ProgressAsWritten(p.stock, p.used));
    match ActivityOf(cat, p)
    case None => base
    case Some(a) =>
      var can := p.status == ENABLED && remaining > 0 && a.status == ENABLED;
      var can1 := if can && a.startTime.Some? then !(now < a.startTime.value) else can;
      var can2 := if can1 && a.endTime.Some? then now < a.endTime.value else can1;
      base.(startTime := a.startTime, endTime := a.endTime, canSeckill := can2)
  }

  /** For a product of an activity, the view's flag and the eligibility check agree. */
  lemma ViewAgreesWithEligibility(cat: Catalog, id: int, now: int)
    requires id in cat.products && cat.products[id].activityId.Some?
    ensures CheckEligibility(cat, id, now).data == Some(ToView(cat, id, cat.products[id], now).canSeckill)
  {
  }

  /** A product outside any activity passes the eligibility check on status and stock
      alone, yet its view never allows a purchase. */
  lemma NoActivityViewRefuses(cat: Catalog, id: int, now: int)
    requires id in cat.products && cat.products[id].activityId.None?
    requires cat.products[id].status == ENABLED && cat.products[id].stock > cat.products[id].used
    ensures CheckEligibility(cat, id, now) == SuccessWith(true)
    ensures !ToView(cat, id, cat.products[id], now).canSeckill
  {
  }

  /** `getProductDetail`. */
  function ProductDetail(cat: Catalog, id: int, now: int): (r: ApiResult<ProductView>)
    ensures r.Coherent()
    ensures id !in cat.products <==> r == ErrorMessage(PRODUCT_NOT_FOUND)
    ensures r.success ==> r.data == Some(ToView(cat, id, cat.products[id], now))
  {
    if id !in cat.products then ErrorMessage(PRODUCT_NOT_FOUND)
    else SuccessWith(ToView(cat, id, cat.products[id], now))
  }

  /** The figures `getProductSalesStatistics` reports. */
  datatype SalesStatistics = SalesStatistics(productId: int, totalStock: int, soldCount: int, remainingStock: int, progress: int)

  function SalesStatisticsOf(cat: Catalog, id: int): (r: ApiResult<SalesStatistics>)
    ensures r.Coherent()
    ensures id !in cat.products <==> r == ErrorMessage(PRODUCT_NOT_FOUND)
    ensures r.success ==> r.data.Some? && r.data.value.totalStock == r.data.value.soldCount + r.data.value.remainingStock
    ensures r.success ==> var p, s := cat.products[id], r.data.value;
              && s.productId == id && s.totalStock == p.stock && s.soldCount == p.used
              && s.progress == ProgressAsWritten(p.stock, p.used)
              && (0 <= p.used && p.used * 100 <= INT_MAX ==> s.progress == Progress(p.stock, p.used))
  {
    if id !in cat.products then ErrorMessage(PRODUCT_NOT_FOUND)
    else
      var p := cat.products[id];
      SuccessWith(SalesStatistics(id, p.stock, p.used, p.stock - p.used, ProgressAsWritten(p.stock, p.used)))
  }

  /** The statistics and the view of a row report the same remaining stock and progress,
      and the stock query reports the remaining stock clamped at zero. */
  lemma StatisticsMatchView(cat: Catalog, id: int, now: int)
    requires id in cat.products
    ensures var s := SalesStatisticsOf(cat, id).data.value;
            var v := ToView(cat, id, cat.products[id], now);
            s.remainingStock == v.remainingStock && s.progress == v.progress
            && ProductStock(cat, id).data == Some(if v.remainingStock > 0 then v.remainingStock else 0)
  {
  }

  /** The fields a caller supplies to add or update a product. */
  datatype ProductDraft = ProductDraft(
    activityId: Option<int>, productId: Option<int>, price: int, stock: int, limit: Option<int>,
    startTime: Option<int>, endTime: Option<int>)

  /** `addProduct`: the draft's fields, enabled, with nothing used. */
  function AddProduct(cat: Catalog, draft: ProductDraft, newId: int, insertRows: int, now: int): (r: (ApiResult<()>, Catalog))
    ensures r.0.Coherent() && (r.0.success <==> insertRows > 0)
    ensures insertRows > 0 ==> newId in r.1.products && r.1.products[newId].used == 0 && r.1.products[newId].status == ENABLED
    ensures insertRows > 0 ==> var p := r.1.products[newId];
              p.activityId == draft.activityId && p.productId == draft.productId && p.price == draft.price
              && p.stock == draft.stock && p.limit == draft.limit && p.startTime == draft.startTime && p.endTime == draft.endTime
    ensures insertRows > 0 ==> forall k :: k in cat.products && k != newId ==> k in r.1.products && r.1.products[k] == cat.products[k]
    ensures insertRows <= 0 ==> r.0.message == ADD_FAILED && r.1 == cat
  {
    if insertRows > 0 then
      var p := FlashSaleProduct(draft.activityId, draft.productId, draft.price, draft.stock, 0, draft.limit, ENABLED,
                                draft.startTime, draft.endTime, now, now);
      (Success(), cat.(products := cat.products[newId := p]))
    else (ErrorMessage(ADD_FAILED), cat)
  }

  /** The record `updateProduct` hands to the mapper: the draft's fields under the
      row's id, with the start and end time left out. */
  datatype ProductUpdate = ProductUpdate(
    id: int, activityId: Option<int>, productId: Option<int>, price: int, stock: int, limit: Option<int>,
    startTime: Option<int>, endTime: Option<int>, updateTime: int)

  /** `updateProduct`: an unknown id is refused; a reported update drops both cache
      entries of the product. The row itself changes as the mapper decides. */
  function UpdateProduct(cat: Catalog, id: int, draft: ProductDraft, updateRows: int, now: int)
    : (r: (ApiResult<()>, Option<ProductUpdate>, Catalog))
    ensures r.0.Coherent()
    ensures id !in cat.products <==> r.0 == ErrorMessage(PRODUCT_NOT_FOUND)
    ensures id !in cat.products ==> r.1.None? && r.2 == cat
    ensures id in cat.products ==> r.1.Some? && r.1.value.id == id && r.1.value.startTime.None? && r.1.value.endTime.None?
                                   && r.1.value.updateTime == now && r.1.value.stock == draft.stock && r.1.value.price == draft.price
    ensures id in cat.products ==> (r.0.success <==> updateRows > 0)
    ensures r.0.success ==> id !in r.2.stockCache && id !in r.2.productCache && r.2.products == cat.products
    ensures r.0.success ==> forall k :: k != id ==> (k in r.2.stockCache <==> k in cat.stockCache)
    ensures id in cat.products && updateRows <= 0 ==> r.0.message == UPDATE_FAILED && r.2 == cat
  {
    if id !in cat.products then (ErrorMessage(PRODUCT_NOT_FOUND), None, cat)
    else
      var u := ProductUpdate(id, draft.activityId, draft.productId, draft.price, draft.stock, draft.limit, None, None, now);
      if updateRows > 0 then
        (Success(), Some(u), cat.(stockCache := cat.stockCache - {id}, productCache := cat.productCache - {id}))
      else (ErrorMessage(UPDATE_FAILED), Some(u), cat)
  }

  /** A follow-up database call the service makes. */
  datatype StockCall = IncreaseStockUsed(id: int, quantity: int)

  /** `decreaseStock`: only a reported decrement moves the cached counter down and
      asks the database to add the quantity to the used count. */
  function DecreaseStock(cat: Catalog, id: int, quantity: int, rows: int): (r: (ApiResult<bool>, Catalog, seq<StockCall>))
    ensures r.0.Coherent() && r.0.success && r.0.data == Some(rows > 0)
    ensures rows > 0 ==> r.1 == cat.(stockCache := Increment(cat.stockCache, id, -quantity)) && r.2 == [IncreaseStockUsed(id, quantity)]
    ensures rows <= 0 ==> r.1 == cat && r.2 == []
  {
    if rows > 0 then (SuccessWith(true), cat.(stockCache := Increment(cat.stockCache, id, -quantity)), [IncreaseStockUsed(id, quantity)])
    else (SuccessWith(false), cat, [])
  }

  /** A reported decrement lowers the cached counter by exactly the quantity and leaves
      every other product's counter alone. */
  lemma DecreaseShiftsOnlyItsCounter(cat: Catalog, id: int, quantity: int, other: int)
    requires other != id
    ensures var c := DecreaseStock(cat, id, quantity, 1).1.stockCache;
            Count(c, id) == Count(cat.stockCache, id) - quantity && Count(c, other) == Count(cat.stockCache, other)
  {
  }
}

=== FILE: idempotency.dfy ===
/** Request de-duplication: the first caller to claim a key in the shared store
    wins; later callers with the same key are told the request is a repeat until
    the key is removed. Keys live under the `idempotency:` namespace; keys are
    composed from colon-separated parts. */
module Idempotency {
  import opened Wrappers
  import opened Text

  const IDEMPOTENCY_PREFIX: string := "idempotency:"
  const SECKILL_PREFIX: string := "seckill:idempotency:"
  const SECKILL_WINDOW_SECONDS: int := 300

  /** Claimed full keys and the clock reading stored with each. */
  type Store = map<string, int>

  function FullKey(key: string): string {
    IDEMPOTENCY_PREFIX + key
  }

  /** Claim `key`: true exactly for the first claim, which records the time; a
      repeat leaves the store as it was. */
  function CheckAndSet(st: Store, key: string, now: int): (r: (bool, Store))
    ensures r.0 <==> FullKey(key) !in st
    ensures r.0 ==> r.1 == st[FullKey(key) := now]
    ensures !r.0 ==> r.1 == st
    ensures FullKey(key) in r.1
  {
    if FullKey(key) in st then (false, st) else (true, st[FullKey(key) := now])
  }

  function SeckillKey(userId: Option<int>, productId: Option<int>, requestId: Option<string>): string {
    SECKILL_PREFIX + SeckillKeyTail(userId, productId, requestId)
  }

  function SeckillKeyTail(userId: Option<int>, productId: Option<int>, requestId: Option<string>): string {
    ShowLong(userId) + ":" + ShowLong(productId) + ":" + ShowString(requestId)
  }

  /** A flash-sale request is admitted once per user, product and request id. */
  function CheckSeckill(st: Store, userId: Option<int>, productId: Option<int>, requestId: Option<string>, now: int): (r: (bool, Store))
    ensures r.0 <==> FullKey(SeckillKey(userId, productId, requestId)) !in st
    ensures r.0 ==> r.1 == st[FullKey(SeckillKey(userId, productId, requestId)) := now]
    ensures !r.0 ==> r.1 == st
    ensures FullKey(SeckillKey(userId, productId, requestId)) in r.1
  {
    CheckAndSet(st, SeckillKey(userId, productId, requestId), now)
  }

  /** Forget a claim (used to roll back); other claims are untouched. */
  function Remove(st: Store, key: string): (r: Store)
    ensures FullKey(key) !in r
    ensures forall k :: k != FullKey(key) ==> (k in r <==> k in st) && (k in r ==> r[k] == st[k])
  {
    st - {FullKey(key)}
  }

  function Exists(st: Store, key: string): (b: bool)
    ensures b <==> CheckAndSet(st, key, 0).0 == false
  {
    FullKey(key) in st
  }

  /** A claimed key rejects every later claim, and removing it re-admits the next one. */
  lemma ClaimLifecycle(st: Store, key: string, t1: int, t2: int, t3: int)
    ensures var (first, s1) := CheckAndSet(st, key, t1);
            var (second, s2) := CheckAndSet(s1, key, t2);
            !second && s2 == s1 && Exists(s1, key)
            && CheckAndSet(Remove(s1, key), key, t3).0
  {
  }

  /** The colon-separated key tail contributed by the extra parameters. */
  function ParamSuffix(params: seq<Option<string>>): string {
    if |params| == 0 then "" else ":" + ShowString(params[0]) + ParamSuffix(params[1..])
  }

  /** Compose a key: user id, action, then each parameter, joined by colons; a missing
      parameter list contributes nothing and a null part reads as "null". */
  method GenerateKey(userId: Option<int>, action: Option<string>, params: Option<seq<Option<string>>>) returns (key: string)
    ensures params.None? ==> key == ShowLong(userId) + ":" + ShowString(action)
    ensures params.Some? ==> key == ShowLong(userId) + ":" + ShowString(action) + ParamSuffix(params.value)
  {
    var head := ShowLong(userId) + ":" + ShowString(action);
    key := head;
    if params.Some? && |params.value| > 0 {
      var ps := params.value;
      var i := 0;
      assert ps[0..] == ps;
      while i < |ps|
        invariant 0 <= i <= |ps|
        invariant key + ParamSuffix(ps[i..]) == head + ParamSuffix(ps)
      {
        SuffixStep(key, ps, i);
        key := key + ":" + ShowString(ps[i]);
        i := i + 1;
      }
      assert ps[|ps|..] == [];
    }
  }

  /** Appending one parameter moves it from the pending suffix into the key. */
  lemma SuffixStep(key: string, ps: seq<Option<string>>, i: nat)
    requires i < |ps|
    ensures key + ParamSuffix(ps[i..]) == (key + ":" + ShowString(ps[i])) + ParamSuffix(ps[i + 1..])
  {
    assert ps[i..][1..] == ps[i + 1..];
    assert ParamSuffix(ps[i..]) == ":" + ShowString(ps[i]) + ParamSuffix(ps[i + 1..]);
  }

  function Shown(params: seq<Option<string>>): seq<string> {
    if |params| == 0 then [] else [ShowString(params[0])] + Shown(params[1..])
  }

  predicate ColonFree(s: string) {
    forall i :: 0 <= i < |s| ==> s[i] != ':'
  }

  lemma ColonFreeHasNoIndex(s: string)
    requires ColonFree(s)
    ensures IndexOf(s, ":").None?
  {
    forall j
      ensures !OccursAt(s, ":", j)
    {
      if 0 <= j && j + 1 <= |s| {
        assert s[j..j + 1] == [s[j]];
      }
    }
  }

  lemma ShowLongColonFree(n: Option<int>)
    ensures ColonFree(ShowLong(n))
  {
    if n.Some? && n.value < 0 {
      var t := ShowLong(n);
      assert forall i :: 1 <= i < |t| ==> t[i] == t[1..][i - 1];
    }
  }

  lemma SplitColonJoin(x: string, rest: string)
    requires ColonFree(x)
    ensures SplitAll(x + ":" + rest, ":") == [x] + SplitAll(rest, ":")
  {
    ColonFreeHasNoIndex(x);
    IndexOfAfterClean(x, ":", rest);
    var s := x + ":" + rest;
    assert s[..|x|] == x;
    assert s[|x| + 1..] == rest;
  }

  lemma {:induction false} SplitSuffix(first: string, params: seq<Option<string>>)
    requires ColonFree(first)
    requires forall i :: 0 <= i < |params| ==> ColonFree(ShowString(params[i]))
    ensures SplitAll(first + ParamSuffix(params), ":") == [first] + Shown(params)
    decreases |params|
  {
    if |params| == 0 {
      assert first + ParamSuffix(params) == first;
      ColonFreeHasNoIndex(first);
    } else {
      var p := ShowString(params[0]);
      var tail := ParamSuffix(params[1..]);
      forall i | 0 <= i < |params[1..]|
        ensures ColonFree(ShowString(params[1..][i]))
      {
        assert params[1..][i] == params[i + 1];
      }
      SplitSuffix(p, params[1..]);
      assert first + ParamSuffix(params) == first + ":" + (p + tail) by {
        assert ParamSuffix(params) == ":" + p + tail;
      }
      SplitColonJoin(first, p + tail);
      assert Shown(params) == [p] + Shown(params[1..]);
    }
  }

  /** When the action and the parameters contain no colon, splitting a generated key
      on colons gives back the user id, the action and the parameters, so such keys
      are equal only for equal parts. */
  lemma KeyRoundTrip(userId: Option<int>, action: Option<string>, params: seq<Option<string>>)
    requires ColonFree(ShowString(action))
    requires forall i :: 0 <= i < |params| ==> ColonFree(ShowString(params[i]))
    ensures SplitAll(ShowLong(userId) + ":" + ShowString(action) + ParamSuffix(params), ":")
            == [ShowLong(userId), ShowString(action)] + Shown(params)
  {
    ShowLongColonFree(userId);
    JoinedParts(ShowLong(userId), ShowString(action), params);
  }

  lemma JoinedParts(u: string, a: string, params: seq<Option<string>>)
    requires ColonFree(u) && ColonFree(a)
    requires forall i :: 0 <= i < |params| ==> ColonFree(ShowString(params[i]))
    ensures SplitAll(u + ":" + a + ParamSuffix(params), ":") == [u, a] + Shown(params)
  {
    var tail := a + ParamSuffix(params);
    SplitSuffix(a, params);
    assert u + ":" + a + ParamSuffix(params) == u + ":" + tail;
    SplitColonJoin(u, tail);
  }

  /** The flash-sale claim lands in the general namespace with both prefixes. */
  lemma SeckillKeyDoublyPrefixed(userId: Option<int>, productId: Option<int>, requestId: Option<string>)
    ensures StartsWith(FullKey(SeckillKey(userId, productId, requestId)), IDEMPOTENCY_PREFIX + SECKILL_PREFIX)
  {
    NestedPrefix(IDEMPOTENCY_PREFIX, SECKILL_PREFIX, SeckillKeyTail(userId, productId, requestId));
  }

  lemma NestedPrefix(a: string, b: string, rest: string)
    ensures StartsWith(a + (b + rest), a + b)
  {
    assert a + (b + rest) == (a + b) + rest;
    assert ((a + b) + rest)[..|a + b|] == a + b;
  }
}

=== FILE: message_listener.dfy ===
/** The shared delivery discipline of every message consumer: process a delivery,
    acknowledge it on success, and on failure republish it with a higher retry count
    until the retry budget is spent, after which it goes to the dead-letter exchange. */
module MessageListener {
  import opened Wrappers

  const MAX_RETRY_COUNT: int := 3
  const RETRY_HEADER: string := "retryCount"
  const BUSINESS_FAILURE: string := "业务处理失败"
  const LOG_LIMIT: nat := 500
  const ELLIPSIS: string := "..."

  /** A header value as the broker hands it over: an integer, some other object, or null. */
  datatype HeaderValue = IntValue(n: int) | OtherValue(text: string) | NullValue

  /** How the subclass's `processMessage` ended. */
  datatype Processing = Processed | Rejected | Threw(message: Option<string>)

  /** The delivery as the listener sees it. */
  datatype Delivery = Delivery(
    tag: int, exchange: string, routingKey: string,
    body: string, headers: Option<map<string, HeaderValue>>)

  /** What the listener does to the broker, in order. */
  datatype Effect =
    | Ack(tag: int)
    | Nack(tag: int, requeue: bool)
    | Republish(exchange: string, routingKey: string, body: string, retryCount: int)
    | DeadLetter(body: string, reason: Option<string>)

  /** Whether the broker accepts the two kinds of publication the failure path makes. */
  datatype Broker = Broker(republishSucceeds: bool, deadLetterSucceeds: bool)

  /** `isDuplicateMessage`: the hook is not implemented, so no delivery counts as a duplicate. */
  predicate IsDuplicateMessage(d: Delivery) {
    false
  }

  /** `getRetryCount`: the header value when the header is present, else 0; `None` stands for
      the cast or unboxing failure of a present header that is not a non-null `Integer`. */
  function GetRetryCount(headers: Option<map<string, HeaderValue>>): (r: Option<int>)
    ensures headers.None? || RETRY_HEADER !in headers.value ==> r == Some(0)
    ensures r.Some? && headers.Some? && RETRY_HEADER in headers.value ==> headers.value[RETRY_HEADER] == IntValue(r.value)
    ensures r.None? <==> headers.Some? && RETRY_HEADER in headers.value && !headers.value[RETRY_HEADER].IntValue?
  {
    if headers.Some? && RETRY_HEADER in headers.value then
      match headers.value[RETRY_HEADER]
      case IntValue(n) => Some(n)
      case _ => None
    else Some(0)
  }

  /** `handleProcessFailure`: retry while the budget lasts, else dead-letter; either way
      acknowledge. Any exception on this path (an unreadable retry count, a failed
      republish) ends in a reject without requeue. Dead-letter failures are swallowed. */
  function HandleProcessFailure(d: Delivery, broker: Broker, reason: Option<string>): (effects: seq<Effect>)
    ensures |effects| > 0 && effects[|effects| - 1] in {Ack(d.tag), Nack(d.tag, false)}
    ensures effects[|effects| - 1] == Nack(d.tag, false) <==>
              GetRetryCount(d.headers).None? || (GetRetryCount(d.headers).value < MAX_RETRY_COUNT && !broker.republishSucceeds)
    ensures GetRetryCount(d.headers).Some? && GetRetryCount(d.headers).value < MAX_RETRY_COUNT && broker.republishSucceeds ==>
              effects == [Republish(d.exchange, d.routingKey, d.body, GetRetryCount(d.headers).value + 1), Ack(d.tag)]
    ensures GetRetryCount(d.headers).Some? && GetRetryCount(d.headers).value >= MAX_RETRY_COUNT ==>
              effects[|effects| - 1] == Ack(d.tag)
              && (DeadLetter(d.body, reason) in effects <==> broker.deadLetterSucceeds)
  {
    match GetRetryCount(d.headers)
    case None => [Nack(d.tag, false)]
    case Some(count) =>
      if count < MAX_RETRY_COUNT then
        if broker.republishSucceeds then [Republish(d.exchange, d.routingKey, d.body, count + 1), Ack(d.tag)]
        else [Nack(d.tag, false)]
      else
        (if broker.deadLetterSucceeds then [DeadLetter(d.body, reason)] else []) + [Ack(d.tag)]
  }

  /** `handleMessage`: acknowledge duplicates and successes, hand everything else to the failure path. */
  function HandleMessage(d: Delivery, outcome: Processing, broker: Broker): (effects: seq<Effect>)
    ensures outcome.Processed? ==> effects == [Ack(d.tag)]
    ensures !outcome.Processed? ==>
              effects == HandleProcessFailure(d, broker, if outcome.Threw? then outcome.message else Some(BUSINESS_FAILURE))
  {
    if IsDuplicateMessage(d) then [Ack(d.tag)]
    else match outcome
      case Processed => [Ack(d.tag)]
      case Rejected => HandleProcessFailure(d, broker, Some(BUSINESS_FAILURE))
      case Threw(m) => HandleProcessFailure(d, broker, m)
  }

  predicate Settles(e: Effect, tag: int) {
    e == Ack(tag) || e == Nack(tag, false)
  }

  /** Every delivery is settled exactly once, by its last effect, and never requeued by the broker. */
  lemma SettledExactlyOnce(d: Delivery, outcome: Processing, broker: Broker)
    ensures var effects := HandleMessage(d, outcome, broker);
            |effects| > 0 && Settles(effects[|effects| - 1], d.tag)
            && (forall i :: 0 <= i < |effects| - 1 ==> !effects[i].Ack? && !effects[i].Nack?)
            && (forall i :: 0 <= i < |effects| ==> effects[i] != Nack(d.tag, true))
  {
  }

  /** The retry count the listener would read from a republished copy. */
  function WithRetryCount(d: Delivery, count: int): Delivery {
    var headers := if d.headers.Some? then d.headers.value else map[];
    d.(headers := Some(headers[RETRY_HEADER := IntValue(count)]))
  }

  /** A message whose processing always fails, followed through its republished copies
      while the broker accepts them: one effect list per delivery. */
  function FailingDeliveries(d: Delivery, count: int, broker: Broker): (trace: seq<seq<Effect>>)
    requires broker.republishSucceeds && 0 <= count
    ensures |trace| == if count >= MAX_RETRY_COUNT then 1 else MAX_RETRY_COUNT - count + 1
    decreases MAX_RETRY_COUNT - count
  {
    var copy := WithRetryCount(d, count);
    var effects := HandleMessage(copy, Rejected, broker);
    if count >= MAX_RETRY_COUNT then [effects]
    else [effects] + FailingDeliveries(d, count + 1, broker)
  }

  /** A message that keeps failing is delivered four times (the first delivery and three
      retries) and then dead-lettered when the broker accepts it. */
  lemma {:induction false} RetryLadder(d: Delivery, count: int, broker: Broker)
    requires broker.republishSucceeds && 0 <= count <= MAX_RETRY_COUNT
    ensures var trace := FailingDeliveries(d, count, broker);
            (forall i :: 0 <= i < |trace| - 1 ==>
               trace[i] == [Republish(d.exchange, d.routingKey, d.body, count + i + 1), Ack(d.tag)])
            && (trace[|trace| - 1] == [DeadLetter(d.body, Some(BUSINESS_FAILURE)), Ack(d.tag)] <== broker.deadLetterSucceeds)
    decreases MAX_RETRY_COUNT - count
  {
    var copy := WithRetryCount(d, count);
    var trace := FailingDeliveries(d, count, broker);
    DeliveryEffects(d, count, broker);
    if count < MAX_RETRY_COUNT {
      RetryLadder(d, count + 1, broker);
      var rest := FailingDeliveries(d, count + 1, broker);
      var head := HandleMessage(copy, Rejected, broker);
      assert trace == [head] + rest;
      assert trace[|trace| - 1] == rest[|rest| - 1];
      forall i | 0 <= i < |trace| - 1
        ensures trace[i] == [Republish(d.exchange, d.routingKey, d.body, count + i + 1), Ack(d.tag)]
      {
        if i > 0 {
          assert 0 <= i - 1 < |rest| - 1;
          assert rest[i - 1] == [Republish(d.exchange, d.routingKey, d.body, (count + 1) + (i - 1) + 1), Ack(d.tag)];
          assert trace[i] == rest[i - 1];
        } else {
          assert trace[0] == head;
        }
      }
    }
  }

  /** One failed delivery of the copy carrying `count`: republished with the next count
      below the limit, dead-lettered (when the broker accepts it) at the limit. */
  lemma DeliveryEffects(d: Delivery, count: int, broker: Broker)
    requires broker.republishSucceeds && 0 <= count <= MAX_RETRY_COUNT
    ensures var effects := HandleMessage(WithRetryCount(d, count), Rejected, broker);
            && (count < MAX_RETRY_COUNT ==> effects == [Republish(d.exchange, d.routingKey, d.body, count + 1), Ack(d.tag)])
            && (count == MAX_RETRY_COUNT && broker.deadLetterSucceeds ==>
                  effects == [DeadLetter(d.body, Some(BUSINESS_FAILURE)), Ack(d.tag)])
  {
    var copy := WithRetryCount(d, count);
    assert GetRetryCount(copy.headers) == Some(count);
  }

  /** A fresh message (no retry header) that keeps failing is delivered exactly
      `MAX_RETRY_COUNT + 1` times. */
  lemma FreshMessageDeliveries(d: Delivery, broker: Broker)
    requires broker.republishSucceeds
    ensures |FailingDeliveries(d, 0, broker)| == MAX_RETRY_COUNT + 1
  {
  }

  /** `getMessageForLog`: "null" for no body, the first 500 characters and an ellipsis for
      a long one, the body itself otherwise. */
  function MessageForLog(body: Option<string>): (r: string)
    ensures body.None? ==> r == "null"
    ensures body.Some? && |body.value| <= LOG_LIMIT ==> r == body.value
    ensures body.Some? && |body.value| > LOG_LIMIT ==> |r| == LOG_LIMIT + |ELLIPSIS| && r == body.value[..LOG_LIMIT] + ELLIPSIS
  {
    if body.None? then "null"
    else if |body.value| > LOG_LIMIT then body.value[..LOG_LIMIT] + ELLIPSIS
    else body.value
  }

  /** Shortening a log line a second time changes nothing. */
  lemma LogFormStable(body: Option<string>)
    ensures MessageForLog(Some(MessageForLog(body))) == MessageForLog(body)
  {
    var r := MessageForLog(body);
    if body.Some? && |body.value| > LOG_LIMIT {
      assert r[..LOG_LIMIT] == body.value[..LOG_LIMIT];
      assert r[..LOG_LIMIT] + ELLIPSIS == r;
    }
  }

  /** `isValidMessage`: a body is valid when present. */
  predicate IsValidMessage(body: Option<string>) {
    body.Some?
  }
}

=== FILE: orders.dfy ===
/** The order service's status machine. An order is created unpaid (0); paying moves
    it to paid (1) unless half an hour has passed since creation, in which case it is
    cancelled (4); an unpaid order can be cancelled (4) or, once overdue, timed out (5);
    a paid or shipped (2) order can be completed (3). Whether the database accepts a
    write is an input. */
module Orders {
  import opened Wrappers
  import opened Text
  import opened ApiResults

  const UNPAID: int := 0
  const PAID: int := 1
  const SHIPPED: int := 2
  const COMPLETED: int := 3
  const CANCELLED: int := 4
  const TIMED_OUT: int := 5

  const PAYMENT_WINDOW_MILLIS: int := 30 * 60 * 1000
  const PRICE_CENTS: int := 999
  const ORDER_NO_PREFIX: string := "FS"
  const TRANSACTION_PREFIX: string := "PAY"
  const DEFAULT_NAME: string := "秒杀商品"
  const DEFAULT_IMAGE: string := "default.jpg"

  const CREATE_FAILED: string := "创建订单失败"
  const ORDER_NOT_FOUND: string := "订单不存在"
  const PAY_STATUS_ERROR: string := "订单状态错误"
  const ORDER_EXPIRED: string := "订单已过期"
  const PAY_FAILED: string := "支付失败"
  const CANCEL_STATUS_ERROR: string := "订单状态错误，无法取消"
  const CANCEL_FAILED: string := "取消订单失败"
  const COMPLETE_STATUS_ERROR: string := "订单状态错误，只有已支付或已发货订单才能完成"
  const COMPLETE_FAILED: string := "完成订单失败"

  /** An order; amounts in cents, times in epoch milliseconds. */
  datatype Order = Order(
    orderNo: string, userId: Option<int>, flashSaleProductId: Option<int>, quantity: int,
    productName: string, productImage: string, price: int, paymentAmount: int, status: int,
    paymentType: Option<int>, paymentTime: Option<int>, transactionId: Option<string>,
    createTime: Option<int>, updateTime: int)

  type OrderTable = map<string, Order>

  /** What the buyer asks for. */
  datatype OrderRequest = OrderRequest(userId: Option<int>, flashSaleProductId: Option<int>, quantity: Option<int>)

  /** The order is more than half an hour old (an order without a creation time never is). */
  predicate Overdue(o: Order, now: int) {
    o.createTime.Some? && now > o.createTime.value + PAYMENT_WINDOW_MILLIS
  }

  /** `createSeckillOrder`: an unpaid order at the fixed price of 9.99 per unit. A null
      quantity fails on the amount computation, a refused insert fails too. */
  function CreateOrder(t: OrderTable, req: OrderRequest, now: int, uuidPrefix: string, writes: bool)
    : (r: (ApiResult<Order>, OrderTable))
    ensures r.0.success <==> req.quantity.Some? && writes
    ensures !r.0.success ==> r == (ErrorCode(ERROR_CODE, CREATE_FAILED), t)
    ensures r.0.success ==> r.0.Coherent() && r.0.data.Some?
    ensures r.0.success ==> var o := r.0.data.value;
              && o.status == UNPAID && o.price == PRICE_CENTS
              && o.paymentAmount == PRICE_CENTS * req.quantity.value && o.quantity == req.quantity.value
              && o.userId == req.userId && o.flashSaleProductId == req.flashSaleProductId
              && StartsWith(o.orderNo, ORDER_NO_PREFIX) && o.createTime == Some(now)
              && r.1 == t[o.orderNo := o]
  {
    if req.quantity.None? || !writes then (ErrorCode(ERROR_CODE, CREATE_FAILED), t)
    else
      var no := ORDER_NO_PREFIX + IntToString(now) + uuidPrefix;
      var o := Order(no, req.userId, req.flashSaleProductId, req.quantity.value, DEFAULT_NAME, DEFAULT_IMAGE,
                     PRICE_CENTS, PRICE_CENTS * req.quantity.value, UNPAID, None, None, None, Some(now), now);
      (SuccessWith(o), t[no := o])
  }

  /** The payment notice sent after a successful payment. */
  datatype PaymentNotice = PaymentNotice(orderNo: string, userId: Option<int>, amount: int, paymentMethod: Option<int>)

  /** `payOrder`: only an unpaid order can be paid; an overdue one is cancelled instead.
      A payment the database accepts marks the order paid with the pay type and a
      transaction id and sends a notice, whose delivery does not affect the outcome. */
  function PayOrder(t: OrderTable, orderNo: string, payType: Option<int>, now: int, writes: bool)
    : (r: (ApiResult<()>, OrderTable, seq<PaymentNotice>))
    ensures orderNo !in t ==> r == (ErrorCode(ORDER_NOT_EXIST_CODE, ORDER_NOT_FOUND), t, [])
    ensures orderNo in t && t[orderNo].status != UNPAID ==> r == (ErrorCode(ORDER_STATUS_ERROR_CODE, PAY_STATUS_ERROR), t, [])
    ensures orderNo in t && t[orderNo].status == UNPAID && Overdue(t[orderNo], now) ==>
              r.0 == ErrorCode(ORDER_EXPIRED_CODE, ORDER_EXPIRED) && r.2 == []
              && r.1 == (if writes then t[orderNo := t[orderNo].(status := CANCELLED)] else t)
    ensures r.0.success <==> orderNo in t && t[orderNo].status == UNPAID && !Overdue(t[orderNo], now) && writes
    ensures r.0.success ==> r.0.Coherent()
                            && r.1 == t[orderNo := t[orderNo].(status := PAID, paymentType := payType, paymentTime := Some(now),
                                                               updateTime := now, transactionId := Some(TRANSACTION_PREFIX + IntToString(now)))]
                            && r.2 == [PaymentNotice(orderNo, t[orderNo].userId, t[orderNo].paymentAmount, payType)]
    ensures orderNo in t && t[orderNo].status == UNPAID && !Overdue(t[orderNo], now) && !writes ==>
              r == (ErrorCode(ERROR_CODE, PAY_FAILED), t, [])
  {
    if orderNo !in t then (ErrorCode(ORDER_NOT_EXIST_CODE, ORDER_NOT_FOUND), t, [])
    else
      var o := t[orderNo];
      if o.status != UNPAID then (ErrorCode(ORDER_STATUS_ERROR_CODE, PAY_STATUS_ERROR), t, [])
      else if Overdue(o, now) then
        (ErrorCode(ORDER_EXPIRED_CODE, ORDER_EXPIRED), if writes then t[orderNo := o.(status := CANCELLED)] else t, [])
      else if !writes then (ErrorCode(ERROR_CODE, PAY_FAILED), t, [])
      else
        var paid := o.(status := PAID, paymentType := payType, paymentTime := Some(now), updateTime := now,
                       transactionId := Some(TRANSACTION_PREFIX + IntToString(now)));
        (Success(), t[orderNo := paid], [PaymentNotice(orderNo, o.userId, o.paymentAmount, payType)])
  }

  /** A created order can be paid, for its full amount, up to half an hour after its
      creation, and is refused as expired from then on. */
  lemma CreatedOrderPayableUntilDeadline(t: OrderTable, req: OrderRequest, now: int, uuidPrefix: string,
                                         payType: Option<int>, later: int, writes: bool)
    requires CreateOrder(t, req, now, uuidPrefix, true).0.success
    ensures var (created, t1) := CreateOrder(t, req, now, uuidPrefix, true);
            var o := created.data.value;
            var (paid, _, notices) := PayOrder(t1, o.orderNo, payType, later, writes);
            && (later <= now + PAYMENT_WINDOW_MILLIS && writes ==>
                  paid.success && notices == [PaymentNotice(o.orderNo, req.userId, PRICE_CENTS * req.quantity.value, payType)])
            && (later > now + PAYMENT_WINDOW_MILLIS ==> paid == ErrorCode(ORDER_EXPIRED_CODE, ORDER_EXPIRED))
  {
  }

  /** `cancelOrder`: only an unpaid order, and only when the database accepts. */
  function CancelOrder(t: OrderTable, orderNo: string, writes: bool): (r: (ApiResult<()>, OrderTable))
    ensures orderNo !in t ==> r == (ErrorCode(ORDER_NOT_EXIST_CODE, ORDER_NOT_FOUND), t)
    ensures orderNo in t && t[orderNo].status != UNPAID ==> r == (ErrorCode(ORDER_STATUS_ERROR_CODE, CANCEL_STATUS_ERROR), t)
    ensures r.0.success <==> orderNo in t && t[orderNo].status == UNPAID && writes
    ensures r.0.success ==> r.0.Coherent() && r.1 == t[orderNo := t[orderNo].(status := CANCELLED)]
    ensures !r.0.success ==> r.1 == t
  {
    if orderNo !in t then (ErrorCode(ORDER_NOT_EXIST_CODE, ORDER_NOT_FOUND), t)
    else if t[orderNo].status != UNPAID then (ErrorCode(ORDER_STATUS_ERROR_CODE, CANCEL_STATUS_ERROR), t)
    else if !writes then (ErrorCode(ERROR_CODE, CANCEL_FAILED), t)
    else (Success(), t[orderNo := t[orderNo].(status := CANCELLED)])
  }

  /** `completeOrder`: only a paid or shipped order, and only when the database accepts. */
  function CompleteOrder(t: OrderTable, orderNo: string, writes: bool): (r: (ApiResult<()>, OrderTable))
    ensures orderNo !in t ==> r == (ErrorCode(ORDER_NOT_EXIST_CODE, ORDER_NOT_FOUND), t)
    ensures orderNo in t && t[orderNo].status !in {PAID, SHIPPED} ==> r == (ErrorCode(ORDER_STATUS_ERROR_CODE, COMPLETE_STATUS_ERROR), t)
    ensures r.0.success <==> orderNo in t && t[orderNo].status in {PAID, SHIPPED} && writes
    ensures r.0.success ==> r.0.Coherent() && r.1 == t[orderNo := t[orderNo].(status := COMPLETED)]
    ensures !r.0.success ==> r.1 == t
  {
    if orderNo !in t then (ErrorCode(ORDER_NOT_EXIST_CODE, ORDER_NOT_FOUND), t)
    else if t[orderNo].status != PAID && t[orderNo].status != SHIPPED then (ErrorCode(ORDER_STATUS_ERROR_CODE, COMPLETE_STATUS_ERROR), t)
    else if !writes then (ErrorCode(ERROR_CODE, COMPLETE_FAILED), t)
    else (Success(), t[orderNo := t[orderNo].(status := COMPLETED)])
  }

  /** `handleExpiredOrder`: an overdue unpaid order times out; anything else is left as
      it is, and an existing order always gets a success reply. */
  function HandleExpiredOrder(t: OrderTable, orderNo: string, now: int, writes: bool): (r: (ApiResult<()>, OrderTable))
    ensures orderNo !in t ==> r == (ErrorCode(ORDER_NOT_EXIST_CODE, ORDER_NOT_FOUND), t)
    ensures orderNo in t ==> r.0 == Success()
    ensures r.1 != t <==> orderNo in t && t[orderNo].status == UNPAID && Overdue(t[orderNo], now) && writes
    ensures r.1 != t ==> r.1 == t[orderNo := t[orderNo].(status := TIMED_OUT)]
  {
    if orderNo !in t then (ErrorCode(ORDER_NOT_EXIST_CODE, ORDER_NOT_FOUND), t)
    else
      var o := t[orderNo];
      if o.status == UNPAID && Overdue(o, now) && writes then
        assert t[orderNo := o.(status := TIMED_OUT)][orderNo] != t[orderNo];
        (Success(), t[orderNo := o.(status := TIMED_OUT)])
      else (Success(), t)
  }

  /** The status changes the services allow. */
  predicate Step(from: int, to: int) {
    from == to
    || (from == UNPAID && to in {PAID, CANCELLED, TIMED_OUT})
    || (from in {PAID, SHIPPED} && to == COMPLETED)
  }

  /** Completed, cancelled and timed-out orders are final. */
  predicate Final(status: int) {
    status in {COMPLETED, CANCELLED, TIMED_OUT}
  }

  /** An operation on an existing order. */
  datatype OrderOp =
    | Pay(orderNo: string, payType: Option<int>, now: int, writes: bool)
    | Cancel(orderNo: string, writes: bool)
    | Complete(orderNo: string, writes: bool)
    | Expire(orderNo: string, now: int, writes: bool)

  function Apply(t: OrderTable, op: OrderOp): OrderTable {
    match op
    case Pay(no, payType, now, writes) => PayOrder(t, no, payType, now, writes).1
    case Cancel(no, writes) => CancelOrder(t, no, writes).1
    case Complete(no, writes) => CompleteOrder(t, no, writes).1
    case Expire(no, now, writes) => HandleExpiredOrder(t, no, now, writes).1
  }

  /** Each operation keeps the set of orders and moves each one along an allowed step. */
  lemma ApplyStepsAllowed(t: OrderTable, op: OrderOp)
    ensures Apply(t, op).Keys == t.Keys
    ensures forall k :: k in t ==> Step(t[k].status, Apply(t, op)[k].status)
  {
  }

  function Run(t: OrderTable, ops: seq<OrderOp>): OrderTable
    decreases |ops|
  {
    if |ops| == 0 then t else Run(Apply(t, ops[0]), ops[1..])
  }

  /** Whatever operations follow, an order in a final status stays in it, and a paid
      order never returns to unpaid. */
  lemma {:induction false} FinalStatusesStick(t: OrderTable, ops: seq<OrderOp>, k: string)
    requires k in t
    ensures k in Run(t, ops)
    ensures Final(t[k].status) ==> Run(t, ops)[k].status == t[k].status
    ensures t[k].status != UNPAID ==> Run(t, ops)[k].status != UNPAID
    decreases |ops|
  {
    if |ops| > 0 {
      ApplyStepsAllowed(t, ops[0]);
      FinalStatusesStick(Apply(t, ops[0]), ops[1..], k);
    }
  }

  /** Paying an overdue order cancels it, whereas the expiry sweep times it out: the
      same situation ends in two different statuses depending on who notices first. */
  lemma OverdueEndsTwoWays(t: OrderTable, orderNo: string, payType: Option<int>, now: int)
    requires orderNo in t && t[orderNo].status == UNPAID && Overdue(t[orderNo], now)
    ensures PayOrder(t, orderNo, payType, now, true).1[orderNo].status == CANCELLED
    ensures HandleExpiredOrder(t, orderNo, now, true).1[orderNo].status == TIMED_OUT
  {
  }
}

=== FILE: paging.dfy ===
/** The page offset the listing operations compute as `(page - 1) * size` on boxed
    32-bit integers: each step wraps around modulo 2^32, and a null page or size
    fails on unboxing. */
module Paging {
  import opened Wrappers
  import opened Text

  /** The offset of a page, or `None` when either argument is null. */
  function PageOffset(page: Option<int>, size: Option<int>): (r: Option<int>)
    requires page.Some? ==> INT_MIN <= page.value <= INT_MAX
    requires size.Some? ==> INT_MIN <= size.value <= INT_MAX
    ensures r.Some? <==> page.Some? && size.Some?
    ensures r.Some? ==> INT_MIN <= r.value <= INT_MAX && (r.value - (page.value - 1) * size.value) % TWO_32 == 0
  {
    if page.None? || size.None? then None
    else
      var r := Wrap32(Wrap32(page.value - 1) * size.value);
      WrapProduct(page.value - 1, size.value);
      Some(r)
  }

  /** Wrapping the first factor first changes nothing modulo 2^32. */
  lemma WrapProduct(a: int, b: int)
    ensures (Wrap32(Wrap32(a) * b) - a * b) % TWO_32 == 0
  {
    var w := Wrap32(a);
    var k := (w - a) / TWO_32;
    assert w == a + k * TWO_32;
    assert w * b == a * b + (k * b) * TWO_32 by {
      ShiftedProduct(a, k, b);
    }
    var j := (Wrap32(w * b) - w * b) / TWO_32;
    assert Wrap32(w * b) - a * b == (j + k * b) * TWO_32;
  }

  lemma ShiftedProduct(a: int, k: int, b: int)
    ensures (a + k * TWO_32) * b == a * b + (k * b) * TWO_32
  {
  }

  /** For ordinary pages the offset is the exact product, so page `p + 1` starts
      exactly `size` rows after page `p`. */
  lemma ConsecutivePagesAdjacent(page: int, size: int)
    requires 1 <= page < INT_MAX && 0 <= size <= INT_MAX && page * size <= INT_MAX
    ensures PageOffset(Some(page), Some(size)) == Some((page - 1) * size)
    ensures PageOffset(Some(page + 1), Some(size)) == Some(page * size)
    ensures PageOffset(Some(page + 1), Some(size)).value == PageOffset(Some(page), Some(size)).value + size
  {
    assert 0 <= (page - 1) * size <= page * size by {
      assert page * size == (page - 1) * size + size;
    }
  }

  /** A large enough page wraps the offset around to a negative number. */
  lemma LargePageWraps()
    ensures PageOffset(Some(0x4000_0001), Some(2)) == Some(INT_MIN)
  {
    assert Wrap32(0x4000_0000) == 0x4000_0000;
    assert Wrap32(0x8000_0000) == INT_MIN;
  }
}

=== FILE: payments.dfy ===
/** The payment service's records and their status: pending (0), paid (1), failed (2)
    and refunded (3). Lookups and row counts of the payment mapper, whose statements
    are not part of this model, are inputs. */
module Payments {
  import opened Wrappers
  import opened Text
  import opened ApiResults

  const PENDING: int := 0
  const PAID: int := 1
  const FAILED: int := 2
  const REFUNDED: int := 3

  const PAYMENT_NO_PREFIX: string := "PAY"
  const FALLBACK_ORDER_PREFIX: string := "FS"

  const ALREADY_PAID: string := "订单已支付，请勿重复支付"
  const ALREADY_CREATED: string := "支付订单已存在"
  const CREATE_FAILED: string := "创建支付订单失败"
  const CREATE_FAILED_PREFIX: string := "创建支付订单失败："
  const DUPLICATE_CREATE: string := "订单已存在支付记录，请勿重复创建"
  const DUPLICATE_MARK: string := "Duplicate entry"
  const PAYMENT_NOT_FOUND: string := "支付记录不存在"
  const CALLBACK_DONE: string := "支付已完成"
  const CALLBACK_FAILED: string := "支付回调处理失败"
  const REFUND_NOT_PAID: string := "只有支付成功的订单才能申请退款"
  const REFUND_TOO_LARGE: string := "退款金额不能大于支付金额"
  const REFUND_ACCEPTED: string := "退款申请成功，预计1-3个工作日到账"
  const CANCEL_NOT_PENDING: string := "只有待支付的订单才能取消"
  const CANCELLED: string := "支付已取消"
  const CANCEL_FAILED: string := "取消支付失败"
  const UNKNOWN: string := "未知"

  /** A payment record; the amount in cents, times in epoch milliseconds. */
  datatype Payment = Payment(
    orderId: int, userId: int, orderNo: string, paymentNo: string, thirdPartyNo: Option<string>,
    amount: int, paymentMethod: int, status: int, paymentTime: Option<int>, createTime: int, updateTime: int)

  /** Payment records by payment number. */
  type PaymentTable = map<string, Payment>

  /** What a caller supplies to open a payment. */
  datatype PaymentDraft = PaymentDraft(orderId: int, userId: int, amount: int, paymentMethod: int)

  /** What the insert of a new record does: report a row count, or raise an exception
      with the given (possibly null) message. */
  datatype InsertOutcome = Rows(count: int) | Raised(message: Option<string>)

  /** The exception message names a duplicate key. */
  ghost predicate DuplicateKeyMessage(message: Option<string>) {
    message.Some? && exists j :: OccursAt(message.value, DUPLICATE_MARK, j)
  }

  /** `createPayment`. `existing` is what the lookup by order id finds, `orderNo` what
      the order service answers (`None` when the remote call fails). An existing paid
      record is refused, any other existing record is handed back as it is; otherwise
      a pending record with a fresh "PAY" number is inserted. An insert that raises is
      rolled back and reported: a duplicate key with its own message, anything else
      with the exception's message. */
  function CreatePayment(t: PaymentTable, draft: PaymentDraft, existing: Option<Payment>, orderNo: Option<string>,
                         now: int, uuidPrefix: string, insert: InsertOutcome)
    : (r: (ApiResult<Payment>, PaymentTable))
    ensures r.0.Coherent()
    ensures existing.Some? && existing.value.status == PAID ==> r == (ErrorMessage(ALREADY_PAID), t)
    ensures existing.Some? && existing.value.status != PAID ==>
              r.0.success && r.0.message == ALREADY_CREATED && r.0.data == existing && r.1 == t
    ensures existing.None? ==> (r.0.success <==> insert.Rows? && insert.count > 0)
    ensures existing.None? && insert.Rows? && insert.count <= 0 ==> r == (ErrorMessage(CREATE_FAILED), t)
    ensures existing.None? && insert.Raised? && DuplicateKeyMessage(insert.message) ==> r == (ErrorMessage(DUPLICATE_CREATE), t)
    ensures existing.None? && insert.Raised? && !DuplicateKeyMessage(insert.message) ==>
              r == (ErrorMessage(CREATE_FAILED_PREFIX + ShowString(insert.message)), t)
    ensures existing.None? && r.0.success ==> r.0.data.Some?
    ensures existing.None? && r.0.success && r.0.data.Some? ==>
              var p := r.0.data.value;
              && p.status == PENDING && StartsWith(p.paymentNo, PAYMENT_NO_PREFIX)
              && p.orderId == draft.orderId && p.userId == draft.userId && p.amount == draft.amount
              && p.paymentMethod == draft.paymentMethod && p.thirdPartyNo.None? && p.paymentTime.None?
              && p.orderNo == (if orderNo.Some? then orderNo.value else FALLBACK_ORDER_PREFIX + IntToString(draft.orderId) + IntToString(now))
              && r.1 == t[p.paymentNo := p]
  {
    if existing.Some? then
      if existing.value.status == PAID then (ErrorMessage(ALREADY_PAID), t)
      else (ApiResult(true, OK_CODE, ALREADY_CREATED, existing), t)
    else
      var no := match orderNo
        case Some(n) => n
        case None => FALLBACK_ORDER_PREFIX + IntToString(draft.orderId) + IntToString(now);
      var paymentNo := PAYMENT_NO_PREFIX + IntToString(now) + uuidPrefix;
      var p := Payment(draft.orderId, draft.userId, no, paymentNo, None, draft.amount, draft.paymentMethod,
                       PENDING, None, now, now);
      match insert
      case Rows(n) =>
        if n > 0 then (SuccessWith(p), t[paymentNo := p])
        else (ErrorMessage(CREATE_FAILED), t)
      case Raised(m) =>
        if m.Some? && IndexOf(m.value, DUPLICATE_MARK).Some? then (ErrorMessage(DUPLICATE_CREATE), t)
        else (ErrorMessage(CREATE_FAILED_PREFIX + ShowString(m)), t)
  }

  /** Creating twice for one order: the first create stores the only record of the order,
      and a second create, finding that record, hands it back and inserts nothing. */
  lemma SecondCreateReturnsFirst(t: PaymentTable, draft: PaymentDraft, draft2: PaymentDraft, orderNo: Option<string>,
                                 now: int, now2: int, uuidPrefix: string, uuid2: string, insert2: InsertOutcome)
    requires forall k :: k in t ==> t[k].orderId != draft.orderId
    ensures var (first, t1) := CreatePayment(t, draft, None, orderNo, now, uuidPrefix, Rows(1));
            && first.success && first.data.Some?
            && (forall k :: k in t1 && t1[k].orderId == draft.orderId ==> t1[k] == first.data.value)
            && CreatePayment(t1, draft2, first.data, orderNo, now2, uuid2, insert2) == (ApiResult(true, OK_CODE, ALREADY_CREATED, first.data), t1)
  {
  }

  /** The reply text for a callback status. */
  function CallbackMessage(status: int): (m: string)
    ensures m == "支付成功" <==> status == PAID
    ensures m == "支付失败" <==> status == FAILED
    ensures m == "支付处理中" <==> status == PENDING
    ensures m == "支付状态未知" <==> status !in {PENDING, PAID, FAILED}
  {
    match status
    case 1 => "支付成功"
    case 2 => "支付失败"
    case 0 => "支付处理中"
    case _ => "支付状态未知"
  }

  /** What the follow-up `updateById` of a paid callback writes from the record as it was
      read before the status update: only the two time stamps it has just set, or every
      non-null column of that stale record, which puts its earlier status back and,
      when it had one, its earlier third-party number. The statement itself is not part
      of this model, so both readings are kept. */
  datatype RowRewrite = StampsOnly | StaleColumns

  /** `handlePaymentCallback`: a paid record is left alone; any other record takes the
      callback's status and third-party number when the update reports a row, and a
      paid callback then rewrites the row with the payment time stamped. */
  function HandleCallback(t: PaymentTable, paymentNo: string, thirdPartyNo: Option<string>, status: int, now: int, rows: int,
                          rewrite: RowRewrite)
    : (r: (ApiResult<string>, PaymentTable))
    ensures r.0.Coherent()
    ensures paymentNo !in t ==> r == (ErrorMessage(PAYMENT_NOT_FOUND), t)
    ensures paymentNo in t && t[paymentNo].status == PAID ==> r == (SuccessWith(CALLBACK_DONE), t)
    ensures paymentNo in t && t[paymentNo].status != PAID ==>
              (r.0.success <==> rows > 0) && (rows <= 0 ==> r == (ErrorMessage(CALLBACK_FAILED), t))
    ensures paymentNo in t && t[paymentNo].status != PAID && rows > 0 ==>
              r.0.data == Some(CallbackMessage(status)) && r.1.Keys == t.Keys
              && (forall k :: k in t && k != paymentNo ==> r.1[k] == t[k])
    ensures paymentNo in t && t[paymentNo].status != PAID && rows > 0 && (status != PAID || rewrite.StampsOnly?) ==>
              r.1 == t[paymentNo := t[paymentNo].(status := status, thirdPartyNo := thirdPartyNo,
                                                  paymentTime := if status == PAID then Some(now) else t[paymentNo].paymentTime,
                                                  updateTime := if status == PAID then now else t[paymentNo].updateTime)]
    ensures paymentNo in t && t[paymentNo].status != PAID && rows > 0 && status == PAID && rewrite.StaleColumns? ==>
              r.1 == t[paymentNo := t[paymentNo].(paymentTime := Some(now), updateTime := now,
                                                  thirdPartyNo := if t[paymentNo].thirdPartyNo.Some? then t[paymentNo].thirdPartyNo else thirdPartyNo)]
  {
    if paymentNo !in t then (ErrorMessage(PAYMENT_NOT_FOUND), t)
    else
      var p := t[paymentNo];
      if p.status == PAID then (SuccessWith(CALLBACK_DONE), t)
      else if rows <= 0 then (ErrorMessage(CALLBACK_FAILED), t)
      else
        var updated := p.(status := status, thirdPartyNo := thirdPartyNo);
        var stamped :=
          if status != PAID then updated
          else match rewrite
            case StampsOnly => updated.(paymentTime := Some(now), updateTime := now)
            case StaleColumns =>
              updated.(status := p.status, paymentTime := Some(now), updateTime := now,
                       thirdPartyNo := if p.thirdPartyNo.Some? then p.thirdPartyNo else thirdPartyNo);
        (SuccessWith(CallbackMessage(status)), t[paymentNo := stamped])
  }

  /** Under the stale-column reading a paid callback on a pending record answers "paid"
      while the record stays pending, so the next callback is processed again. */
  lemma StaleRewriteKeepsPending(t: PaymentTable, paymentNo: string, third: Option<string>, now: int)
    requires paymentNo in t && t[paymentNo].status == PENDING
    ensures var (reply, after) := HandleCallback(t, paymentNo, third, PAID, now, 1, StaleColumns);
            reply == SuccessWith("支付成功") && after[paymentNo].status == PENDING
            && HandleCallback(after, paymentNo, third, PAID, now, 1, StaleColumns).0 != SuccessWith(CALLBACK_DONE)
  {
  }

  /** `applyRefund`: only a paid record, only up to its amount. The simulated refund
      always succeeds; the status update's row count is not checked, so the reply is
      a success whether or not the database took the write. */
  function ApplyRefund(t: PaymentTable, paymentNo: string, refundAmount: int, writes: bool)
    : (r: (ApiResult<string>, PaymentTable))
    ensures r.0.Coherent()
    ensures r.0.success <==> paymentNo in t && t[paymentNo].status == PAID && refundAmount <= t[paymentNo].amount
    ensures paymentNo !in t ==> r.0.message == PAYMENT_NOT_FOUND
    ensures paymentNo in t && t[paymentNo].status != PAID ==> r.0.message == REFUND_NOT_PAID
    ensures paymentNo in t && t[paymentNo].status == PAID && refundAmount > t[paymentNo].amount ==> r.0.message == REFUND_TOO_LARGE
    ensures r.0.success ==> r.0.data == Some(REFUND_ACCEPTED)
    ensures r.1 != t <==> r.0.success && writes
    ensures r.1 != t ==> r.1 == t[paymentNo := t[paymentNo].(status := REFUNDED)]
  {
    if paymentNo !in t then (ErrorMessage(PAYMENT_NOT_FOUND), t)
    else
      var p := t[paymentNo];
      if p.status != PAID then (ErrorMessage(REFUND_NOT_PAID), t)
      else if refundAmount > p.amount then (ErrorMessage(REFUND_TOO_LARGE), t)
      else if writes then
        assert t[paymentNo := p.(status := REFUNDED)][paymentNo] != p;
        (SuccessWith(REFUND_ACCEPTED), t[paymentNo := p.(status := REFUNDED)])
      else (SuccessWith(REFUND_ACCEPTED), t)
  }

  /** `cancelPayment`: only a pending record becomes failed. */
  function CancelPayment(t: PaymentTable, paymentNo: string, rows: int): (r: (ApiResult<string>, PaymentTable))
    ensures r.0.Coherent()
    ensures paymentNo !in t ==> r == (ErrorMessage(PAYMENT_NOT_FOUND), t)
    ensures paymentNo in t && t[paymentNo].status != PENDING ==> r == (ErrorMessage(CANCEL_NOT_PENDING), t)
    ensures r.0.success <==> paymentNo in t && t[paymentNo].status == PENDING && rows > 0
    ensures r.0.success ==> r.0.data == Some(CANCELLED) && r.1 == t[paymentNo := t[paymentNo].(status := FAILED)]
    ensures !r.0.success ==> r.1 == t
  {
    if paymentNo !in t then (ErrorMessage(PAYMENT_NOT_FOUND), t)
    else if t[paymentNo].status != PENDING then (ErrorMessage(CANCEL_NOT_PENDING), t)
    else if rows > 0 then (SuccessWith(CANCELLED), t[paymentNo := t[paymentNo].(status := FAILED)])
    else (ErrorMessage(CANCEL_FAILED), t)
  }

  /** The display name of a payment method; unknown codes share one name. */
  function MethodName(code: int): (n: string)
    ensures n == UNKNOWN <==> code !in {1, 2, 3}
    ensures code == 1 ==> n == "支付宝"
    ensures code == 2 ==> n == "微信支付"
    ensures code == 3 ==> n == "银行卡"
  {
    match code
    case 1 => "支付宝"
    case 2 => "微信支付"
    case 3 => "银行卡"
    case _ => UNKNOWN
  }

  /** The display name of a payment status; unknown codes share one name. */
  function StatusName(status: int): (n: string)
    ensures n == UNKNOWN <==> status !in {PENDING, PAID, FAILED, REFUNDED}
    ensures status == PENDING ==> n == "待支付"
    ensures status == PAID ==> n == "支付成功"
    ensures status == FAILED ==> n == "支付失败"
    ensures status == REFUNDED ==> n == "已退款"
  {
    match status
    case 0 => "待支付"
    case 1 => "支付成功"
    case 2 => "支付失败"
    case 3 => "已退款"
    case _ => UNKNOWN
  }

  /** Distinct known statuses have distinct names. */
  lemma StatusNamesDistinct(a: int, b: int)
    requires a in {PENDING, PAID, FAILED, REFUNDED} && b in {PENDING, PAID, FAILED, REFUNDED} && a != b
    ensures StatusName(a) != StatusName(b)
  {
  }

  /** An operation on an existing payment record. */
  datatype PaymentOp =
    | Callback(paymentNo: string, thirdPartyNo: Option<string>, status: int, now: int, rows: int, rewrite: RowRewrite)
    | Refund(paymentNo: string, amount: int, writes: bool)
    | Cancel(paymentNo: string, rows: int)

  function Apply(t: PaymentTable, op: PaymentOp): PaymentTable {
    match op
    case Callback(no, third, status, now, rows, rewrite) => HandleCallback(t, no, third, status, now, rows, rewrite).1
    case Refund(no, amount, writes) => ApplyRefund(t, no, amount, writes).1
    case Cancel(no, rows) => CancelPayment(t, no, rows).1
  }

  /** Operations keep the set of records, touch at most the named one, and move a paid
      record nowhere but to refunded. */
  lemma ApplyKeepsPaid(t: PaymentTable, op: PaymentOp)
    ensures Apply(t, op).Keys == t.Keys
    ensures forall k :: k in t && k != op.paymentNo ==> Apply(t, op)[k] == t[k]
    ensures forall k :: k in t && t[k].status == PAID ==> Apply(t, op)[k].status in {PAID, REFUNDED}
  {
  }

  function Run(t: PaymentTable, ops: seq<PaymentOp>): PaymentTable
    decreases |ops|
  {
    if |ops| == 0 then t else Run(Apply(t, ops[0]), ops[1..])
  }

  /** A paid record stays paid through any operations that include no refund of it. */
  lemma {:induction false} PaidStaysPaid(t: PaymentTable, ops: seq<PaymentOp>, k: string)
    requires k in t && t[k].status == PAID
    requires forall i :: 0 <= i < |ops| ==> !(ops[i].Refund? && ops[i].paymentNo == k)
    ensures k in Run(t, ops) && Run(t, ops)[k].status == PAID
    decreases |ops|
  {
    if |ops| > 0 {
      ApplyKeepsPaid(t, ops[0]);
      assert Apply(t, ops[0])[k].status == PAID;
      assert forall i :: 0 <= i < |ops[1..]| ==> !(ops[1..][i].Refund? && ops[1..][i].paymentNo == k) by {
        forall i | 0 <= i < |ops[1..]| ensures !(ops[1..][i].Refund? && ops[1..][i].paymentNo == k) {
          assert ops[1..][i] == ops[i + 1];
        }
      }
      PaidStaysPaid(Apply(t, ops[0]), ops[1..], k);
    }
  }

  /** Refunded is not final: a later paid callback turns the record back into a paid one. */
  lemma RefundedRevivedByCallback(t: PaymentTable, paymentNo: string, third: Option<string>, now: int)
    requires paymentNo in t && t[paymentNo].status == REFUNDED
    ensures HandleCallback(t, paymentNo, third, PAID, now, 1, StampsOnly).1[paymentNo].status == PAID
  {
  }
}

=== FILE: product_service.dfy ===
/** The product module's stock service: a check against the cached stock (loaded
    from the database on a miss), then the database decrement, then a shift of the
    cached counter by the same amount. The database statements behind the product
    mapper are not part of this model: their affected-row counts are inputs, and a
    lemma states when the cache keeps tracking a database that behaves as a guarded
    decrement. */
module ProductService {
  import opened Wrappers
  import opened ApiResults

  const PRODUCT_NOT_FOUND: string := "商品不存在"
  const ADD_FAILED: string := "商品添加失败"
  const ON_SALE: int := 1

  /** A product row as the service reads and writes it. */
  datatype Product = Product(name: string, stock: int, soldCount: int, status: int, createTime: int, updateTime: int)

  /** The fields a caller supplies when adding a product. */
  datatype ProductDraft = ProductDraft(name: string, stock: int)

  /** The two cache entries the service keeps per product: the product record and
      its stock counter. */
  datatype Caches = Caches(products: map<int, Product>, stock: map<int, int>)

  /** The stock the check compares against: the cached counter, else the database
      row's stock, else nothing (an unknown product). */
  function CurrentStock(cache: map<int, int>, db: map<int, Product>, id: int): Option<int> {
    if id in cache then Some(cache[id])
    else if id in db then Some(db[id].stock)
    else None
  }

  /** `decreaseStock`, given the database snapshot the lookup sees and the row count
      the database decrement reports. */
  function DecreaseStock(cache: map<int, int>, db: map<int, Product>, id: int, quantity: int, dbRows: int)
    : (r: (ApiResult<bool>, map<int, int>))
    ensures r.0.Coherent()
    ensures !r.0.success <==> CurrentStock(cache, db, id).None?
    ensures !r.0.success ==> r.0.message == PRODUCT_NOT_FOUND && r.1 == cache
    ensures r.0.success ==> r.0.data.Some?
    ensures r.0.data == Some(true) <==> CurrentStock(cache, db, id).Some? && CurrentStock(cache, db, id).value >= quantity && dbRows > 0
    ensures r.0.success ==> id in r.1 && (forall k :: k != id ==> (k in r.1 <==> k in cache) && (k in cache ==> r.1[k] == cache[k]))
    ensures r.0.data == Some(true) ==> id in r.1 && r.1[id] == CurrentStock(cache, db, id).value - quantity
    ensures r.0.data == Some(false) ==> id in r.1 && r.1[id] == CurrentStock(cache, db, id).value
  {
    match CurrentStock(cache, db, id)
    case None => (ErrorMessage(PRODUCT_NOT_FOUND), cache)
    case Some(current) =>
      var loaded := cache[id := current];
      if current < quantity then (SuccessWith(false), loaded)
      else if dbRows > 0 then (SuccessWith(true), Increment(loaded, id, -quantity))
      else (SuccessWith(false), loaded)
  }

  /** `increaseStock`: on a reported update the cached counter rises by `quantity`. */
  function IncreaseStock(cache: map<int, int>, id: int, quantity: int, dbRows: int): (r: (ApiResult<bool>, map<int, int>))
    ensures r.0.Coherent() && r.0.success && r.0.data == Some(dbRows > 0)
    ensures dbRows <= 0 ==> r.1 == cache
    ensures dbRows > 0 ==> r.1 == Increment(cache, id, quantity)
  {
    if dbRows > 0 then (SuccessWith(true), Increment(cache, id, quantity))
    else (SuccessWith(false), cache)
  }

  /** The cache agrees with the database about a product's stock. */
  predicate Tracks(cache: map<int, int>, db: map<int, Product>, id: int) {
    id in cache && id in db && cache[id] == db[id].stock
  }

  /** When the database decrement guards on the stock like the flash-sale mapper does
      (one row exactly when the stock covers the quantity), a decrease keeps the cache
      tracking the database, whether the counter was cached before or not. */
  lemma DecreaseKeepsCacheCoherent(cache: map<int, int>, db: map<int, Product>, id: int, quantity: int, dbRows: int)
    requires id in db && (id in cache ==> cache[id] == db[id].stock)
    requires dbRows > 0 <==> db[id].stock >= quantity
    ensures var r := DecreaseStock(cache, db, id, quantity, dbRows);
            var after := if dbRows > 0 then db[id := db[id].(stock := db[id].stock - quantity)] else db;
            r.0.success && Tracks(r.1, after, id)
  {
  }

  /** A stale cache decides alone: when the cached counter is below the quantity the
      database is never asked, whatever stock it holds. */
  lemma StaleCacheRefuses(cache: map<int, int>, db: map<int, Product>, id: int, quantity: int, dbRows: int)
    requires id in cache && cache[id] < quantity
    ensures DecreaseStock(cache, db, id, quantity, dbRows).0 == SuccessWith(false)
    ensures DecreaseStock(cache, db, id, quantity, dbRows).1 == cache
  {
  }

  /** Restocking a product whose counter is not cached creates the counter at the
      restocked quantity alone, so the cache no longer tracks the database. */
  lemma ColdRestockLosesStock(db: map<int, Product>, id: int, quantity: int)
    requires id in db && db[id].stock != 0
    ensures var r := IncreaseStock(map[], id, quantity, 1);
            r.1[id] == quantity && !Tracks(r.1, db[id := db[id].(stock := db[id].stock + quantity)], id)
  {
  }

  /** A decrease that went through followed by an increase of the same quantity
      puts the counter back where the check found it. */
  lemma DecreaseThenIncreaseRestoresCounter(cache: map<int, int>, db: map<int, Product>, id: int, quantity: int)
    requires CurrentStock(cache, db, id).Some? && CurrentStock(cache, db, id).value >= quantity
    ensures var d := DecreaseStock(cache, db, id, quantity, 1);
            IncreaseStock(d.1, id, quantity, 1).1[id] == CurrentStock(cache, db, id).value
  {
  }

  /** `addProduct`: the draft's fields on sale with nothing sold; on a successful
      insert the record and its stock are cached under the new id. */
  function AddProduct(caches: Caches, draft: ProductDraft, newId: int, insertRows: int, now: int)
    : (r: (ApiResult<()>, Product, Caches))
    ensures r.1.soldCount == 0 && r.1.status == ON_SALE
    ensures r.1.name == draft.name && r.1.stock == draft.stock && r.1.createTime == now && r.1.updateTime == now
    ensures r.0.Coherent() && (r.0.success <==> insertRows > 0)
    ensures insertRows > 0 ==> r.2.products == caches.products[newId := r.1] && r.2.stock == caches.stock[newId := draft.stock]
    ensures insertRows <= 0 ==> r.0.message == ADD_FAILED && r.2 == caches
  {
    var product := Product(draft.name, draft.stock, 0, ON_SALE, now, now);
    if insertRows > 0 then
      (Success(), product, Caches(caches.products[newId := product], caches.stock[newId := draft.stock]))
    else (ErrorMessage(ADD_FAILED), product, caches)
  }

  /** A freshly added product can be sold down to its full stock from the cache. */
  lemma AddedProductSellable(caches: Caches, draft: ProductDraft, newId: int, now: int, db: map<int, Product>)
    requires draft.stock > 0
    ensures var added := AddProduct(caches, draft, newId, 1, now).2;
            DecreaseStock(added.stock, db, newId, draft.stock, 1) == (SuccessWith(true), added.stock[newId := 0])
  {
    var added := AddProduct(caches, draft, newId, 1, now).2;
    assert added.stock[newId := draft.stock] == added.stock;
  }
}

=== FILE: rate_limit.dfy ===
/** The seckill module's fixed-window rate limiter. Each (key, window start) pair has a
    counter record; the first call of a window inserts it at 1, later calls are refused
    once the counter reaches the limit and counted otherwise. Any failure lets the call
    through. Clock readings and store failures are inputs. */
module RateLimit {
  import opened Wrappers
  import opened Text
  import opened ApiResults

  const MILLIS_PER_SECOND: int := 1000
  const ACCESS_PERIOD: int := 60
  const DEFAULT_LIMIT: int := 100
  const DEFAULT_PERIOD: int := 60
  const RECORD_FAILED: string := "记录访问失败"

  /** A counter record: the count and the instant, in milliseconds, it expires. */
  datatype RateRecord = RateRecord(count: int, expireTime: int)

  /** Records by key name and window start (in seconds). */
  type RateStore = map<(string, int), RateRecord>

  /** The window a second falls in: the second minus Java's remainder by the period. */
  function WindowStart(nowSeconds: int, period: int): (w: int)
    requires period != 0
    ensures nowSeconds >= 0 && period > 0 ==> w <= nowSeconds < w + period && w % period == 0
  {
    var w := nowSeconds - JavaRem(nowSeconds, period);
    if nowSeconds >= 0 && period > 0 then WindowAligned(nowSeconds, period); w else w
  }

  lemma WindowAligned(nowSeconds: int, period: int)
    requires nowSeconds >= 0 && period > 0
    ensures (nowSeconds - JavaRem(nowSeconds, period)) % period == 0
  {
    assert nowSeconds - JavaRem(nowSeconds, period) == (nowSeconds / period) * period;
    MultipleHasNoRemainder(nowSeconds / period, period);
  }

  /** The window a call at `nowMillis` falls in. */
  function WindowOf(nowMillis: int, period: int): int
    requires period != 0
  {
    WindowStart(JavaDiv(nowMillis, MILLIS_PER_SECOND), period)
  }

  /** The call reaches the counter: the period unboxes to a non-zero value and the store
      answers. Otherwise the arithmetic or the store throws and the call is let through. */
  predicate Reaches(period: Option<int>, storeFails: bool) {
    period.Some? && period.value != 0 && !storeFails
  }

  /** `isAllowed`. A record is created at 1 and the call allowed, whatever the limit; an
      existing record refuses once its count has reached the limit, and otherwise counts
      the call. A null limit fails the comparison and lets the call through uncounted. */
  function IsAllowed(store: RateStore, key: string, limit: Option<int>, period: Option<int>, nowMillis: int, storeFails: bool)
    : (r: (ApiResult<bool>, RateStore))
    ensures r.0.Coherent() && r.0.success && r.0.data.Some?
    ensures !Reaches(period, storeFails) ==> r == (SuccessWith(true), store)
    ensures Reaches(period, storeFails) ==>
              var k := (key, WindowOf(nowMillis, period.value));
              && (r.0.data == Some(false) <==> k in store && limit.Some? && store[k].count >= limit.value)
              && (k !in store ==> r.1 == store[k := RateRecord(1, WindowOf(nowMillis, period.value) * MILLIS_PER_SECOND
                                                                  + Wrap32(period.value * MILLIS_PER_SECOND))])
              && (k in store && limit.Some? && store[k].count < limit.value ==> r.1 == store[k := store[k].(count := store[k].count + 1)])
              && (k in store && (limit.None? || store[k].count >= limit.value) ==> r.1 == store)
  {
    if !Reaches(period, storeFails) then (SuccessWith(true), store)
    else
      var w := WindowOf(nowMillis, period.value);
      var k := (key, w);
      if k !in store then
        (SuccessWith(true), store[k := RateRecord(1, w * MILLIS_PER_SECOND + Wrap32(period.value * MILLIS_PER_SECOND))])
      else if limit.None? then (SuccessWith(true), store)
      else if store[k].count >= limit.value then (SuccessWith(false), store)
      else (SuccessWith(true), store[k := store[k].(count := store[k].count + 1)])
  }

  /** `recordAccess`: counts the call in its 60-second window without any limit. */
  function RecordAccess(store: RateStore, key: string, nowMillis: int, storeFails: bool): (r: (ApiResult<()>, RateStore))
    ensures r.0.Coherent() && (r.0.success <==> !storeFails)
    ensures storeFails ==> r == (ErrorMessage(RECORD_FAILED), store)
    ensures !storeFails ==>
              var w := WindowOf(nowMillis, ACCESS_PERIOD);
              && (key, w) in r.1 && r.1.Keys == store.Keys + {(key, w)}
              && r.1[(key, w)].count == (if (key, w) in store then store[(key, w)].count + 1 else 1)
              && (forall k :: k in store && k != (key, w) ==> r.1[k] == store[k])
  {
    if storeFails then (ErrorMessage(RECORD_FAILED), store)
    else
      var w := WindowOf(nowMillis, ACCESS_PERIOD);
      var k := (key, w);
      if k !in store then (Success(), store[k := RateRecord(1, w * MILLIS_PER_SECOND + ACCESS_PERIOD * MILLIS_PER_SECOND)])
      else (Success(), store[k := store[k].(count := store[k].count + 1)])
  }

  /** The rule `getRateLimit` reports. */
  datatype RateRule = RateRule(key: string, limit: int, period: int)

  /** `getRateLimit`: the same defaults for every key. */
  function GetRateLimit(key: string): (r: ApiResult<RateRule>)
    ensures r.Coherent() && r.success && r.data.Some? && r.data.value.key == key
    ensures r.data.value.limit == DEFAULT_LIMIT && r.data.value.period == DEFAULT_PERIOD
  {
    SuccessWith(RateRule(key, DEFAULT_LIMIT, DEFAULT_PERIOD))
  }

  /** A run of `isAllowed` calls for one key, with a store that always answers: how many
      were allowed, and the store afterwards. */
  function Burst(store: RateStore, key: string, limit: Option<int>, period: Option<int>, nows: seq<int>): (RateStore, int)
    decreases |nows|
  {
    if |nows| == 0 then (store, 0)
    else
      var first := IsAllowed(store, key, limit, period, nows[0], false);
      var rest := Burst(first.1, key, limit, period, nows[1..]);
      (rest.0, rest.1 + if first.0.data == Some(true) then 1 else 0)
  }

  predicate SameWindow(nows: seq<int>, period: int, w: int)
    requires period != 0
  {
    forall i :: 0 <= i < |nows| ==> WindowOf(nows[i], period) == w
  }

  function Min(a: int, b: int): int {
    if a <= b then a else b
  }

  function Max(a: int, b: int): int {
    if a >= b then a else b
  }

  /** Within one window whose record already holds `c`, calls are allowed until the
      count reaches the limit, and each allowed call is counted. */
  lemma {:induction false} BurstFromRecord(store: RateStore, key: string, limit: int, period: int, nows: seq<int>, w: int)
    requires period != 0 && SameWindow(nows, period, w) && (key, w) in store
    ensures var b := Burst(store, key, Some(limit), Some(period), nows);
            var c := store[(key, w)].count;
            && b.1 == Min(|nows|, Max(limit - c, 0))
            && (key, w) in b.0 && b.0[(key, w)].count == c + b.1
    decreases |nows|
  {
    if |nows| > 0 {
      var first := IsAllowed(store, key, Some(limit), Some(period), nows[0], false);
      assert WindowOf(nows[0], period) == w;
      assert SameWindow(nows[1..], period, w) by {
        forall i | 0 <= i < |nows[1..]| ensures WindowOf(nows[1..][i], period) == w {
          assert nows[1..][i] == nows[i + 1];
        }
      }
      BurstFromRecord(first.1, key, limit, period, nows[1..], w);
    }
  }

  /** Starting a window afresh, a burst of calls is allowed `max(limit, 1)` times at most:
      the first call of a window always passes. */
  lemma BurstFromEmpty(store: RateStore, key: string, limit: int, period: int, nows: seq<int>, w: int)
    requires period != 0 && SameWindow(nows, period, w) && (key, w) !in store
    ensures Burst(store, key, Some(limit), Some(period), nows).1 == Min(|nows|, Max(limit, 1))
  {
    if |nows| > 0 {
      assert WindowOf(nows[0], period) == w;
      var first := IsAllowed(store, key, Some(limit), Some(period), nows[0], false);
      assert SameWindow(nows[1..], period, w) by {
        forall i | 0 <= i < |nows[1..]| ensures WindowOf(nows[1..][i], period) == w {
          assert nows[1..][i] == nows[i + 1];
        }
      }
      BurstFromRecord(first.1, key, limit, period, nows[1..], w);
    }
  }

  /** Under the default rule a key gets at most one hundred calls in a minute's window. */
  lemma DefaultRuleCapsBurst(store: RateStore, key: string, nows: seq<int>, w: int)
    requires SameWindow(nows, DEFAULT_PERIOD, w) && (key, w) !in store
    ensures var rule := GetRateLimit(key).data.value;
            Burst(store, key, Some(rule.limit), Some(rule.period), nows).1 == Min(|nows|, DEFAULT_LIMIT)
  {
    BurstFromEmpty(store, key, DEFAULT_LIMIT, DEFAULT_PERIOD, nows, w);
  }

  /** `recordAccess` and a 60-second `isAllowed` share the same record, so a recorded
      access uses up a limit of one. */
  lemma RecordedAccessCountsAgainstLimit(store: RateStore, key: string, nowMillis: int)
    requires (key, WindowOf(nowMillis, ACCESS_PERIOD)) !in store
    ensures var recorded := RecordAccess(store, key, nowMillis, false).1;
            IsAllowed(recorded, key, Some(1), Some(ACCESS_PERIOD), nowMillis, false).0.data == Some(false)
  {
  }

  /** A period long enough to overflow `period * 1000` in 32-bit arithmetic gives the
      record an expiry before its own window starts. */
  lemma LongPeriodExpiresEarly()
    ensures var r := IsAllowed(map[], "k", Some(1), Some(2_147_484), 0, false);
            (("k", 0) in r.1) && r.1[("k", 0)].expireTime < 0
  {
    assert WindowOf(0, 2_147_484) == 0;
    assert Wrap32(2_147_484 * 1000) == 2_147_484_000 - TWO_32;
  }
}

=== FILE: seckill.dfy ===
/** The flash-sale purchase flow: a caller first obtains a purchase token for a
    product it is eligible for, then presents it to buy. A purchase checks the token,
    re-checks eligibility, decrements the stock and only then records an unpaid order
    with a half-hour payment deadline; the order is paid later through a payment
    message. Tokens and purchase results live in the key-value store, orders in the
    order table. */
module Seckill {
  import opened Wrappers
  import opened Text
  import opened ApiResults
  import opened FlashSaleProducts

  const RESULT_PREFIX: string := "seckill:result:"
  const TOKEN_PREFIX: string := "seckill:token:"
  const ORDER_NO_PREFIX: string := "FS"
  const ORDER_EXPIRE_MILLIS: int := 30 * 60 * 1000

  const TOKEN_INVALID: string := "秒杀令牌无效或已过期"
  const NOT_ELIGIBLE_PREFIX: string := "不满足秒杀条件: "
  const DETAIL_FAILED: string := "获取秒杀商品信息失败"
  const OUT_OF_STOCK: string := "库存不足"
  const NOT_PURCHASABLE: string := "商品不可秒杀"
  const ORDER_NOT_FOUND: string := "订单不存在"
  const NOT_OWNER: string := "无权操作此订单"
  const NOT_PAYABLE: string := "订单状态不支持支付"
  const ORDER_EXPIRED: string := "订单已过期"
  const PAY_FAILED_PREFIX: string := "支付失败："
  const SEND_FAILED: string := "发送支付消息失败"
  const PAYMENT_SUBMITTED: string := "支付请求已提交，正在处理中..."
  const PURCHASED: string := "SUCCESS"

  const UNPAID: int := 0
  const TIMED_OUT: int := 5

  /** A flash-sale order; amounts in cents, times in epoch milliseconds. */
  datatype SeckillOrder = SeckillOrder(
    orderNo: string, userId: Option<int>, activityId: Option<int>, productId: Option<int>, flashSaleProductId: int,
    price: int, quantity: int, paymentAmount: int, discountAmount: int, status: int,
    expireTime: Option<int>, createTime: int)

  /** The store's string values (tokens and results) and the orders by number. */
  datatype SeckillStore = SeckillStore(values: map<string, string>, orders: map<string, SeckillOrder>)

  /** What a buyer sends. */
  datatype SeckillRequest = SeckillRequest(userId: Option<int>, flashSaleProductId: Option<int>, quantity: int, token: Option<string>)

  function TokenKey(userId: Option<int>, flashSaleProductId: Option<int>): string {
    TOKEN_PREFIX + ShowLong(userId) + ":" + ShowLong(flashSaleProductId)
  }

  function ResultKey(seckillId: string): string {
    RESULT_PREFIX + seckillId
  }

  /** `getProductDetail` for a possibly-null id: a null id finds no row. */
  function Detail(cat: Catalog, id: Option<int>, now: int): (r: ApiResult<ProductView>)
    ensures r.success <==> id.Some? && id.value in cat.products
    ensures r.success ==> r == SuccessWith(ToView(cat, id.value, cat.products[id.value], now))
    ensures !r.success ==> r == ErrorMessage(PRODUCT_NOT_FOUND)
  {
    if id.None? then ErrorMessage(PRODUCT_NOT_FOUND) else ProductDetail(cat, id.value, now)
  }

  /** The buyer has not reached the product's purchase limit (either being unknown
      imposes nothing). */
  predicate UnderLimit(limit: Option<int>, bought: Option<int>) {
    limit.None? || bought.None? || bought.value < limit.value
  }

  /** `checkSeckillEligibility`, given the number of units the buyer has already bought
      as the order table reports it: the product must exist, be purchasable, be under
      the buyer's limit and have stock left, checked in that order. */
  function CheckSeckillEligibility(cat: Catalog, id: Option<int>, now: int, bought: Option<int>): (r: ApiResult<bool>)
    ensures r.Coherent() && (r.success ==> r.data == Some(true))
    ensures r.success <==> id.Some? && id.value in cat.products
                           && ToView(cat, id.value, cat.products[id.value], now).canSeckill
                           && UnderLimit(cat.products[id.value].limit, bought)
    ensures !Detail(cat, id, now).success ==> r == ErrorMessage(PRODUCT_NOT_FOUND)
    ensures Detail(cat, id, now).success && !Detail(cat, id, now).data.value.canSeckill ==> r == ErrorMessage(NOT_PURCHASABLE)
    ensures (Detail(cat, id, now).success && Detail(cat, id, now).data.value.canSeckill
             && !UnderLimit(cat.products[id.value].limit, bought)) ==> r == ErrorMessage(SECKILL_REPEATED_MESSAGE)
  {
    var detail := Detail(cat, id, now);
    if !detail.success || detail.data.None? then ErrorMessage(PRODUCT_NOT_FOUND)
    else
      var v := detail.data.value;
      if !v.canSeckill then ErrorMessage(NOT_PURCHASABLE)
      else if v.limit.Some? && bought.Some? && bought.value >= v.limit.value then ErrorMessage(SECKILL_REPEATED_MESSAGE)
      else if v.remainingStock <= 0 then ErrorMessage(PRODUCT_STOCK_NOT_ENOUGH_MESSAGE)
      else SuccessWith(true)
  }

  /** The purchase limit compares the units already bought, not the units asked for:
      a buyer under the limit passes whatever quantity the purchase then requests. */
  lemma LimitIgnoresRequestedQuantity(cat: Catalog, id: int, now: int)
    requires id in cat.products && cat.products[id].limit == Some(1)
    requires ToView(cat, id, cat.products[id], now).canSeckill
    ensures CheckSeckillEligibility(cat, Some(id), now, Some(0)) == SuccessWith(true)
  {
  }

  /** The token a successful request issues. */
  function TokenText(userId: Option<int>, flashSaleProductId: Option<int>, now: int): string {
    ShowLong(userId) + "_" + ShowLong(flashSaleProductId) + "_" + IntToString(now)
  }

  /** `generateSeckillToken`: only an eligible buyer receives a token, which replaces any
      earlier one for the same buyer and product. */
  function GenerateToken(st: SeckillStore, cat: Catalog, userId: Option<int>, id: Option<int>, now: int, bought: Option<int>)
    : (r: (ApiResult<string>, SeckillStore))
    ensures r.0.Coherent()
    ensures r.0.success <==> CheckSeckillEligibility(cat, id, now, bought).success
    ensures r.0.success ==> r.0.data == Some(TokenText(userId, id, now))
                            && r.1 == st.(values := st.values[TokenKey(userId, id) := TokenText(userId, id, now)])
    ensures !r.0.success ==> r.1 == st && r.0.message == NOT_ELIGIBLE_PREFIX + CheckSeckillEligibility(cat, id, now, bought).message
  {
    var check := CheckSeckillEligibility(cat, id, now, bought);
    if !check.success || check.data != Some(true) then (ErrorMessage(NOT_ELIGIBLE_PREFIX + check.message), st)
    else
      var token := TokenText(userId, id, now);
      (SuccessWith(token), st.(values := st.values[TokenKey(userId, id) := token]))
  }

  /** The presented token is the one on record for the buyer and product. */
  predicate TokenValid(st: SeckillStore, req: SeckillRequest) {
    req.token.Some? && Lookup(st.values, TokenKey(req.userId, req.flashSaleProductId)) == req.token
  }

  /** The outcome of a purchase: the reply, the store, the catalog and the follow-up
      stock calls. */
  datatype Purchase = Purchase(result: ApiResult<string>, store: SeckillStore, catalog: Catalog, calls: seq<StockCall>)

  function OrderNo(now: int, uuidPrefix: string): string {
    ORDER_NO_PREFIX + IntToString(now) + uuidPrefix
  }

  /** `doSeckill`, given the buyer's bought count, the row count of the stock decrement,
      and the random part of the order number. */
  function DoSeckill(st: SeckillStore, cat: Catalog, req: SeckillRequest, now: int, uuidPrefix: string,
                     bought: Option<int>, stockRows: int): (p: Purchase)
    ensures p.result.Coherent()
    ensures !TokenValid(st, req) ==> p == Purchase(ErrorMessage(TOKEN_INVALID), st, cat, [])
    ensures TokenValid(st, req) && !CheckSeckillEligibility(cat, req.flashSaleProductId, now, bought).success ==>
              p == Purchase(ErrorMessage(NOT_ELIGIBLE_PREFIX + CheckSeckillEligibility(cat, req.flashSaleProductId, now, bought).message), st, cat, [])
    ensures TokenValid(st, req) && CheckSeckillEligibility(cat, req.flashSaleProductId, now, bought).success && stockRows <= 0 ==>
              p == Purchase(ErrorMessage(OUT_OF_STOCK), st, cat, [])
    ensures p.result.success <==>
              TokenValid(st, req) && CheckSeckillEligibility(cat, req.flashSaleProductId, now, bought).success && stockRows > 0
    ensures !p.result.success ==> p.store.orders == st.orders
    ensures p.result.success ==> p.result.data == Some(OrderNo(now, uuidPrefix))
    ensures p.result.success ==> PlacedOrder(st, p.store, cat, req, now, uuidPrefix)
    ensures p.result.success ==> var id := req.flashSaleProductId.value;
              && p.catalog == cat.(stockCache := Increment(cat.stockCache, id, -req.quantity))
              && p.calls == [IncreaseStockUsed(id, req.quantity)]
    ensures !p.result.success ==> p.store == st && p.catalog == cat && p.calls == []
  {
    if !TokenValid(st, req) then Purchase(ErrorMessage(TOKEN_INVALID), st, cat, [])
    else
      var check := CheckSeckillEligibility(cat, req.flashSaleProductId, now, bought);
      if !check.success || check.data != Some(true) then
        Purchase(ErrorMessage(NOT_ELIGIBLE_PREFIX + check.message), st, cat, [])
      else
        var detail := Detail(cat, req.flashSaleProductId, now);
        if !detail.success || detail.data.None? then Purchase(ErrorMessage(DETAIL_FAILED), st, cat, [])
        else
          var v := detail.data.value;
          var dec := DecreaseStock(cat, v.id, req.quantity, stockRows);
          if !dec.0.success || dec.0.data != Some(true) then Purchase(ErrorMessage(OUT_OF_STOCK), st, cat, [])
          else
            var orderNo := OrderNo(now, uuidPrefix);
            var order := SeckillOrder(orderNo, req.userId, v.activityId, v.productId, v.id,
                                      v.price, req.quantity, v.price * req.quantity, 0, UNPAID,
                                      Some(now + ORDER_EXPIRE_MILLIS), now);
            var store := SeckillStore(st.values[ResultKey(orderNo) := PURCHASED], st.orders[orderNo := order]);
            Purchase(SuccessWith(orderNo), store, dec.1, dec.2)
  }

  /** After a successful purchase: an unpaid order for the requested quantity at the
      flash price, due within half an hour, recorded under a number starting "FS",
      with its result cached as a success and the token left in place. */
  ghost predicate PlacedOrder(st: SeckillStore, st': SeckillStore, cat: Catalog, req: SeckillRequest, now: int, uuidPrefix: string)
    requires req.flashSaleProductId.Some? && req.flashSaleProductId.value in cat.products
  {
    var no := OrderNo(now, uuidPrefix);
    var row := cat.products[req.flashSaleProductId.value];
    && StartsWith(no, ORDER_NO_PREFIX)
    && no in st'.orders
    && st'.orders[no].status == UNPAID
    && st'.orders[no].flashSaleProductId == req.flashSaleProductId.value
    && st'.orders[no].quantity == req.quantity
    && st'.orders[no].paymentAmount == row.price * req.quantity
    && st'.orders[no].discountAmount == 0
    && st'.orders[no].expireTime == Some(now + ORDER_EXPIRE_MILLIS)
    && (forall k :: k in st.orders && k != no ==> k in st'.orders && st'.orders[k] == st.orders[k])
    && Lookup(st'.values, ResultKey(no)) == Some(PURCHASED)
    && (forall k :: k in st.values && k != ResultKey(no) ==> k in st'.values && st'.values[k] == st.values[k])
  }

  /** The result keys and the token keys never collide. */
  lemma ResultKeyIsNotTokenKey(seckillId: string, userId: Option<int>, id: Option<int>)
    ensures ResultKey(seckillId) != TokenKey(userId, id)
  {
    var r := ResultKey(seckillId);
    var t := TokenKey(userId, id);
    assert r[8] == 'r' && t[8] == 't';
  }

  /** An issued token opens the purchase: the token check passes with the token just
      handed out. */
  lemma IssuedTokenAccepted(st: SeckillStore, cat: Catalog, userId: Option<int>, id: Option<int>, now: int, bought: Option<int>, quantity: int)
    requires GenerateToken(st, cat, userId, id, now, bought).0.success
    ensures var g := GenerateToken(st, cat, userId, id, now, bought);
            TokenValid(g.1, SeckillRequest(userId, id, quantity, g.0.data))
  {
  }

  /** The purchase never consumes the token: after a successful purchase the same
      request passes the token check again, and only eligibility or stock can stop it. */
  lemma TokenSurvivesPurchase(st: SeckillStore, cat: Catalog, req: SeckillRequest, now: int, uuidPrefix: string,
                              bought: Option<int>, stockRows: int)
    requires DoSeckill(st, cat, req, now, uuidPrefix, bought, stockRows).result.success
    ensures TokenValid(DoSeckill(st, cat, req, now, uuidPrefix, bought, stockRows).store, req)
  {
    var p := DoSeckill(st, cat, req, now, uuidPrefix, bought, stockRows);
    ResultKeyIsNotTokenKey(OrderNo(now, uuidPrefix), req.userId, req.flashSaleProductId);
  }

  /** The name a stored order status is reported under. */
  function StatusName(status: int): (name: string)
    ensures status == 1 <==> name == "SUCCESS"
    ensures status == 2 <==> name == "FAILED"
    ensures status == 3 <==> name == "CANCELLED"
    ensures status !in {1, 2, 3} <==> name == "UNKNOWN"
  {
    if status == 1 then "SUCCESS"
    else if status == 2 then "FAILED"
    else if status == 3 then "CANCELLED"
    else "UNKNOWN"
  }

  /** `getSeckillResult`: the cached result if any; otherwise the order's status name,
      which is then cached. */
  function GetSeckillResult(st: SeckillStore, seckillId: string): (r: (ApiResult<string>, SeckillStore))
    ensures r.0.Coherent()
    ensures ResultKey(seckillId) in st.values ==> r == (SuccessWith(st.values[ResultKey(seckillId)]), st)
    ensures ResultKey(seckillId) !in st.values && seckillId !in st.orders ==> r == (ErrorMessage(ORDER_NOT_FOUND), st)
    ensures ResultKey(seckillId) !in st.values && seckillId in st.orders ==>
              r.0 == SuccessWith(StatusName(st.orders[seckillId].status))
              && r.1 == st.(values := st.values[ResultKey(seckillId) := StatusName(st.orders[seckillId].status)])
  {
    if ResultKey(seckillId) in st.values then (SuccessWith(st.values[ResultKey(seckillId)]), st)
    else if seckillId !in st.orders then (ErrorMessage(ORDER_NOT_FOUND), st)
    else
      var name := StatusName(st.orders[seckillId].status);
      (SuccessWith(name), st.(values := st.values[ResultKey(seckillId) := name]))
  }

  /** Asking twice gives the same answer, and the second ask changes nothing. */
  lemma ResultStable(st: SeckillStore, seckillId: string)
    ensures var first := GetSeckillResult(st, seckillId);
            var second := GetSeckillResult(first.1, seckillId);
            second.0 == first.0 && second.1 == first.1
  {
  }

  /** A purchase caches "SUCCESS" for its order although the order is still unpaid,
      and the answer sticks whatever later happens to the order's status. */
  lemma PurchaseResultSticks(st: SeckillStore, cat: Catalog, req: SeckillRequest, now: int, uuidPrefix: string,
                             bought: Option<int>, stockRows: int, laterStatus: int)
    requires DoSeckill(st, cat, req, now, uuidPrefix, bought, stockRows).result.success
    ensures var p := DoSeckill(st, cat, req, now, uuidPrefix, bought, stockRows);
            var no := OrderNo(now, uuidPrefix);
            var later := p.store.(orders := p.store.orders[no := p.store.orders[no].(status := laterStatus)]);
            GetSeckillResult(later, no).0 == SuccessWith(PURCHASED)
  {
  }

  /** The payment request handed to the payment service. */
  datatype PaymentRequest = PaymentRequest(orderNo: string, userId: Option<int>, amount: int, payType: Option<int>)

  /** `paySeckillOrder`: an order without a buyer fails on the ownership comparison with
      an exception whose message is `exceptionText`; otherwise only the owner may pay,
      only an unpaid order, and only before its deadline; a late attempt marks the order
      timed out. Payment itself happens asynchronously from the request sent; when the
      message cannot be sent (`sendFails`) the producer's exception is reported instead. */
  function PaySeckillOrder(st: SeckillStore, userId: Option<int>, orderNo: string, payType: Option<int>, now: int,
                           sendFails: bool, exceptionText: string)
    : (r: (ApiResult<string>, SeckillStore, seq<PaymentRequest>))
    ensures r.0.Coherent()
    ensures orderNo !in st.orders ==> r == (ErrorMessage(ORDER_NOT_FOUND), st, [])
    ensures orderNo in st.orders && st.orders[orderNo].userId.None? ==>
              r == (ErrorMessage(PAY_FAILED_PREFIX + exceptionText), st, [])
    ensures orderNo in st.orders && st.orders[orderNo].userId.Some? && userId != st.orders[orderNo].userId ==>
              r == (ErrorMessage(NOT_OWNER), st, [])
    ensures r.0.success <==> Payable(st, userId, orderNo, now) && !sendFails
    ensures Payable(st, userId, orderNo, now) && sendFails ==> r == (ErrorMessage(PAY_FAILED_PREFIX + SEND_FAILED), st, [])
    ensures r.0.success ==> r.0.data == Some(PAYMENT_SUBMITTED) && r.1 == st
                            && r.2 == [PaymentRequest(orderNo, userId, st.orders[orderNo].paymentAmount, payType)]
    ensures !r.0.success ==> r.2 == []
    ensures !r.0.success && r.1 != st ==> r.0.message == ORDER_EXPIRED && r.1 == st.(orders := st.orders[orderNo := st.orders[orderNo].(status := TIMED_OUT)])
  {
    if orderNo !in st.orders then (ErrorMessage(ORDER_NOT_FOUND), st, [])
    else
      var order := st.orders[orderNo];
      if order.userId.None? then (ErrorMessage(PAY_FAILED_PREFIX + exceptionText), st, [])
      else if userId != order.userId then (ErrorMessage(NOT_OWNER), st, [])
      else if order.status != UNPAID then (ErrorMessage(NOT_PAYABLE), st, [])
      else if Overdue(order, now) then
        (ErrorMessage(ORDER_EXPIRED), st.(orders := st.orders[orderNo := order.(status := TIMED_OUT)]), [])
      else if sendFails then (ErrorMessage(PAY_FAILED_PREFIX + SEND_FAILED), st, [])
      else (SuccessWith(PAYMENT_SUBMITTED), st, [PaymentRequest(orderNo, userId, order.paymentAmount, payType)])
  }

  /** The order exists, belongs to the (non-null) buyer, is unpaid and not overdue. */
  predicate Payable(st: SeckillStore, userId: Option<int>, orderNo: string, now: int) {
    && orderNo in st.orders && st.orders[orderNo].userId.Some? && userId == st.orders[orderNo].userId
    && st.orders[orderNo].status == UNPAID && !Overdue(st.orders[orderNo], now)
  }

  /** The deadline has passed. */
  predicate Overdue(order: SeckillOrder, now: int) {
    order.expireTime.Some? && order.expireTime.value < now
  }

  /** An order placed by a purchase can be paid by its buyer until its deadline, and
      not after. */
  lemma PurchasedOrderPayableUntilDeadline(st: SeckillStore, cat: Catalog, req: SeckillRequest, now: int, uuidPrefix: string,
                                           bought: Option<int>, stockRows: int, payType: Option<int>, later: int)
    requires DoSeckill(st, cat, req, now, uuidPrefix, bought, stockRows).result.success
    requires req.userId.Some?
    ensures var p := DoSeckill(st, cat, req, now, uuidPrefix, bought, stockRows);
            PaySeckillOrder(p.store, req.userId, OrderNo(now, uuidPrefix), payType, later, false, "").0.success
            <==> later <= now + ORDER_EXPIRE_MILLIS
  {
  }
}

=== FILE: stock_ledger.dfy ===
/** The flash-sale stock rows of the product module and the three statements its
    mapper runs against them: a guarded decrement, a guarded increment and the
    listing of an activity's enabled products. A row keeps the stock still on sale
    and the stock already used; the two guards keep both counters from going
    negative, and every successful update moves quantity between them. */
module StockLedger {
  import opened Wrappers

  /** One `flash_sale_product` row: the counters the updates touch, plus the columns
      the listing filters on. */
  datatype FlashSaleRow = FlashSaleRow(
    activityId: Option<int>, productId: int,
    stock: int, used: int, status: int, updateTime: int)

  /** The two tables the listing joins: rows by id, and each activity's status. */
  datatype Tables = Tables(products: map<int, FlashSaleRow>, activityStatus: map<int, int>)

  /** The affected-row count of an update and the table after it. */
  datatype Update = Update(rows: int, table: map<int, FlashSaleRow>)

  const ENABLED: int := 1

  /** Both counters of every row are non-negative. */
  ghost predicate Sound(t: map<int, FlashSaleRow>) {
    forall id :: id in t ==> t[id].stock >= 0 && t[id].used >= 0
  }

  /** `decreaseStock`: move `quantity` from the stock to the used count of row `id`,
      but only where the stock covers it; a null quantity compares as unknown in SQL,
      so it matches no row. */
  function DecreaseStock(t: map<int, FlashSaleRow>, id: int, quantity: Option<int>, now: int): (u: Update)
    ensures u.rows == 0 || u.rows == 1
    ensures u.rows == 1 <==> id in t && quantity.Some? && t[id].stock >= quantity.value
    ensures u.rows == 0 ==> u.table == t
    ensures u.table.Keys == t.Keys
    ensures forall k :: k in t && k != id ==> u.table[k] == t[k]
    ensures u.rows == 1 ==> u.table[id].stock == t[id].stock - quantity.value
                            && u.table[id].used == t[id].used + quantity.value
                            && u.table[id].updateTime == now
                            && u.table[id].(stock := t[id].stock, used := t[id].used, updateTime := t[id].updateTime) == t[id]
  {
    if id in t && quantity.Some? && t[id].stock >= quantity.value then
      var row := t[id];
      Update(1, t[id := row.(stock := row.stock - quantity.value, used := row.used + quantity.value, updateTime := now)])
    else Update(0, t)
  }

  /** `increaseStock`: move `quantity` back from the used count to the stock, only
      where the used count covers it. */
  function IncreaseStock(t: map<int, FlashSaleRow>, id: int, quantity: Option<int>, now: int): (u: Update)
    ensures u.rows == 0 || u.rows == 1
    ensures u.rows == 1 <==> id in t && quantity.Some? && t[id].used >= quantity.value
    ensures u.rows == 0 ==> u.table == t
    ensures u.table.Keys == t.Keys
    ensures forall k :: k in t && k != id ==> u.table[k] == t[k]
    ensures u.rows == 1 ==> u.table[id].stock == t[id].stock + quantity.value
                            && u.table[id].used == t[id].used - quantity.value
                            && u.table[id].updateTime == now
                            && u.table[id].(stock := t[id].stock, used := t[id].used, updateTime := t[id].updateTime) == t[id]
  {
    if id in t && quantity.Some? && t[id].used >= quantity.value then
      var row := t[id];
      Update(1, t[id := row.(stock := row.stock + quantity.value, used := row.used - quantity.value, updateTime := now)])
    else Update(0, t)
  }

  /** What a row holds in total: on sale plus used. */
  function Total(r: FlashSaleRow): int {
    r.stock + r.used
  }

  /** Neither update creates or destroys stock: every row keeps its total. */
  lemma UpdatesConserveTotal(t: map<int, FlashSaleRow>, id: int, quantity: Option<int>, now: int)
    ensures var d := DecreaseStock(t, id, quantity, now).table;
            forall k :: k in t ==> Total(d[k]) == Total(t[k])
    ensures var i := IncreaseStock(t, id, quantity, now).table;
            forall k :: k in t ==> Total(i[k]) == Total(t[k])
  {
  }

  /** With a non-negative quantity, both updates keep every counter non-negative. */
  lemma UpdatesKeepSound(t: map<int, FlashSaleRow>, id: int, quantity: Option<int>, now: int)
    requires Sound(t)
    requires quantity.Some? ==> quantity.value >= 0
    ensures Sound(DecreaseStock(t, id, quantity, now).table)
    ensures Sound(IncreaseStock(t, id, quantity, now).table)
  {
  }

  /** A negative quantity passes the decrement's guard and drives the used count
      below zero: the guard protects only the stock column. */
  lemma NegativeQuantityUnderflowsUsed()
    ensures var t := map[7 := FlashSaleRow(Some(1), 1, 5, 0, ENABLED, 0)];
            var u := DecreaseStock(t, 7, Some(-2), 1);
            u.rows == 1 && u.table[7].used == -2 && u.table[7].stock == 7
  {
  }

  /** Giving back what was just taken restores the row's counters, provided the used
      count was not already negative (otherwise the increment's guard refuses). */
  lemma DecreaseThenIncrease(t: map<int, FlashSaleRow>, id: int, quantity: int, now: int, later: int)
    requires DecreaseStock(t, id, Some(quantity), now).rows == 1
    requires t[id].used >= 0
    ensures var d := DecreaseStock(t, id, Some(quantity), now);
            var i := IncreaseStock(d.table, id, Some(quantity), later);
            i.rows == 1 && i.table == t[id := t[id].(updateTime := later)]
  {
    var d := DecreaseStock(t, id, Some(quantity), now);
    var i := IncreaseStock(d.table, id, Some(quantity), later);
    assert i.table[id] == t[id].(updateTime := later);
  }

  /** Decrement requests for one row, applied in order: the quantity granted in total
      and the table afterwards. */
  function Sell(t: map<int, FlashSaleRow>, id: int, requests: seq<int>, now: int): (r: (int, map<int, FlashSaleRow>))
    ensures r.1.Keys == t.Keys
    decreases |requests|
  {
    if |requests| == 0 then (0, t)
    else
      var u := DecreaseStock(t, id, Some(requests[0]), now);
      var rest := Sell(u.table, id, requests[1..], now);
      (rest.0 + (if u.rows == 1 then requests[0] else 0), rest.1)
  }

  /** No oversell: however the requests interleave, the row's stock pays for exactly
      what was granted, so the total granted never exceeds the stock at the start and
      the stock never goes negative. */
  lemma {:induction false} SellNeverOversells(t: map<int, FlashSaleRow>, id: int, requests: seq<int>, now: int)
    requires id in t && t[id].stock >= 0
    requires forall i :: 0 <= i < |requests| ==> requests[i] >= 0
    ensures var r := Sell(t, id, requests, now);
            r.1[id].stock == t[id].stock - r.0 && r.1[id].used == t[id].used + r.0
            && 0 <= r.0 <= t[id].stock
    decreases |requests|
  {
    if |requests| > 0 {
      var u := DecreaseStock(t, id, Some(requests[0]), now);
      assert forall i :: 0 <= i < |requests[1..]| ==> requests[1..][i] >= 0 by {
        forall i | 0 <= i < |requests[1..]| ensures requests[1..][i] >= 0 {
          assert requests[1..][i] == requests[i + 1];
        }
      }
      SellNeverOversells(u.table, id, requests[1..], now);
    }
  }

  /** `getFlashSaleProductsByActivityId`: the ids of the enabled rows of an activity that
      exists and is itself enabled; a null activity id equals nothing in SQL. */
  function ProductsByActivity(t: Tables, activityId: Option<int>): (ids: set<int>)
    ensures ids <= t.products.Keys
    ensures forall id :: id in ids ==> t.products[id].status == ENABLED && t.products[id].activityId == activityId
    ensures activityId.None? || activityId.value !in t.activityStatus || t.activityStatus[activityId.value] != ENABLED ==> ids == {}
    ensures activityId.Some? && activityId.value in t.activityStatus && t.activityStatus[activityId.value] == ENABLED ==>
              forall id :: id in t.products && t.products[id].status == ENABLED && t.products[id].activityId == activityId ==> id in ids
  {
    if activityId.Some? && activityId.value in t.activityStatus && t.activityStatus[activityId.value] == ENABLED then
      set id | id in t.products && t.products[id].status == ENABLED && t.products[id].activityId == activityId
    else {}
  }

  /** Selling and restocking change no status or activity, so the listing of any
      activity is the same before and after. */
  lemma UpdatesKeepListing(t: Tables, id: int, quantity: Option<int>, now: int, activityId: Option<int>)
    ensures ProductsByActivity(t.(products := DecreaseStock(t.products, id, quantity, now).table), activityId)
            == ProductsByActivity(t, activityId)
    ensures ProductsByActivity(t.(products := IncreaseStock(t.products, id, quantity, now).table), activityId)
            == ProductsByActivity(t, activityId)
  {
  }
}

=== FILE: task_codec.dfy ===
/** The hand-rolled wire format of the asynchronous seckill queue: a flat JSON-like
    record written with a format string, read back one field at a time with the
    pattern `"key":"?([^,}"]+)"?`, and the retry-queue and queue-key conventions
    built around it. */
module TaskCodec {
  import opened Wrappers
  import opened Text

  const SECKILL_QUEUE_PREFIX: string := "seckill:async:queue:"
  const RETRY_ERROR_MARK: string := "|ERROR:"
  const RETRY_TIME_MARK: string := "|TIME:"

  /** The request fields the processor reads; every boxed Java field may be null. */
  datatype SeckillRequest = SeckillRequest(
    userId: Option<int>,
    productId: Option<int>,
    quantity: Option<int>,
    userIp: Option<string>,
    device: Option<string>,
    level: Option<int>,
    credit: Option<int>,
    verified: Option<bool>,
    requestId: Option<string>)

  datatype TaskWrapper = TaskWrapper(taskId: string, request: SeckillRequest, createTime: int)

  /** One `"name":value` pair of the record; `quoted` fields carry their text between quotes. */
  datatype Field = Field(name: string, text: string, quoted: bool)

  // ---------------------------------------------------------------- rendering

  predicate IsLetter(c: char) {
    ('a' <= c <= 'z') || ('A' <= c <= 'Z')
  }

  /** Field names: non-empty runs of letters. */
  predicate Ident(name: string) {
    |name| > 0 && forall i :: 0 <= i < |name| ==> IsLetter(name[i])
  }

  /** A character the pattern's value group `[^,}"]` accepts. */
  predicate Plain(c: char) {
    c != ',' && c != '}' && c != '"'
  }

  predicate Safe(t: string) {
    forall i :: 0 <= i < |t| ==> Plain(t[i])
  }

  predicate Closer(c: char) {
    c == ',' || c == '}'
  }

  function Quoted(t: string): string {
    "\"" + t + "\""
  }

  function Pattern(key: string): string {
    "\"" + key + "\":"
  }

  function RenderField(f: Field): string {
    Pattern(f.name) + (if f.quoted then Quoted(f.text) else f.text)
  }

  /** The fields after the opening brace: separated by commas, closed by `}`. */
  function Render(fs: seq<Field>): (s: string)
    ensures |s| > 0 && s[|s| - 1] == '}'
    ensures Closer(s[0]) ==> |fs| == 0
  {
    if |fs| == 0 then "}"
    else RenderField(fs[0]) + (if |fs| == 1 then "}" else "," + Render(fs[1..]))
  }

  /** The ten fields in the order and with the defaults the format string of `serializeTask` uses. */
  function Fields(w: TaskWrapper): seq<Field> {
    var q := w.request;
    [ Field("taskId", w.taskId, true),
      Field("userId", ShowLong(q.userId), false),
      Field("productId", ShowLong(q.productId), false),
      Field("createTime", IntToString(w.createTime), false),
      Field("userIp", q.userIp.GetOr(""), true),
      Field("quantity", ShowLong(q.quantity), false),
      Field("userLevel", IntToString(q.level.GetOr(1)), false),
      Field("creditScore", IntToString(q.credit.GetOr(60)), false),
      Field("isVerified", BoolToString(q.verified.GetOr(false)), false),
      Field("requestId", q.requestId.GetOr(""), true) ]
  }

  function Serialize(w: TaskWrapper): (s: string)
    ensures |s| > 1 && s[0] == '{' && s[|s| - 1] == '}'
  {
    "{" + Render(Fields(w))
  }

  // ---------------------------------------------------------------- extraction

  /** The longest prefix of `s` made of plain characters (the greedy `[^,}"]+`). */
  function PlainRun(s: string): (r: string)
    ensures r <= s && Safe(r)
    ensures |r| < |s| ==> !Plain(s[|r|])
  {
    if |s| == 0 || !Plain(s[0]) then "" else [s[0]] + PlainRun(s[1..])
  }

  /** The pattern anchored at the start of `s`: the key with its quotes and colon,
      an optional quote, then at least one plain character. */
  function MatchHere(s: string, key: string): (r: Option<string>)
    ensures r.Some? ==> StartsWith(s, Pattern(key)) && |r.value| > 0 && Safe(r.value)
  {
    if !StartsWith(s, Pattern(key)) then None
    else
      var after := s[|Pattern(key)|..];
      var body := if |after| > 0 && after[0] == '"' then after[1..] else after;
      var run := PlainRun(body);
      if |run| > 0 then Some(run) else None
  }

  /** `Matcher.find()`: the match at the leftmost position where the pattern matches. */
  function Scan(s: string, key: string): (r: Option<string>)
    ensures r.Some? ==> |r.value| > 0 && Safe(r.value)
    decreases |s|
  {
    if MatchHere(s, key).Some? then MatchHere(s, key)
    else if |s| == 0 then None
    else Scan(s[1..], key)
  }

  /** `extractJsonValue`: the first group of the first match, or "" when there is none. */
  function Extract(json: string, key: string): string {
    Scan(json, key).GetOr("")
  }

  /** `deserializeTask`: `None` stands for any parse exception, which the source turns into null. */
  function Deserialize(json: string): (r: Option<TaskWrapper>)
    ensures r.Some? ==> (r.value.request.userId.Some? && r.value.request.productId.Some?
                         && r.value.request.quantity.Some? && r.value.request.device.None?)
    ensures r.Some? <==> (ParseLong(Extract(json, "userId")).Some? && ParseLong(Extract(json, "productId")).Some?
                          && ParseLong(Extract(json, "createTime")).Some? && ParseInt(Extract(json, "quantity")).Some?
                          && ParseInt(Extract(json, "userLevel")).Some? && ParseInt(Extract(json, "creditScore")).Some?)
  {
    var userId := ParseLong(Extract(json, "userId"));
    var productId := ParseLong(Extract(json, "productId"));
    var createTime := ParseLong(Extract(json, "createTime"));
    var quantity := ParseInt(Extract(json, "quantity"));
    var level := ParseInt(Extract(json, "userLevel"));
    var credit := ParseInt(Extract(json, "creditScore"));
    if userId.None? || productId.None? || createTime.None? || quantity.None? || level.None? || credit.None? then None
    else
      Some(TaskWrapper(
        Extract(json, "taskId"),
        SeckillRequest(userId, productId, quantity, Some(Extract(json, "userIp")), None,
                       level, credit, Some(ParseBoolean(Extract(json, "isVerified"))),
                       Some(Extract(json, "requestId"))),
        createTime.value))
  }

  // ---------------------------------------------------------------- proofs about Scan

  /** A position that does not start with a quote never matches. */
  lemma SkipUnquoted(s: string, key: string)
    requires |s| > 0 && s[0] != '"'
    ensures Scan(s, key) == Scan(s[1..], key)
  {
    var p := Pattern(key);
    assert p[0] == '"';
    if |p| <= |s| {
      assert s[..|p|][0] != p[0];
    }
    assert MatchHere(s, key).None?;
  }

  lemma {:induction false} SkipSafe(t: string, rest: string, key: string)
    requires Safe(t)
    ensures Scan(t + rest, key) == Scan(rest, key)
    decreases |t|
  {
    var s := t + rest;
    if |t| == 0 {
      assert s == rest;
    } else {
      var t' := t[1..];
      assert s[0] == t[0] && Plain(t[0]);
      SkipUnquoted(s, key);
      assert s[1..] == t' + rest;
      assert Safe(t') by {
        forall i | 0 <= i < |t'|
          ensures Plain(t'[i])
        {
          assert t'[i] == t[i + 1];
        }
      }
      SkipSafe(t', rest, key);
    }
  }

  /** A quote followed by a closer cannot start a match. */
  lemma SkipClosingQuote(rest: string, key: string)
    requires Ident(key) && |rest| > 0 && Closer(rest[0])
    ensures Scan("\"" + rest, key) == Scan(rest, key)
  {
    var s := "\"" + rest;
    assert s[1] == rest[0];
    assert !IsLetter(rest[0]);
    assert Pattern(key)[1] == key[0];
    assert !StartsWith(s, Pattern(key));
    assert s[1..] == rest;
  }

  /** The opening quote of a safe quoted value cannot start a match of a letter key. */
  lemma OpeningQuoteNoMatch(t: string, rest: string, key: string)
    requires Ident(key) && Safe(t) && |rest| > 0 && Closer(rest[0])
    ensures !StartsWith(Quoted(t) + rest, Pattern(key))
  {
    var s := Quoted(t) + rest;
    var p := Pattern(key);
    var k := |key|;
    if |p| <= |s| {
      var pre := s[..|p|];
      if k < |t| {
        assert pre[k + 1] == t[k] && Plain(t[k]);
        assert pre[k + 1] != p[k + 1];
      } else if k == |t| {
        assert pre[k + 2] == rest[0];
        assert pre[k + 2] != p[k + 2];
      } else {
        assert pre[|t| + 1] == '"';
        assert p[|t| + 1] == key[|t|] && IsLetter(key[|t|]);
        assert pre[|t| + 1] != p[|t| + 1];
      }
    }
  }

  /** The name part of a field matches only its own key. */
  lemma PatternDiffers(name: string, key: string, tail: string)
    requires Ident(name) && Ident(key) && name != key
    ensures !StartsWith(Pattern(name) + tail, Pattern(key))
  {
    var s := Pattern(name) + tail;
    var p := Pattern(key);
    if |p| <= |s| {
      var pre := s[..|p|];
      if |key| < |name| {
        assert pre[|key| + 1] == name[|key|] && IsLetter(name[|key|]);
        assert pre[|key| + 1] != p[|key| + 1];
      } else if |key| > |name| {
        assert pre[|name| + 1] == '"';
        assert p[|name| + 1] == key[|name|] && IsLetter(key[|name|]);
        assert pre[|name| + 1] != p[|name| + 1];
      } else {
        assert exists i :: 0 <= i < |key| && key[i] != name[i];
        var i :| 0 <= i < |key| && key[i] != name[i];
        assert pre[i + 1] == name[i] && p[i + 1] == key[i];
        assert pre[i + 1] != p[i + 1];
      }
    }
  }

  /** The value part of a field followed by a closer adds no match. */
  lemma {:induction false} SkipValue(f: Field, rest: string, key: string)
    requires Ident(key) && Safe(f.text) && |rest| > 0 && Closer(rest[0])
    ensures Scan((if f.quoted then Quoted(f.text) else f.text) + rest, key) == Scan(rest, key)
  {
    if f.quoted {
      var s := Quoted(f.text) + rest;
      OpeningQuoteNoMatch(f.text, rest, key);
      assert s[1..] == f.text + ("\"" + rest);
      SkipSafe(f.text, "\"" + rest, key);
      SkipClosingQuote(rest, key);
    } else {
      SkipSafe(f.text, rest, key);
    }
  }

  /** Names are made of letters, none of which the value group stops at. */
  lemma IdentIsSafe(name: string)
    requires Ident(name)
    ensures Safe(name)
  {
    forall i | 0 <= i < |name|
      ensures Plain(name[i])
    {
      assert IsLetter(name[i]);
    }
  }

  /** The closing quote and colon after a name start no match of a letter key. */
  lemma SkipQuoteColon(tail: string, key: string)
    requires Ident(key)
    ensures Scan("\":" + tail, key) == Scan(tail, key)
  {
    var q := "\":" + tail;
    assert q[1] == ':' && Pattern(key)[1] == key[0] && IsLetter(key[0]);
    assert !StartsWith(q, Pattern(key));
    assert q[1..] == ":" + tail;
    SkipUnquoted(":" + tail, key);
    assert (":" + tail)[1..] == tail;
  }

  /** The name letters, closing quote and colon of a field's name part add no match. */
  lemma SkipNameTail(name: string, tail: string, key: string)
    requires Ident(name) && Ident(key)
    ensures Scan(name + "\":" + tail, key) == Scan(tail, key)
  {
    IdentIsSafe(name);
    assert name + "\":" + tail == name + ("\":" + tail);
    SkipSafe(name, "\":" + tail, key);
    SkipQuoteColon(tail, key);
  }

  /** A field is transparent to a search for another key, and to its own key when its text is empty. */
  lemma FieldSkip(f: Field, rest: string, key: string)
    requires Ident(f.name) && Ident(key) && Safe(f.text)
    requires |rest| > 0 && Closer(rest[0])
    requires f.name != key || |f.text| == 0
    ensures Scan(RenderField(f) + rest, key) == Scan(rest, key)
  {
    var tail := (if f.quoted then Quoted(f.text) else f.text) + rest;
    assert Scan(RenderField(f) + rest, key) == Scan(f.name + "\":" + tail, key) by {
      var s := RenderField(f) + rest;
      assert s == Pattern(f.name) + tail;
      FieldHeadNoMatch(f, rest, key);
      assert s[1..] == f.name + "\":" + tail;
    }
    SkipNameTail(f.name, tail, key);
    SkipValue(f, rest, key);
  }

  lemma FieldHeadNoMatch(f: Field, rest: string, key: string)
    requires Ident(f.name) && Ident(key) && Safe(f.text)
    requires |rest| > 0 && Closer(rest[0])
    requires f.name != key || |f.text| == 0
    ensures MatchHere(RenderField(f) + rest, key).None?
  {
    var tail := (if f.quoted then Quoted(f.text) else f.text) + rest;
    var s := RenderField(f) + rest;
    assert s == Pattern(f.name) + tail;
    if f.name != key {
      PatternDiffers(f.name, key, tail);
    } else {
      var after := s[|Pattern(key)|..];
      assert after == tail;
      if f.quoted {
        assert after[1..] == "\"" + rest;
        assert PlainRun(after[1..]) == "";
      } else {
        assert after == rest;
        assert PlainRun(after) == "";
      }
    }
  }

  /** A field with non-empty text answers a search for its own name with that text. */
  lemma FieldHit(f: Field, rest: string)
    requires Ident(f.name) && Safe(f.text) && |f.text| > 0
    requires |rest| > 0 && Closer(rest[0])
    ensures Scan(RenderField(f) + rest, f.name) == Some(f.text)
  {
    var p := Pattern(f.name);
    var after := if f.quoted then Quoted(f.text) + rest else f.text + rest;
    assert RenderField(f) + rest == p + after;
    ValueAfterPattern(p, after, f.name);
    if f.quoted {
      QuotedValueRun(f.text, rest);
    } else {
      PlainValueRun(f.text, rest);
    }
  }

  /** What the anchored match sees once the pattern is in place. */
  lemma ValueAfterPattern(p: string, after: string, key: string)
    requires p == Pattern(key)
    ensures var body := if |after| > 0 && after[0] == '"' then after[1..] else after;
            MatchHere(p + after, key) == (if |PlainRun(body)| > 0 then Some(PlainRun(body)) else None)
  {
    var s := p + after;
    assert s[..|p|] == p;
    assert s[|p|..] == after;
  }

  /** A quoted value: the opening quote is skipped and the run stops at the closing one. */
  lemma QuotedValueRun(t: string, rest: string)
    requires Safe(t)
    ensures var after := Quoted(t) + rest;
            |after| > 0 && after[0] == '"' && PlainRun(after[1..]) == t
  {
    var after := Quoted(t) + rest;
    assert after[1..] == t + ("\"" + rest);
    PlainRunOfSafe(t, after[1..]);
  }

  /** An unquoted value followed by a closer: the run is the value. */
  lemma PlainValueRun(t: string, rest: string)
    requires Safe(t) && |t| > 0 && |rest| > 0 && Closer(rest[0])
    ensures var after := t + rest;
            after[0] != '"' && PlainRun(after) == t
  {
    var after := t + rest;
    assert after[0] == t[0] && Plain(t[0]);
    PlainRunOfSafe(t, after);
  }

  lemma PlainRunOfSafe(t: string, s: string)
    requires Safe(t) && t <= s && (|s| == |t| || !Plain(s[|t|]))
    ensures PlainRun(s) == t
    decreases |t|
  {
    if |t| > 0 {
      PlainRunOfSafe(t[1..], s[1..]);
    }
  }

  /** The reference reading of a rendered record: the text of the first field named `key`
      whose text is non-empty. */
  function FindField(fs: seq<Field>, key: string): Option<string> {
    if |fs| == 0 then None
    else if fs[0].name == key && |fs[0].text| > 0 then Some(fs[0].text)
    else FindField(fs[1..], key)
  }

  predicate WellFormed(fs: seq<Field>) {
    forall i :: 0 <= i < |fs| ==> Ident(fs[i].name) && Safe(fs[i].text)
  }

  lemma ScanEnd(key: string)
    ensures Scan("}", key) == None
  {
    SkipUnquoted("}", key);
    assert "}"[1..] == "";
  }

  lemma WellFormedTail(fs: seq<Field>)
    requires |fs| > 0 && WellFormed(fs)
    ensures WellFormed(fs[1..])
  {
    forall i | 0 <= i < |fs[1..]|
      ensures Ident(fs[1..][i].name) && Safe(fs[1..][i].text)
    {
      assert fs[1..][i] == fs[i + 1];
    }
  }

  /** Scanning a rendered record agrees with the field-by-field reading. */
  lemma {:induction false} ScanRender(fs: seq<Field>, key: string)
    requires WellFormed(fs) && Ident(key)
    ensures Scan(Render(fs), key) == FindField(fs, key)
    decreases |fs|
  {
    if |fs| == 0 {
      ScanEnd(key);
    } else {
      var f := fs[0];
      assert Ident(f.name) && Safe(f.text);
      var rest := if |fs| == 1 then "}" else "," + Render(fs[1..]);
      assert Render(fs) == RenderField(f) + rest;
      if f.name == key && |f.text| > 0 {
        FieldHit(f, rest);
      } else {
        FieldSkip(f, rest, key);
        if |fs| == 1 {
          ScanEnd(key);
        } else {
          SkipUnquoted(rest, key);
          assert rest[1..] == Render(fs[1..]);
          WellFormedTail(fs);
          ScanRender(fs[1..], key);
        }
      }
    }
  }

  // ---------------------------------------------------------------- the round trip

  predicate SafeOpt(s: Option<string>) {
    s.None? || Safe(s.value)
  }

  predicate InLong(n: int) {
    LONG_MIN <= n <= LONG_MAX
  }

  predicate InInt(n: int) {
    INT_MIN <= n <= INT_MAX
  }

  /** What `serializeTask` can carry without loss: texts the extraction pattern can read back
      and numbers the parsers accept. */
  predicate Transmissible(w: TaskWrapper) {
    var q := w.request;
    Safe(w.taskId) && SafeOpt(q.userIp) && SafeOpt(q.requestId)
    && q.userId.Some? && InLong(q.userId.value)
    && q.productId.Some? && InLong(q.productId.value)
    && InLong(w.createTime)
    && q.quantity.Some? && InInt(q.quantity.value)
    && (q.level.None? || InInt(q.level.value))
    && (q.credit.None? || InInt(q.credit.value))
  }

  /** What comes back from the queue: nulls replaced by the serializer's defaults, no device. */
  function Normalize(w: TaskWrapper): TaskWrapper {
    var q := w.request;
    TaskWrapper(w.taskId,
      SeckillRequest(q.userId, q.productId, q.quantity, Some(q.userIp.GetOr("")), None,
                     Some(q.level.GetOr(1)), Some(q.credit.GetOr(60)), Some(q.verified.GetOr(false)),
                     Some(q.requestId.GetOr(""))),
      w.createTime)
  }

  lemma NumberSafe(n: int)
    ensures Safe(IntToString(n)) && |IntToString(n)| > 0
  {
    var s := IntToString(n);
    forall i | 0 <= i < |s|
      ensures Plain(s[i])
    {
      if n < 0 && i > 0 {
        assert s[i] == s[1..][i - 1];
      }
    }
  }

  lemma NamesAreIdents()
    ensures Ident("taskId") && Ident("userId") && Ident("productId") && Ident("createTime")
    ensures Ident("userIp") && Ident("quantity") && Ident("userLevel") && Ident("creditScore")
    ensures Ident("isVerified") && Ident("requestId")
  {
  }

  /** Every field name is a run of letters, whatever the wrapper holds. */
  lemma NamesWellFormed(w: TaskWrapper)
    ensures forall i :: 0 <= i < |Fields(w)| ==> Ident(Fields(w)[i].name)
  {
    var fs := Fields(w);
    NamesAreIdents();
    forall i | 0 <= i < |fs|
      ensures Ident(fs[i].name)
    {
    }
  }

  lemma TextsSafe(w: TaskWrapper)
    requires Transmissible(w)
    ensures forall i :: 0 <= i < |Fields(w)| ==> Safe(Fields(w)[i].text)
  {
    var q := w.request;
    var fs := Fields(w);
    NumberSafe(q.userId.value);
    NumberSafe(q.productId.value);
    NumberSafe(w.createTime);
    NumberSafe(q.quantity.value);
    NumberSafe(q.level.GetOr(1));
    NumberSafe(q.credit.GetOr(60));
    assert Safe(BoolToString(q.verified.GetOr(false)));
    forall i | 0 <= i < |fs|
      ensures Safe(fs[i].text)
    {
    }
  }

  lemma FieldsWellFormed(w: TaskWrapper)
    requires Transmissible(w)
    ensures WellFormed(Fields(w))
  {
    NamesWellFormed(w);
    TextsSafe(w);
  }

  predicate DistinctNames(fs: seq<Field>) {
    forall i, j :: 0 <= i < |fs| && 0 <= j < |fs| && i != j ==> fs[i].name != fs[j].name
  }

  /** In a record with distinct names, reading a field gives back exactly the text written for it. */
  lemma ExtractRendered(fs: seq<Field>, i: nat)
    requires WellFormed(fs) && DistinctNames(fs) && i < |fs|
    ensures Extract("{" + Render(fs), fs[i].name) == fs[i].text
  {
    var json := "{" + Render(fs);
    ScanRender(fs, fs[i].name);
    assert json[1..] == Render(fs);
    SkipUnquoted(json, fs[i].name);
    FindDistinct(fs, i);
  }

  lemma FieldNamesDistinct(w: TaskWrapper)
    ensures DistinctNames(Fields(w))
  {
    var fs := Fields(w);
    assert "taskId"[0] != "userId"[0] && "taskId"[0] != "userIp"[0] && "userId"[5] != "userIp"[5];
    assert "productId"[0] != "userLevel"[0] && "productId"[0] != "requestId"[0] && "userLevel"[0] != "requestId"[0];
    assert "createTime"[0] != "isVerified"[0];
    forall i, j | 0 <= i < |fs| && 0 <= j < |fs| && i != j
      ensures fs[i].name != fs[j].name
    {
    }
  }

  /** Reading a field of a serialized wrapper gives back exactly the text written for it. */
  lemma ExtractField(w: TaskWrapper, i: nat)
    requires Transmissible(w) && i < 10
    ensures Extract(Serialize(w), Fields(w)[i].name) == Fields(w)[i].text
  {
    FieldsWellFormed(w);
    FieldNamesDistinct(w);
    ExtractRendered(Fields(w), i);
  }

  lemma FindDistinct(fs: seq<Field>, i: nat)
    requires i < |fs|
    requires forall j :: 0 <= j < |fs| && j != i ==> fs[j].name != fs[i].name
    ensures FindField(fs, fs[i].name).GetOr("") == fs[i].text
    decreases i
  {
    if i > 0 {
      FindDistinct(fs[1..], i - 1);
    } else if |fs[0].text| == 0 {
      FindAbsent(fs[1..], fs[0].name);
    }
  }

  lemma FindAbsent(fs: seq<Field>, key: string)
    requires forall j :: 0 <= j < |fs| ==> fs[j].name != key
    ensures FindField(fs, key) == None
    decreases |fs|
  {
    if |fs| > 0 {
      FindAbsent(fs[1..], key);
    }
  }

  /** Deserialization undoes serialization, up to the serializer's null defaults. */
  lemma TaskRoundTrip(w: TaskWrapper)
    requires Transmissible(w)
    ensures Deserialize(Serialize(w)) == Some(Normalize(w))
  {
    ExtractNumbers(w);
    ExtractSettings(w);
    ExtractTexts(w);
    ReadBack(Serialize(w), w);
  }

  /** `ExtractField` for a field whose name and text the caller names. */
  lemma ExtractNamed(w: TaskWrapper, i: nat, name: string, text: string)
    requires Transmissible(w) && i < 10 && Fields(w)[i].name == name && Fields(w)[i].text == text
    ensures Extract(Serialize(w), name) == text
  {
    ExtractField(w, i);
  }

  /** A field written as the decimal form of a long parses back to it. */
  lemma ReadsLong(w: TaskWrapper, i: nat, name: string, n: int)
    requires Transmissible(w) && i < 10 && Fields(w)[i].name == name && Fields(w)[i].text == IntToString(n)
    requires InLong(n)
    ensures ParseLong(Extract(Serialize(w), name)) == Some(n)
  {
    ExtractNamed(w, i, name, IntToString(n));
    LongRoundTrip(n);
  }

  /** A field written as the decimal form of an int parses back to it. */
  lemma ReadsInt(w: TaskWrapper, i: nat, name: string, n: int)
    requires Transmissible(w) && i < 10 && Fields(w)[i].name == name && Fields(w)[i].text == IntToString(n)
    requires InInt(n)
    ensures ParseInt(Extract(Serialize(w), name)) == Some(n)
  {
    ExtractNamed(w, i, name, IntToString(n));
    IntRoundTrip(n);
  }

  /** The identifiers and the creation time of a serialized wrapper parse back to their values. */
  lemma ExtractNumbers(w: TaskWrapper)
    requires Transmissible(w)
    ensures var json := Serialize(w);
            var q := w.request;
            && ParseLong(Extract(json, "userId")) == Some(q.userId.value)
            && ParseLong(Extract(json, "productId")) == Some(q.productId.value)
            && ParseLong(Extract(json, "createTime")) == Some(w.createTime)
  {
    var q := w.request;
    ReadsLong(w, 1, "userId", q.userId.value);
    ReadsLong(w, 2, "productId", q.productId.value);
    ReadsLong(w, 3, "createTime", w.createTime);
  }

  /** The quantity and the user's standing in a serialized wrapper parse back to their values,
      absent ones to the serializer's defaults. */
  lemma ExtractSettings(w: TaskWrapper)
    requires Transmissible(w)
    ensures var json := Serialize(w);
            var q := w.request;
            && ParseInt(Extract(json, "quantity")) == Some(q.quantity.value)
            && ParseInt(Extract(json, "userLevel")) == Some(q.level.GetOr(1))
            && ParseInt(Extract(json, "creditScore")) == Some(q.credit.GetOr(60))
            && ParseBoolean(Extract(json, "isVerified")) == q.verified.GetOr(false)
  {
    var q := w.request;
    ReadsInt(w, 5, "quantity", q.quantity.value);
    ReadsInt(w, 6, "userLevel", q.level.GetOr(1));
    ReadsInt(w, 7, "creditScore", q.credit.GetOr(60));
    ExtractNamed(w, 8, "isVerified", BoolToString(q.verified.GetOr(false)));
    BooleanRoundTrip(q.verified.GetOr(false));
  }

  /** The text fields of a serialized wrapper read back as written. */
  lemma ExtractTexts(w: TaskWrapper)
    requires Transmissible(w)
    ensures var json := Serialize(w);
            && Extract(json, "taskId") == w.taskId
            && Extract(json, "userIp") == w.request.userIp.GetOr("")
            && Extract(json, "requestId") == w.request.requestId.GetOr("")
  {
    ExtractNamed(w, 0, "taskId", w.taskId);
    ExtractNamed(w, 4, "userIp", w.request.userIp.GetOr(""));
    ExtractNamed(w, 9, "requestId", w.request.requestId.GetOr(""));
  }

  /** A record whose fields parse to `w`'s values deserializes to `w` normalized. */
  lemma ReadBack(json: string, w: TaskWrapper)
    requires var q := w.request;
             && q.userId.Some? && q.productId.Some? && q.quantity.Some?
             && ParseLong(Extract(json, "userId")) == Some(q.userId.value)
             && ParseLong(Extract(json, "productId")) == Some(q.productId.value)
             && ParseLong(Extract(json, "createTime")) == Some(w.createTime)
             && ParseInt(Extract(json, "quantity")) == Some(q.quantity.value)
             && ParseInt(Extract(json, "userLevel")) == Some(q.level.GetOr(1))
             && ParseInt(Extract(json, "creditScore")) == Some(q.credit.GetOr(60))
             && ParseBoolean(Extract(json, "isVerified")) == q.verified.GetOr(false)
             && Extract(json, "taskId") == w.taskId
             && Extract(json, "userIp") == q.userIp.GetOr("")
             && Extract(json, "requestId") == q.requestId.GetOr("")
    ensures Deserialize(json) == Some(Normalize(w))
  {
  }

  /** A null quantity is written as `null`, which `Integer.parseInt` rejects: the task cannot be read back. */
  lemma NullQuantityIsLost(w: TaskWrapper)
    requires Transmissible(w.(request := w.request.(quantity := Some(0))))
    requires w.request.quantity.None?
    ensures Deserialize(Serialize(w)) == None
  {
    assert Extract(Serialize(w), "quantity") == "null" by {
      NullQuantityWritten(w);
    }
    assert ParseInt("null").None?;
  }

  /** With a null quantity the record still renders well formed, with `null` as the quantity's text. */
  lemma NullQuantityWritten(w: TaskWrapper)
    requires Transmissible(w.(request := w.request.(quantity := Some(0))))
    requires w.request.quantity.None?
    ensures Extract(Serialize(w), "quantity") == "null"
  {
    var v := w.(request := w.request.(quantity := Some(0)));
    var fs := Fields(w);
    NamesWellFormed(w);
    TextsSafe(v);
    assert WellFormed(fs) by {
      forall i | 0 <= i < |fs|
        ensures Ident(fs[i].name) && Safe(fs[i].text)
      {
        if i != 5 {
          assert fs[i].text == Fields(v)[i].text;
        }
      }
    }
    FieldNamesDistinct(w);
    ExtractRendered(fs, 5);
  }

  // ---------------------------------------------------------------- queue keys and retries

  /** `extractProductIdFromQueueKey`: drop as many characters as the prefix has, parse the rest;
      a key shorter than the prefix or a non-number gives null. */
  function ProductIdOfQueueKey(key: string): (r: Option<int>)
    ensures r.Some? <==> |key| >= |SECKILL_QUEUE_PREFIX| && ParseLong(key[|SECKILL_QUEUE_PREFIX|..]).Some?
    ensures r.Some? ==> InLong(r.value)
  {
    if |key| < |SECKILL_QUEUE_PREFIX| then None else ParseLong(key[|SECKILL_QUEUE_PREFIX|..])
  }

  function QueueKey(productId: int): string {
    SECKILL_QUEUE_PREFIX + IntToString(productId)
  }

  lemma QueueKeyRoundTrip(productId: int)
    requires InLong(productId)
    ensures ProductIdOfQueueKey(QueueKey(productId)) == Some(productId)
  {
    assert QueueKey(productId)[|SECKILL_QUEUE_PREFIX|..] == IntToString(productId);
    LongRoundTrip(productId);
  }

  /** `addToRetryQueue`'s entry: the task, the error text and the time. */
  function RetryEntry(task: string, error: Option<string>, now: int): string {
    task + RETRY_ERROR_MARK + RetryTrailer(error, now)
  }

  function RetryTrailer(error: Option<string>, now: int): string {
    ShowString(error) + RETRY_TIME_MARK + IntToString(now)
  }

  /** `processRetryQueue`: the original task is the first piece of a split on `|ERROR:`. */
  function OriginalOfRetry(entry: string): (r: Option<string>)
    ensures r.Some? <==> |JavaSplit(entry, RETRY_ERROR_MARK)| >= 1
  {
    var parts := JavaSplit(entry, RETRY_ERROR_MARK);
    if |parts| >= 1 then Some(parts[0]) else None
  }

  lemma ErrorMarkUnique()
    ensures HeadUnique(RETRY_ERROR_MARK)
  {
  }

  predicate BarFree(t: string) {
    forall i :: 0 <= i < |t| ==> t[i] != '|'
  }

  /** The retry queue hands back the task unchanged whenever the task text itself holds no `|ERROR:`. */
  lemma RetryRecoversTask(task: string, error: Option<string>, now: int)
    requires |task| > 0 && IndexOf(task, RETRY_ERROR_MARK).None?
    ensures OriginalOfRetry(RetryEntry(task, error, now)) == Some(task)
  {
    ErrorMarkUnique();
    SplitHeadIsPrefix(task, RETRY_ERROR_MARK, RetryTrailer(error, now));
  }

  /** A serialized task whose texts hold no `|` survives a trip through the retry queue. */
  lemma SerializedTaskRetries(w: TaskWrapper, error: Option<string>, now: int)
    requires BarFree(w.taskId) && BarFree(w.request.userIp.GetOr("")) && BarFree(w.request.requestId.GetOr(""))
    ensures OriginalOfRetry(RetryEntry(Serialize(w), error, now)) == Some(Serialize(w))
  {
    SerializedBarFree(w);
    BarFreeHasNoMark(Serialize(w));
    RetryRecoversTask(Serialize(w), error, now);
  }

  lemma BarFreeHasNoMark(t: string)
    requires BarFree(t)
    ensures IndexOf(t, RETRY_ERROR_MARK).None?
  {
    forall j | 0 <= j && j + |RETRY_ERROR_MARK| <= |t|
      ensures !OccursAt(t, RETRY_ERROR_MARK, j)
    {
      assert t[j..j + |RETRY_ERROR_MARK|][0] == t[j] != RETRY_ERROR_MARK[0];
    }
  }

  lemma SerializedBarFree(w: TaskWrapper)
    requires BarFree(w.taskId) && BarFree(w.request.userIp.GetOr("")) && BarFree(w.request.requestId.GetOr(""))
    ensures BarFree(Serialize(w))
  {
    var task := Serialize(w);
    FieldsBarFree(w);
    RenderBarFree(Fields(w));
    var r := Render(Fields(w));
    assert task == "{" + r;
    forall i | 0 <= i < |task|
      ensures task[i] != '|'
    {
      if i > 0 {
        assert task[i] == r[i - 1];
      }
    }
  }

  lemma FieldsBarFree(w: TaskWrapper)
    requires BarFree(w.taskId) && BarFree(w.request.userIp.GetOr("")) && BarFree(w.request.requestId.GetOr(""))
    ensures forall i :: 0 <= i < |Fields(w)| ==> BarFree(Fields(w)[i].name) && BarFree(Fields(w)[i].text)
  {
    var fs := Fields(w);
    NamesWellFormed(w);
    forall i | 0 <= i < |fs|
      ensures BarFree(fs[i].name)
    {
      IdentBarFree(fs[i].name);
    }
    TextsBarFree(w);
  }

  lemma IdentBarFree(name: string)
    requires Ident(name)
    ensures BarFree(name)
  {
    forall i | 0 <= i < |name|
      ensures name[i] != '|'
    {
      assert IsLetter(name[i]);
    }
  }

  lemma TextsBarFree(w: TaskWrapper)
    requires BarFree(w.taskId) && BarFree(w.request.userIp.GetOr("")) && BarFree(w.request.requestId.GetOr(""))
    ensures forall i :: 0 <= i < |Fields(w)| ==> BarFree(Fields(w)[i].text)
  {
    var q := w.request;
    var fs := Fields(w);
    NumberBarFree(ShowLong(q.userId));
    NumberBarFree(ShowLong(q.productId));
    NumberBarFree(ShowLong(q.quantity));
    NumberBarFree(IntToString(w.createTime));
    NumberBarFree(IntToString(q.level.GetOr(1)));
    NumberBarFree(IntToString(q.credit.GetOr(60)));
    assert BarFree(BoolToString(q.verified.GetOr(false)));
    forall i | 0 <= i < |fs|
      ensures BarFree(fs[i].text)
    {
    }
  }

  lemma NumberBarFree(s: string)
    requires s == "null" || (|s| > 0 && (AllDigits(s) || (s[0] == '-' && AllDigits(s[1..]))))
    ensures BarFree(s)
  {
    forall i | 0 <= i < |s|
      ensures s[i] != '|'
    {
      if s != "null" && s[0] == '-' && i > 0 {
        assert s[i] == s[1..][i - 1];
      }
    }
  }

  /** Joining two texts without a bar gives a text without a bar. */
  lemma ConcatBarFree(a: string, b: string)
    requires BarFree(a) && BarFree(b)
    ensures BarFree(a + b)
  {
    forall i | 0 <= i < |a + b|
      ensures (a + b)[i] != '|'
    {
      if i >= |a| {
        assert (a + b)[i] == b[i - |a|];
      }
    }
  }

  /** A field whose name and text hold no bar renders without one. */
  lemma FieldBarFree(f: Field)
    requires BarFree(f.name) && BarFree(f.text)
    ensures BarFree(RenderField(f))
  {
    ConcatBarFree("\"", f.name);
    ConcatBarFree("\"" + f.name, "\":");
    if f.quoted {
      ConcatBarFree("\"", f.text);
      ConcatBarFree("\"" + f.text, "\"");
    }
    ConcatBarFree(Pattern(f.name), if f.quoted then Quoted(f.text) else f.text);
  }

  lemma {:induction false} RenderBarFree(fs: seq<Field>)
    requires forall i :: 0 <= i < |fs| ==> BarFree(fs[i].name) && BarFree(fs[i].text)
    ensures BarFree(Render(fs))
    decreases |fs|
  {
    if |fs| > 0 {
      FieldBarFree(fs[0]);
      if |fs| == 1 {
        ConcatBarFree(RenderField(fs[0]), "}");
      } else {
        RenderBarFree(fs[1..]);
        ConcatBarFree(",", Render(fs[1..]));
        ConcatBarFree(RenderField(fs[0]), "," + Render(fs[1..]));
      }
    }
  }
}

=== FILE: text.dfy ===
/** The pieces of Java's string and number handling that the flash-sale services lean on:
    decimal rendering and parsing of integers (`String.valueOf`, `Long.parseLong`,
    `Integer.parseInt`), `Boolean.parseBoolean`, lower-case hex rendering of bytes,
    first-occurrence search and `String.split` with a literal delimiter, and the
    wrap-around, truncating division and dividend-signed remainder of Java's
    integer arithmetic. */
module Text {
  import opened Wrappers

  const LONG_MIN: int := -0x8000_0000_0000_0000
  const LONG_MAX: int := 0x7FFF_FFFF_FFFF_FFFF
  const INT_MIN: int := -0x8000_0000
  const INT_MAX: int := 0x7FFF_FFFF

  newtype byte = x: int | 0 <= x < 256

  const TWO_32: int := 0x1_0000_0000

  /** Java `int` arithmetic: the representative of `x` modulo 2^32 in the int range. */
  function Wrap32(x: int): (r: int)
    ensures INT_MIN <= r <= INT_MAX
    ensures (r - x) % TWO_32 == 0
    ensures INT_MIN <= x <= INT_MAX ==> r == x
  {
    var m := (x - INT_MIN) % TWO_32;
    m + INT_MIN
  }

  /** Java's integer division, which rounds toward zero. */
  function JavaDiv(a: int, b: int): (q: int)
    requires b != 0
    ensures a >= 0 && b > 0 ==> q == a / b
    ensures b > 0 ==> (q <= 0 <==> a < b) && (q < 0 <==> a <= -b)
  {
    if (a >= 0) == (b > 0) then (if a >= 0 then a / b else (-a) / (-b))
    else -((if a >= 0 then a else -a) / (if b > 0 then b else -b))
  }

  /** Java's remainder, which takes the sign of the dividend. */
  function JavaRem(a: int, b: int): (r: int)
    requires b != 0
    ensures a >= 0 ==> 0 <= r < (if b > 0 then b else -b)
    ensures a <= 0 ==> -(if b > 0 then b else -b) < r <= 0
    ensures a >= 0 && b > 0 ==> r == a % b
  {
    var m := (if a >= 0 then a else -a) % (if b > 0 then b else -b);
    if a >= 0 then m else -m
  }

  /** A multiple of a positive number leaves no remainder. */
  lemma MultipleHasNoRemainder(k: int, b: int)
    requires b > 0
    ensures (k * b) % b == 0
  {
    var q := (k * b) / b;
    var m := (k * b) % b;
    var j := k - q;
    assert j * b == k * b - q * b;
    assert j * b == m;
  }

  predicate IsDigit(c: char) {
    '0' <= c <= '9'
  }

  predicate AllDigits(s: string) {
    forall i :: 0 <= i < |s| ==> IsDigit(s[i])
  }

  function DigitValue(c: char): nat
    requires IsDigit(c)
  {
    c as int - '0' as int
  }

  function DigitChar(d: nat): (c: char)
    requires d < 10
    ensures IsDigit(c) && DigitValue(c) == d
  {
    ('0' as int + d) as char
  }

  /** Decimal rendering of a natural number: at least one digit, no leading zero. */
  function NatToString(n: nat): (s: string)
    ensures |s| > 0 && AllDigits(s)
    ensures |s| > 1 ==> s[0] != '0'
  {
    if n < 10 then [DigitChar(n)] else NatToString(n / 10) + [DigitChar(n % 10)]
  }

  /** `String.valueOf(long)`: a minus sign for negative values, then the digits of the magnitude. */
  function IntToString(n: int): (s: string)
    ensures |s| > 0
    ensures n >= 0 ==> AllDigits(s)
    ensures n < 0 ==> s[0] == '-' && |s| > 1 && AllDigits(s[1..])
  {
    if n < 0 then "-" + NatToString(-n) else NatToString(n)
  }

  /** The value of a digit string read most significant digit first. */
  function DigitsValue(s: string): nat
    requires AllDigits(s)
  {
    if |s| == 0 then 0 else DigitsValue(s[..|s| - 1]) * 10 + DigitValue(s[|s| - 1])
  }

  lemma {:induction false} NatToStringRoundTrip(n: nat)
    ensures DigitsValue(NatToString(n)) == n
  {
    if n >= 10 {
      var s := NatToString(n);
      NatToStringRoundTrip(n / 10);
      assert s[..|s| - 1] == NatToString(n / 10);
    }
  }

  /** What `Long.parseLong` accepts before its range check: an optional `+` or `-`,
      then one or more digits, and nothing else. Digits here are the ASCII ones; Java
      also accepts the other Unicode decimal digits. */
  function ParseDecimal(s: string): (r: Option<int>)
    ensures r.Some? <==> |s| > 0 && (((s[0] == '-' || s[0] == '+') && |s| > 1 && AllDigits(s[1..])) || AllDigits(s))
    ensures r.Some? && |s| > 0 && s[0] != '-' ==> r.value >= 0
  {
    if |s| == 0 then None
    else if s[0] == '-' || s[0] == '+' then
      if |s| > 1 && AllDigits(s[1..]) then
        var magnitude: int := DigitsValue(s[1..]);
        Some(if s[0] == '-' then -magnitude else magnitude)
      else None
    else if AllDigits(s) then Some(DigitsValue(s))
    else None
  }

  /** `Long.parseLong`: `None` stands for the `NumberFormatException`. */
  function ParseLong(s: string): (r: Option<int>)
    ensures r.Some? ==> LONG_MIN <= r.value <= LONG_MAX && ParseDecimal(s) == r
    ensures r.None? ==> ParseDecimal(s).None? || ParseDecimal(s).value < LONG_MIN || ParseDecimal(s).value > LONG_MAX
  {
    match ParseDecimal(s)
    case Some(v) => if LONG_MIN <= v <= LONG_MAX then Some(v) else None
    case None => None
  }

  /** `Integer.parseInt`: `None` stands for the `NumberFormatException`. */
  function ParseInt(s: string): (r: Option<int>)
    ensures r.Some? ==> INT_MIN <= r.value <= INT_MAX && ParseDecimal(s) == r
    ensures r.None? ==> ParseDecimal(s).None? || ParseDecimal(s).value < INT_MIN || ParseDecimal(s).value > INT_MAX
  {
    match ParseDecimal(s)
    case Some(v) => if INT_MIN <= v <= INT_MAX then Some(v) else None
    case None => None
  }

  /** Parsing undoes rendering, for every integer. */
  lemma DecimalRoundTrip(n: int)
    ensures ParseDecimal(IntToString(n)) == Some(n)
  {
    if n < 0 {
      NatToStringRoundTrip(-n);
      assert IntToString(n)[1..] == NatToString(-n);
    } else {
      NatToStringRoundTrip(n);
    }
  }

  lemma LongRoundTrip(n: int)
    requires LONG_MIN <= n <= LONG_MAX
    ensures ParseLong(IntToString(n)) == Some(n)
  {
    DecimalRoundTrip(n);
  }

  lemma IntRoundTrip(n: int)
    requires INT_MIN <= n <= INT_MAX
    ensures ParseInt(IntToString(n)) == Some(n)
  {
    DecimalRoundTrip(n);
  }

  /** String concatenation of a possibly-null string: `null` reads as "null". */
  function ShowString(s: Option<string>): string {
    if s.Some? then s.value else "null"
  }

  /** String concatenation of a possibly-null boxed integer. */
  function ShowLong(n: Option<int>): string {
    if n.Some? then IntToString(n.value) else "null"
  }

  function LowerAscii(c: char): char {
    if 'A' <= c <= 'Z' then (c as int + 32) as char else c
  }

  /** `Boolean.parseBoolean`: true exactly for "true" in any mix of letter cases. */
  predicate ParseBoolean(s: string) {
    |s| == 4 && LowerAscii(s[0]) == 't' && LowerAscii(s[1]) == 'r'
      && LowerAscii(s[2]) == 'u' && LowerAscii(s[3]) == 'e'
  }

  /** `String.valueOf(boolean)`. */
  function BoolToString(b: bool): string {
    if b then "true" else "false"
  }

  lemma BooleanRoundTrip(b: bool)
    ensures ParseBoolean(BoolToString(b)) == b
  {
  }

  predicate IsHexDigit(c: char) {
    '0' <= c <= '9' || 'a' <= c <= 'f'
  }

  function HexChar(d: nat): (c: char)
    requires d < 16
    ensures IsHexDigit(c)
  {
    if d < 10 then ('0' as int + d) as char else ('a' as int + d - 10) as char
  }

  function HexValue(c: char): nat
    requires IsHexDigit(c)
  {
    if c <= '9' then c as int - '0' as int else c as int - 'a' as int + 10
  }

  /** `Integer.toHexString(0xff & b)` followed by the zero padding to two characters
      that the token generator applies. */
  function ByteHex(b: byte): (h: string)
    ensures |h| == 2 && IsHexDigit(h[0]) && IsHexDigit(h[1])
    ensures HexValue(h[0]) * 16 + HexValue(h[1]) == b as int
  {
    var minimal := if b < 16 then [HexChar(b as nat)] else [HexChar(b as nat / 16), HexChar(b as nat % 16)];
    if |minimal| == 1 then "0" + minimal else minimal
  }

  /** Lower-case hex rendering of a byte string, two characters per byte. */
  function HexEncode(bs: seq<byte>): (h: string)
    ensures |h| == 2 * |bs|
    ensures forall i :: 0 <= i < |h| ==> IsHexDigit(h[i])
  {
    if |bs| == 0 then "" else ByteHex(bs[0]) + HexEncode(bs[1..])
  }

  /** Reads pairs of hex characters back into bytes. */
  function HexDecode(h: string): seq<byte>
    requires |h| % 2 == 0
    requires forall i :: 0 <= i < |h| ==> IsHexDigit(h[i])
  {
    if |h| == 0 then []
    else [(HexValue(h[0]) * 16 + HexValue(h[1])) as byte] + HexDecode(h[2..])
  }

  lemma {:induction false} HexRoundTrip(bs: seq<byte>)
    ensures HexDecode(HexEncode(bs)) == bs
  {
    if |bs| > 0 {
      var h := HexEncode(bs);
      assert h[2..] == HexEncode(bs[1..]);
      HexRoundTrip(bs[1..]);
    }
  }

  /** The first `2 * k` hex characters are the encoding of the first `k` bytes. */
  lemma {:induction false} HexEncodePrefix(bs: seq<byte>, k: nat)
    requires k <= |bs|
    ensures HexEncode(bs)[..2 * k] == HexEncode(bs[..k])
  {
    if k > 0 {
      HexEncodePrefix(bs[1..], k - 1);
      assert bs[..k][1..] == bs[1..][..k - 1];
    }
  }

  predicate StartsWith(s: string, p: string) {
    |p| <= |s| && s[..|p|] == p
  }

  /** `d` occurs in `s` starting at position `j`. */
  predicate OccursAt(s: string, d: string, j: int) {
    0 <= j && j + |d| <= |s| && s[j..j + |d|] == d
  }

  /** Position of the first occurrence of a non-empty `d` in `s` (`String.indexOf`). */
  function IndexOf(s: string, d: string): (r: Option<nat>)
    requires |d| > 0
    ensures r.Some? ==> OccursAt(s, d, r.value)
    ensures r.Some? ==> forall j :: 0 <= j < r.value ==> !OccursAt(s, d, j)
    ensures r.None? ==> forall j :: !OccursAt(s, d, j)
  {
    if |s| < |d| then None
    else if s[..|d|] == d then Some(0)
    else
      var tail := IndexOf(s[1..], d);
      ShiftOccurs(s, d);
      if tail.None? then None else Some(tail.value + 1)
  }

  /** Occurrences in `s[1..]` are the occurrences in `s` moved one place left. */
  lemma ShiftOccurs(s: string, d: string)
    requires |s| > 0
    ensures forall j :: 1 <= j ==> (OccursAt(s, d, j) <==> OccursAt(s[1..], d, j - 1))
  {
    forall j | 1 <= j
      ensures OccursAt(s, d, j) <==> OccursAt(s[1..], d, j - 1)
    {
      if j + |d| <= |s| {
        assert s[1..][j - 1..j - 1 + |d|] == s[j..j + |d|];
      }
    }
  }

  /** The pieces of `s` between successive non-overlapping occurrences of `d`, scanning left to right. */
  function SplitAll(s: string, d: string): (parts: seq<string>)
    requires |d| > 0
    ensures |parts| >= 1
    decreases |s|
  {
    match IndexOf(s, d)
    case None => [s]
    case Some(i) => [s[..i]] + SplitAll(s[i + |d|..], d)
  }

  function DropTrailingEmpty(parts: seq<string>): (r: seq<string>)
    ensures |r| <= |parts| && r == parts[..|r|]
    ensures |r| > 0 ==> r[|r| - 1] != ""
  {
    if |parts| == 0 then []
    else if parts[|parts| - 1] == "" then DropTrailingEmpty(parts[..|parts| - 1])
    else parts
  }

  /** `String.split` with a literal delimiter and no limit: the whole input when the
      delimiter never occurs, otherwise the pieces with trailing empty pieces removed. */
  function JavaSplit(s: string, d: string): seq<string>
    requires |d| > 0
  {
    if IndexOf(s, d).None? then [s] else DropTrailingEmpty(SplitAll(s, d))
  }

  lemma {:induction false} DropKeepsNonEmptyHead(parts: seq<string>)
    requires |parts| > 0 && parts[0] != ""
    ensures |DropTrailingEmpty(parts)| > 0 && DropTrailingEmpty(parts)[0] == parts[0]
  {
    if parts[|parts| - 1] == "" {
      assert |parts| > 1;
      DropKeepsNonEmptyHead(parts[..|parts| - 1]);
    }
  }

  /** A delimiter whose first character occurs nowhere else in it cannot straddle the
      boundary between a text free of the delimiter and a following copy of it. */
  predicate HeadUnique(d: string) {
    |d| > 0 && forall k :: 0 < k < |d| ==> d[k] != d[0]
  }

  lemma {:induction false} IndexOfAfterClean(task: string, d: string, rest: string)
    requires HeadUnique(d)
    requires IndexOf(task, d).None?
    ensures IndexOf(task + d + rest, d) == Some(|task|)
    decreases |task|
  {
    var s := task + d + rest;
    if |task| == 0 {
      assert s[..|d|] == d;
    } else {
      var t := task[1..];
      assert IndexOf(t, d).None? by {
        ShiftOccurs(task, d);
        forall j
          ensures !OccursAt(t, d, j)
        {
          assert !OccursAt(task, d, j + 1);
        }
      }
      IndexOfAfterClean(t, d, rest);
      assert s[1..] == t + d + rest;
      NotAtStart(task, d, rest);
    }
  }

  lemma NotAtStart(task: string, d: string, rest: string)
    requires HeadUnique(d)
    requires |task| > 0 && IndexOf(task, d).None?
    ensures (task + d + rest)[..|d|] != d
  {
    var s := task + d + rest;
    if |task| >= |d| {
      assert s[..|d|] == task[0..|d|];
      assert !OccursAt(task, d, 0);
    } else {
      var k := |task|;
      assert s[k] == d[0];
      assert 0 < k < |d|;
      assert d[k] != d[0];
      assert s[..|d|][k] != d[k];
    }
  }

  /** The first piece of `task + d + rest` split on `d` is `task`, when `task` is
      non-empty and free of `d`. */
  lemma SplitHeadIsPrefix(task: string, d: string, rest: string)
    requires HeadUnique(d)
    requires |task| > 0 && IndexOf(task, d).None?
    ensures |JavaSplit(task + d + rest, d)| > 0
    ensures JavaSplit(task + d + rest, d)[0] == task
  {
    var s := task + d + rest;
    IndexOfAfterClean(task, d, rest);
    assert s[..|task|] == task;
    var parts := SplitAll(s, d);
    assert parts[0] == task;
    DropKeepsNonEmptyHead(parts);
  }
}

=== FILE: user_roles.dfy ===
/** Role codes of platform accounts and the questions the services ask of them. */
module UserRoles {
  import opened Wrappers

  const BUYER: int := 1
  const VIP_BUYER: int := 2
  const MERCHANT: int := 3
  const ADMIN: int := 4

  const UNKNOWN_NAME: string := "未知"

  /** Display name of a role; a missing or unrecognised role reads as unknown. */
  function RoleName(role: Option<int>): (name: string)
    ensures name != UNKNOWN_NAME <==> role.Some? && BUYER <= role.value <= ADMIN
  {
    match role
    case None => UNKNOWN_NAME
    case Some(r) =>
      if r == BUYER then "普通买家"
      else if r == VIP_BUYER then "VIP买家"
      else if r == MERCHANT then "商家"
      else if r == ADMIN then "管理员"
      else UNKNOWN_NAME
  }

  predicate IsAdmin(role: Option<int>)
    ensures IsAdmin(role) <==> RoleName(role) == "管理员"
  {
    role == Some(ADMIN)
  }

  predicate IsMerchant(role: Option<int>)
    ensures IsMerchant(role) <==> RoleName(role) == "商家"
  {
    role == Some(MERCHANT)
  }

  predicate IsVip(role: Option<int>)
    ensures IsVip(role) <==> RoleName(role) == "VIP买家"
  {
    role == Some(VIP_BUYER)
  }

  /** Only buyers, ordinary or VIP, may take part in a flash sale. */
  predicate CanSeckill(role: Option<int>)
    ensures CanSeckill(role) <==> RoleName(role) == "普通买家" || RoleName(role) == "VIP买家"
    ensures CanSeckill(role) ==> !IsAdmin(role) && !IsMerchant(role)
  {
    role == Some(BUYER) || role == Some(VIP_BUYER)
  }

  /** At most one of the administrative, merchant and VIP predicates holds, and
      neither administrators nor merchants may take part in a flash sale. */
  lemma RolesExclusive(role: Option<int>)
    ensures !(IsAdmin(role) && IsMerchant(role)) && !(IsAdmin(role) && IsVip(role)) && !(IsMerchant(role) && IsVip(role))
    ensures IsAdmin(role) || IsMerchant(role) ==> !CanSeckill(role)
    ensures IsVip(role) ==> CanSeckill(role)
  {
  }

  /** Two roles with the same known name are the same role. */
  lemma RoleNameInjective(a: Option<int>, b: Option<int>)
    requires RoleName(a) == RoleName(b) != UNKNOWN_NAME
    ensures a == b
  {
  }
}

=== FILE: wrappers.dfy ===
/** Failure-compatible optional values, standing in for Java's nullable references. */
module Wrappers {

  /** `None` plays the part of a Java `null`. */
  datatype Option<+T> = None | Some(value: T) {

    /** The value, or `default` when there is none. */
    function GetOr(default: T): T {
      match this
      case Some(v) => v
      case None() => default
    }
  }

  /** Map lookup that reads a missing key as `None`. */
  function Lookup<K, V>(m: map<K, V>, k: K): (r: Option<V>)
    ensures r.Some? <==> k in m
    ensures r.Some? ==> r.value == m[k]
  {
    if k in m then Some(m[k]) else None
  }

  /** A counter in the key-value store: a missing key reads as zero. */
  function Count<K>(counters: map<K, int>, key: K): int {
    if key in counters then counters[key] else 0
  }

  /** The store's atomic increment by `delta`, which creates a missing key at `delta`. */
  function Increment<K>(counters: map<K, int>, key: K, delta: int): (r: map<K, int>)
    ensures r.Keys == counters.Keys + {key}
    ensures r[key] == Count(counters, key) + delta
    ensures forall k :: k in counters && k != key ==> r[k] == counters[k]
  {
    counters[key := Count(counters, key) + delta]
  }
}
